=== FILE: README.md ===
# logpipe core, modelled in Dafny

logpipe shows a growing stream of log lines in the browser. Each line is highlighted into spans: URLs, dates, paths, tags, numbers, HTTP methods, keywords and errors. The lines can be filtered with tag selectors such as `@@tag="[INFO]"` and free text, and only the rows near the viewport are kept in the DOM. This project models the parts of it that decide what is shown, and proves properties of them:

- **The log store** (`LogStores`, public/utils/log-store.js). The class `LogStore` holds the logs, the filtered positions and a first-in-first-out highlight cache. The model covers tag extraction from highlighted elements, incremental filtering in `addLogs`, and lookups by visible index.
- **The filter** (`Filter`, `FilterControllers`, public/utils/filter.js):
  - the `@@` selector grammar, read by hand as the regular expression reads it;
  - `extractTagGroups`, `matchTags` and `matchesFilter`;
  - the index-building loop of `setFilter`, with the scroll anchor it restores.
- **The worker highlighter** (`Elements`, `Placeholders`, `Ansi`, `HighlightPasses`, `Highlighter`, public/worker/highlight.js):
  - `getHighlightObjects` with its placeholder map, made of the character U+E0153 around a counter;
  - the ANSI, URL, tag, number, HTTP-method, keyword and error passes;
  - the final expansion of placeholders into element objects.
- **The legacy highlighter** (`LegacyHighlight`, public/highlight.js): the HTML-string version with `$n;` placeholders, and its `openingTags` counter that closes exactly the spans it opened.
- **The virtual scroller** (`HeightCaches`, `VirtualScrollers`, public/utils/virtual-scroller.js):
  - the height cache with its prefix sums and binary search;
  - node recycling;
  - the rendered range and its spacers;
  - `scrollToIndex`, `scrollToBottom`, `getScrollAnchor` and `rerender`.
- **`getMimeTypeForFile`** (`Mime`, index.mjs).

Code that updates state in place is modelled as classes, such as `LogStore`, `HeightCache`, `VirtualScroller`, `FilterController` and the two `getReplacement` closures. Their loops are methods whose contracts tie the new state to specification functions, and the properties are proved about those functions. The regular expressions of the highlighting passes are written out where properties depend on them. The others are recognisers passed as parameters.

Three behaviours of the code bound what is claimed:

- The worker's `getHighlightObjects` can throw. Line 208 removes the placeholder character, but line 209 passes the original text on, so a line made of that character alone reaches a `match` that finds nothing (see Findings).
- Concatenating the spans does not always give back the line. Placeholders swallowed by a later pass are never expanded: an IP address inside a quoted string becomes a placeholder in the address pass, and the string pass, which runs after it, then takes that placeholder into the text of its own span. The expansion is proved only for placeholders the final `match` finds.
- `extractTagGroups` reads each match with `split(",")` and `split("=")`, not with the groups of the selector expression, and `matchTags` reads each extracted entry with `split(':')`. Both readings are modelled up to `matchesFilter` (`Filter.MatchesFilter` and `Filter.MatchesFilterAsWritten`), and the lemmas `Filter.EqualsInValueFilter` and `Filter.ColonInTextFilter` show where they differ. The filter controller filters with the first reading (see Findings and Left out).

## Model

| member | source | states |
|---|---|---|
| Text.Lower | public/utils/filter.js:111 | lower-casing keeps the length, turns each capital `A`–`Z` into its small letter, keeps every other character, and leaves no capital letter |
| Text.LowerIdempotent | public/utils/filter.js:111 | lower-casing twice is lower-casing once |
| Text.IndexOf | public/utils/filter.js:54 | the first position of the character, or none when it does not occur |
| Text.IndexOfAfterFree | public/utils/filter.js:54 | in `a + c + b` with no `c` in `a`, the first `c` is right after `a` |
| Text.Split | public/utils/filter.js:52-54 | `split` always gives at least one piece |
| Text.JoinSplit | public/utils/filter.js:52-54 | joining the pieces of a split with the separator gives back the text |
| Text.SplitJoin | public/utils/filter.js:52-54 | splitting pieces joined by a separator none of them holds gives back the pieces |
| Text.SplitThree | public/utils/filter.js:75 | three pieces without the separator, joined by it, split back into exactly those three |
| Text.TrimStart | public/utils/filter.js:107 | drops exactly the leading white space: what is left is a suffix not starting with white space |
| Text.TrimEnd | public/utils/filter.js:107 | drops exactly the trailing white space: what is left is a prefix not ending with white space |
| Text.Trim | public/utils/filter.js:107-108 | the result is the slice of the text after its leading white space, everything before and after it is white space, it starts and ends with no white space, and it is empty exactly when the text is all white space |
| Text.TrimEmpty | public/utils/filter.js:107-108 | trimming gives the empty text exactly when the text is all white space |
| Text.NatToString | public/worker/highlight.js:198-199 | the decimal digits of a number, with no leading zero except for 0 itself |
| Text.DigitsValueOfNatToString | public/worker/highlight.js:198-199 | reading the printed digits of a counter back gives the counter, which the lookup of a placeholder relies on |
| Text.NatToStringInjective | public/worker/highlight.js:198-199 | different numbers print differently |
| Mime.Extension | index.mjs:28 | the extension is the last piece of `path.split(".")`: it holds no `.`, ends the path, is the whole path when there is no `.`, and otherwise follows the last `.` |
| Mime.LastPieceOfSplit | index.mjs:28 | the last piece of a split is a suffix without the separator, preceded by the separator whenever the text holds one |
| Mime.ExtensionAfterLastDot | index.mjs:28 | the extension of `stem.ext` is `ext` whenever `ext` holds no `.` |
| Mime.OwnMimeType | index.mjs:31-41 | an entry exists only for extensions of two to four characters |
| Mime.TableDomain | index.mjs:31-41 | exactly the nine listed extensions have an entry (both directions); the match is case-sensitive |
| Mime.GetMimeTypeForFile | index.mjs:27-43 | the Content-Type is one of the ten the server announces; it is `text/plain` exactly when the extension has no entry, and the entry otherwise |
| Mime.QuerySuffixNotRecognised | index.mjs:28-42 | a query string stays part of the extension, so `/index.js?x=1` is served as `text/plain` |
| Mime.UpperCaseNotRecognised | index.mjs:31-42 | `/INDEX.JS` is served as `text/plain` |
| Mime.ScriptRecognised | index.mjs:28-42 | `/lib/index.js` is served as `text/javascript` |
| Mime.MimeTypeAsWritten | index.mjs:31-42 | as written, the lookup agrees with the corrected one except on names of `Object.prototype` members, where it yields an inherited member instead of a string |
| Mime.ConstructorExtensionIsNotAString | index.mjs:31-42 | as written, `/x.constructor` gets an inherited function rather than a string; the corrected lookup gives `text/plain` |
| LogStores.TagsOfIsPreOrder | public/utils/log-store.js:14-43 | the tags extracted from a forest are the `class:text` entries of its spans taken in pre-order, each element before its children (a reference definition of the recursive walk) |
| LogStores.TagsOfAppend | public/utils/log-store.js:21-39 | walking two lists of nodes in turn yields the tags of the first list, then those of the second |
| LogStores.SpanTag | public/utils/log-store.js:25-30 | a span with one class name yields exactly one tag, `class:text` |
| LogStores.ClassTagsAppend | public/utils/log-store.js:26-30 | one more class name adds exactly one `class:text` entry at the end |
| LogStores.ExtractTags | public/utils/log-store.js:14-43 | the walk that pushes onto one list returns exactly the tags of the reference definition |
| LogStores.Traverse | public/utils/log-store.js:21-39 | visiting a list of nodes appends their tags, in order, to what was collected so far |
| LogStores.Visit | public/utils/log-store.js:22-37 | visiting one node appends its own tags, then those of its element children |
| LogStores.PushClassTags | public/utils/log-store.js:26-30 | the inner loop appends one `class:text` entry per class name, in order |
| LogStores.CacheSize | public/utils/log-store.js:51-58 | a cache whose insertion order lists its keys once each has as many entries as keys in that order |
| LogStores.CacheInsertBounded | public/utils/log-store.js:51-58 | inserting keeps the insertion order well formed, never lets the cache grow past its capacity, and leaves the new value under its id |
| LogStores.CacheInsertEvictsOldest | public/utils/log-store.js:53-57 | a full cache receiving a new id deletes exactly its oldest key, appends the new id to the order, and keeps every other entry with its value |
| LogStores.CacheInsertBelowCapacity | public/utils/log-store.js:53-57 | below capacity a new id is appended and nothing is evicted |
| LogStores.FirstWithId | public/utils/log-store.js:73 | `logs.find` returns the first log with the id, and reports none exactly when no log has it |
| LogStores.FirstWithIdStable | public/utils/log-store.js:73 | appending logs does not change which log is found first for an id already present |
| LogStores.Highlighted | public/utils/log-store.js:79-85 | a highlighted log keeps the raw input as its text and carries the tags extracted from its nodes |
| LogStores.PassesAt | public/utils/log-store.js:104-106 | a log passes exactly when the filter accepts the highlighted form that `getHighlighted` returns for its id |
| LogStores.PassingMembers | public/utils/log-store.js:102-108 | a position is listed exactly when it lies in the scanned range and its log passes (both directions) |
| LogStores.PassingIncreasing | public/utils/log-store.js:102-108 | the listed positions increase strictly and lie in the scanned range |
| LogStores.PassingSplit | public/utils/log-store.js:102-108 | scanning a range in two parts lists the same positions as one scan |
| LogStores.PassingStable | public/utils/log-store.js:96-108 | appending logs does not change which of the earlier positions pass |
| LogStores.IncrementalEqualsRescan | public/utils/log-store.js:96-110 | the filtered list extended by `addLogs` equals a full rescan of the grown log list |
| LogStores.FilteredStaysSorted | public/utils/log-store.js:100-110 | extending a sorted in-range filtered list with the passing new positions keeps it sorted and in range |
| LogStores.LogAt | public/utils/log-store.js:119-125 | without a filter the visual index reads `logs` directly, with one it reads through `filtered`; the result is missing exactly where JavaScript reads `undefined` |
| LogStores.VisibleLogsInOrder | public/utils/log-store.js:119-134 | with a sorted in-range filter every visible index names a log, and visible order is log order |
| LogStores.CoherentAfterAppend | public/utils/log-store.js:66-98 | appending logs keeps every cached entry equal to what highlighting the first log with that id gives |
| LogStores.LogStore.constructor | public/utils/log-store.js:162-170 | a new store has no logs, no filter, an empty cache and a capacity of 10000 |
| LogStores.LogStore.GetVisibleCount | public/utils/log-store.js:132-134 | the number of visible logs is the number of logs, or of filtered positions when a filter is set |
| LogStores.LogStore.GetLogAt | public/utils/log-store.js:119-125 | the log at a visual index, read directly or through the filtered positions; any log returned is one of the store's |
| LogStores.LogStore.CacheHighlighted | public/utils/log-store.js:51-58 | the cache becomes the first-in-first-out insertion of the entry; logs and filter are unchanged |
| LogStores.LogStore.GetHighlighted | public/utils/log-store.js:66-89 | returns the highlighting of the first log with the id (cached or computed), an error naming the id when there is none, caches on a miss only, and keeps the cache coherent |
| LogStores.LogStore.AddLogs | public/utils/log-store.js:96-111 | logs are appended; with an active filter the positions of the passing new logs are appended to it and the cache becomes what `getHighlighted` on each new log's id, in order, makes of it; otherwise the filter and the cache are untouched |
| LogStores.CacheScanHits | public/utils/log-store.js:66-70 | looking up logs whose ids are all cached leaves the cache and its order as they are |
| LogStores.CacheScanKeeps | public/utils/log-store.js:51-89 | looking up a run of logs keeps the cache an insertion-ordered map within its capacity whose entries are what highlighting gives, and the last log looked up is cached |
| LogStores.CacheScanIsVisits | public/utils/log-store.js:66-89 | looking up the logs at a run of positions is looking up their ids in order, the same fold the render pass uses |
| LogStores.CacheVisitKeeps | public/utils/log-store.js:66-89 | one lookup keeps the cache in that form and leaves the looked-up id in it |
| LogStores.LogStore.FilterFrom | public/utils/log-store.js:101-110 | the loop appends exactly the passing positions from the start index on, and the cache is that of the lookups in order |
| LogStores.LogStore.PassingFrom | public/utils/log-store.js:102-109 | the loop collects exactly the passing positions from the start index on, in order, and leaves the cache as the lookups in order make it |
| LogStores.LogStore.PassesFilter | public/utils/log-store.js:103-106 | one turn of the loop decides whether the highlighted log at a position passes, and changes the cache only by that one lookup |
| LogStores.LogStore.ClearFilter | public/utils/log-store.js:140-143 | the filter and its function are cleared; logs and cache are unchanged |
| LogStores.LogStore.SetFiltered | public/utils/log-store.js:151-154 | the filtered positions and filter function are set as given; logs and cache are unchanged |
| Filter.ClassEnd | public/utils/filter.js:36 | `[\w-]+` takes the longest run of class characters: every character before the end is one, the one at the end is not |
| Filter.BodyScan | public/utils/filter.js:36 | the greedy pass over `\"` pairs and non-quote characters stops at a quote or at the end of the text |
| Filter.QuotedEnd | public/utils/filter.js:36 | a match of `="…"` starts with `="`, ends with `"` and holds at least one character between them |
| Filter.SpecAt | public/utils/filter.js:36-37 | one spec read at a class character has a class name and ends after it; a value, when read, is not empty |
| Filter.SpecsAt | public/utils/filter.js:36-37 | the comma-separated specs read from a class character are at least one, and end after the start |
| Filter.MatchesFrom | public/utils/filter.js:32-49 | every match of the global selector lies in the text, starts with `@@` and a class character, and ends where its specs end; the matches come in order |
| Filter.FirstMatchIsLeftmost | public/utils/filter.js:49 | the first match is the leftmost selector: none starts before it, and none at all when nothing matches |
| Filter.MatchesResume | public/utils/filter.js:49 | after each match the search resumes where that match ended |
| Filter.MatchesAreLeftmost | public/utils/filter.js:49 | consecutive matches do not overlap and no selector starts between them |
| Filter.RemoveSelectorsLength | public/utils/filter.js:107 | replacing every match with nothing removes exactly the matched characters |
| Filter.ExtractTagGroups | public/utils/filter.js:48-58 | one group per match, in order, each the group the selector grammar denotes |
| Filter.ExtractTagGroupsAsWritten | public/utils/filter.js:48-58 | as written, one group per match, in order, each read by splitting the match's text on `,` and `=` |
| Filter.SpecsWellFormed | public/utils/filter.js:36-37 | every spec read from a selector has a class name, and its value, when given, is not empty |
| Filter.SpecsAsWritten | public/utils/filter.js:53-56 | one spec per comma-separated piece |
| Filter.AsWrittenOnePerMatch | public/utils/filter.js:48-58 | as written, there is one group per match, read by splitting the match's text after `@@` on `,` and each piece on `=` |
| Filter.AsWrittenWholeSelector | public/utils/filter.js:49-56 | a query that is one selector reads, as written, as the split of its text after `@@` |
| Filter.SpecAtText | public/utils/filter.js:36 | the printed text of a well-formed spec, followed by a comma or the end, reads back as that spec |
| Filter.SpecsAtText | public/utils/filter.js:36-37 | the printed text of a well-formed group, up to the end of the text, reads back as that group |
| Filter.SelectorReads | public/utils/filter.js:32-42 | a printed selector starts a match whose specs run to the end and are the group |
| Filter.SelectorRoundTrip | public/utils/filter.js:32-58 | printing a well-formed group as `@@…` and reading it back gives one match covering the whole text, the group itself, and nothing left once selectors are removed |
| Filter.SpecAsWrittenOfText | public/utils/filter.js:54-55 | splitting a spec's printed text on `=` and slicing the quotes off gives the spec back when its value holds no `=` |
| Filter.SelectorRoundTripAsWritten | public/utils/filter.js:48-58 | on values without `,` or `=`, the splitting reading agrees with the grammar: the group reads back |
| Filter.SplitGroupText | public/utils/filter.js:52-56 | splitting a group's printed text on `,` and each piece on `=` gives back the group |
| Filter.SpecMatchesClassTag | public/utils/filter.js:74-83 | on an extracted `class:text` entry, a spec with a value matches exactly when the class and the whole text are equal (both directions) |
| Filter.SpecMatchesAsWrittenClassTag | public/utils/filter.js:74-83 | the code as written agrees with that only on texts without `:` |
| Filter.ClassTagParts | public/utils/filter.js:75 | an entry `class:text` splits back into its class and its text |
| Filter.AnyTagMatches | public/utils/filter.js:74-83 | `some` is true exactly when some extracted tag matches the spec |
| Filter.GroupMatches | public/utils/filter.js:71-88 | a group matches exactly when some spec of it matches some extracted tag |
| Filter.MatchTagsWith | public/utils/filter.js:67-94 | all groups must match; no groups at all match every log |
| Filter.MatchTags | public/utils/filter.js:67-94 | with the whole text after the first `:` compared, a log's tags pass exactly when every group has a spec matching one of them |
| Filter.MatchTagsAsWritten | public/utils/filter.js:67-94 | the same, with each entry read by `split(':')` as written |
| Filter.MatchesFilter | public/utils/filter.js:100-112 | `matchesFilter` on the corrected reading: a log passes only when every group of the query has a spec matching one of its tags (without selectors, see PlainQuery) |
| Filter.MatchesFilterAsWritten | public/utils/filter.js:100-112 | `matchesFilter` as written: a log passes only when every group read by splitting has a spec matching one of its tags under `split(':')` |
| Filter.PlainQuery | public/utils/filter.js:100-112 | a query without any selector passes exactly the logs whose lower-cased text contains the lower-cased query |
| Filter.SelectorQuery | public/utils/filter.js:100-112 | under the corrected reading, a query that is one selector passes exactly the logs with a tag matching one of its specs, whatever their text |
| Filter.SelectorQueryAsWritten | public/utils/filter.js:100-112 | as written, a query that is one selector whose values hold no `,` or `=` passes exactly the logs with a tag matching one of its specs under `split(':')` |
| Filter.InfoSelector | public/utils/filter.js:28 | the documented `@@tag="[INFO]"` is one group of one spec `tag` with value `[INFO]`, read either way |
| Filter.ListSelector | public/utils/filter.js:29 | the documented `@@tag,number,string` is one group of three specs without values |
| Filter.EqualsInValueText | public/utils/filter.js:52-55 | as written, the spec text `c="a=b"` reads as class `c` with the value `"a` with its first and last characters sliced off |
| Filter.EqualsInValueGroups | public/utils/filter.js:36-58 | `@@c="a=b"` reads as the value `a=b` by the grammar, and as a truncated value as written |
| Filter.EqualsInValueAsWritten | public/utils/filter.js:54-55 | the grammar's reading matches only the tag with text `a=b`; as written, with a one-character `a`, the value becomes empty and every tag of the class matches |
| Filter.ColonInTextAsWritten | public/utils/filter.js:75-82 | a tag whose text holds `:` matches the spec with that text, but never as written |
| Filter.EqualsInValueFilter | public/utils/filter.js:54-55 | the query `@@c="a=b"`, with `a` one character, passes a log with the tag `c:text`, for any text other than `a=b`, as written, and fails it when read by the selector expression |
| Filter.ColonInTextFilter | public/utils/filter.js:75-82 | the query `@@c="a:b"` passes a log with the tag `c:a:b` when the whole text after the first `:` is compared, and fails it as written |
| FilterControllers.FilterSelects | public/utils/filter.js:140-151 | under the corrected reading, a log's position is selected exactly when the highlighted form of the first log with its id matches the query |
| FilterControllers.FilterFn | public/utils/filter.js:140 | the filter function passes a log only when every group of the query matches its tags, and, for a query without selectors, exactly when its text contains the query ignoring case |
| FilterControllers.FindIndex | public/utils/filter.js:157 | the first filtered position whose log has the anchor's id, or -1 exactly when there is none |
| FilterControllers.FilterCountText | public/utils/filter.js:17-24 | the count text is empty exactly when there is no query or no filter; otherwise it is `filtered: (n)` with n the number of filtered logs, in decimal |
| FilterControllers.FilterController.constructor | public/utils/filter.js:12 | the query starts empty |
| FilterControllers.FilterController.SetFilter | public/utils/filter.js:118-170 | under the corrected reading, an empty query clears the filter; any other query sets the filter to exactly the positions whose highlighted logs match it, in order, and keeps the filter function for new logs; logs are unchanged |
| FilterControllers.FilterController.CollectIndices | public/utils/filter.js:143-151 | the loop collects exactly the positions whose highlighted logs pass, in order |
| FilterControllers.FilterController.CollectOne | public/utils/filter.js:145-150 | one turn records the position exactly when its highlighted log passes |
| Elements.TextContentAllAppend | public/lib.js:99-108 | the text of two lists of nodes is the text of the first, then that of the second |
| Ansi.CodeRun | public/worker/highlight.js:29 | the run of `\d` and `;` characters at the start of a text is maximal |
| Ansi.TextRun | public/worker/highlight.js:44 | the run of characters other than ESC at the start of a text is maximal |
| Ansi.EscapeLength | public/worker/highlight.js:29 | a sequence the strip expression deletes starts with ESC and is at least two characters long |
| Ansi.StripAnsi | public/worker/highlight.js:28-30 | stripping never makes a text longer |
| Ansi.StripKeepsPlain | public/worker/highlight.js:29 | text before the first ESC is kept as it is |
| Ansi.StripWithoutEscape | public/worker/highlight.js:29 | a text without ESC is left unchanged by strip mode |
| Ansi.StripDeletesSgr | public/worker/highlight.js:29 | every SGR sequence `ESC [ codes m` is deleted, whatever follows it |
| Ansi.StripDeletesLinkParts | public/worker/highlight.js:29 | the hyperlink brackets `ESC ]8;;` and `ESC \` are deleted |
| Ansi.CloseFrom | public/worker/highlight.js:34 | the lazy link text ends where the closing `ESC ]8;; ESC \` follows |
| Ansi.LinkTextAt | public/worker/highlight.js:34 | a link's text is non-empty and followed by the closing sequence |
| Ansi.TargetFrom | public/worker/highlight.js:34 | the lazy target ends at an `ESC \` after which a link text can be found |
| Ansi.LinkAt | public/worker/highlight.js:34 | a hyperlink match ends after where it starts and within the text |
| Ansi.LinkShape | public/worker/highlight.js:34-38 | a matched hyperlink is exactly the opening sequence, a non-empty target, `ESC \`, a non-empty text and the closing sequence |
| Ansi.SgrAt | public/worker/highlight.js:44 | an SGR match with its text ends after where it starts and within the text |
| Ansi.StyleClasses | public/worker/highlight.js:79-89 | one class per code |
| Ansi.ColorCode | public/worker/highlight.js:51-76 | `38;5;n` gives the named colour class for n below 16 and the 256-colour class otherwise |
| Ansi.StyleCodes | public/worker/highlight.js:79-90 | any other parameter list gives one class per code, in order: bold, dim, italic, underline and blink for 1 to 5, the code itself otherwise |
| Ansi.LastReset | public/worker/highlight.js:46-48 | the last reset in a list of parameter lists: none of the later lists is a reset |
| Ansi.StackSinceReset | public/worker/highlight.js:41-92 | the class list equals the classes pushed since the last reset, in order |
| Ansi.RemoveResets | public/worker/highlight.js:95 | removing resets never makes a text longer |
| Ansi.RemoveResetsKeepsPlain | public/worker/highlight.js:95 | text without ESC is kept and every `ESC[0m` is deleted |
| Ansi.ReplaceSgr | public/worker/highlight.js:41-94 | the SGR replacement with its mutable class list produces the text and the recorded spans of the reference scan, each span carrying the classes pushed since the last reset |
| Ansi.SgrStep | public/worker/highlight.js:44-93 | one step keeps the class list equal to the classes pushed since the last reset |
| Ansi.ReplaceAnsi | public/worker/highlight.js:27-96 | strip mode only deletes escape sequences and records nothing; otherwise hyperlinks, then SGR runs, then the remaining resets are replaced as the reference pass says |
| Placeholders.Placeholder | public/worker/highlight.js:197-199 | a placeholder is VS, decimal digits whose value is the counter, VS, with no VS in between |
| Placeholders.PlaceholderInjective | public/worker/highlight.js:197-199 | different counter values give different placeholders |
| Placeholders.Lookup | public/worker/highlight.js:273 | a token found in the map is the placeholder of a counter value already handed out, and yields what was recorded for it |
| Placeholders.LookupPlaceholder | public/worker/highlight.js:201-205 | every placeholder handed out finds the elements recorded for it |
| Placeholders.ReplaceEmpty | public/worker/highlight.js:103-259 | every replacement pass maps the empty text to itself and records nothing |
| Placeholders.ReplaceNoMatch | public/worker/highlight.js:103-259 | where the expression matches nowhere, a pass leaves the text as it is and records nothing |
| Placeholders.Replacer.constructor | public/worker/highlight.js:196-197 | the map starts empty and the counter at 0 |
| Placeholders.Replacer.GetReplacement | public/worker/highlight.js:201-205 | returns the placeholder of the current counter, never handed out before, and records the elements under it |
| Placeholders.Replacer.Replace | public/worker/highlight.js:104-122 | a global `replace` whose callback may call `getReplacement` produces the text and the records of the reference scan |
| Placeholders.Replacer.ReplaceAt | public/worker/highlight.js:104-122 | one step of that scan at a position agrees with the reference scan |
| Placeholders.DigitRun | public/worker/highlight.js:266 | the run of digits at the start of a text is maximal |
| Placeholders.PlainRun | public/worker/highlight.js:266 | the run of characters other than VS at the start of a text is maximal, and non-empty when the text starts with another character |
| Placeholders.TokensOfPlaceholder | public/worker/highlight.js:263-269 | a placeholder at the head of the text is one token, whatever follows it |
| Placeholders.TokensOfPlain | public/worker/highlight.js:263-269 | a non-empty run without VS, up to a VS or the end, is one token |
| Placeholders.Utf16 | public/worker/highlight.js:263-268 | a character below U+10000 is one code unit; any other is a high surrogate followed by a low surrogate |
| Placeholders.UnitDigitRun | public/worker/highlight.js:266 | the run of code units for `0`-`9` at the start of the text is maximal |
| Placeholders.UnitPlainRun | public/worker/highlight.js:266 | `[^VS]+` without the `u` flag stops at either code unit of VS, and only there |
| Placeholders.SupplementaryCutAsWritten | public/worker/highlight.js:263-268 | as written, the `match` cuts "a", U+1F953, "b" into "a" with a lone high surrogate, and "b" |
| Placeholders.SupplementaryKept | public/worker/highlight.js:263-268 | read as intended, the same text is one token |
| Placeholders.SegmentTokens | public/worker/highlight.js:263-269 | one token per segment |
| Placeholders.TokensOfRender | public/worker/highlight.js:263-269 | a text made of well-formed runs and placeholders is cut back into exactly those pieces |
| Placeholders.ExpandSegmentTokens | public/worker/highlight.js:270-275 | expanding those tokens gives each run as text and each placeholder's elements |
| Placeholders.ExpandRender | public/worker/highlight.js:261-275 | expanding a text made of well-formed runs and placeholders gives, in order, each run and each placeholder's recorded elements |
| Placeholders.LoneMarkerThrows | public/worker/highlight.js:263-275 | a text that is a single VS has no token, so `match` returns null and the expansion fails |
| Placeholders.Tokens | public/worker/highlight.js:263-268 | the `match` finds no token exactly when the text is made only of VS characters |
| Placeholders.TokensAsWritten | public/worker/highlight.js:263-268 | on code units, as written, no token is found exactly when every unit is one of the two code units of VS |
| Placeholders.Expand | public/worker/highlight.js:261-275 | an empty text gives no elements; a non-empty text made only of VS makes `match` return null and the expansion fail |
| HighlightPasses.Run | public/worker/highlight.js:106 | a run of characters with a property is maximal: every character in it has the property, the one after it does not |
| HighlightPasses.NonSpaceAt | public/worker/highlight.js:140 | `\S+` at a position is found exactly when the character there is not white space, and takes the whole run of non-space characters |
| HighlightPasses.ProtocolEnd | public/worker/highlight.js:106 | `(https?:)` under the `i` flag is `http` in any case, an optional `s`, then `:`; `http:` or `https:` in any case is always found |
| HighlightPasses.DottedFrom | public/worker/highlight.js:106 | `(?:\.\w+)*` takes word characters and dots, ends on a word character not followed by another, and stops only where no `.` and word character follow |
| HighlightPasses.PortEnd | public/worker/highlight.js:106 | a port is present exactly when `:` and a digit follow, and is `:` with the whole run of digits |
| HighlightPasses.PathFrom | public/worker/highlight.js:106 | a path is present exactly when `/` follows, is made of `/` and `[\w\.]` characters, and is not followed by another `[\w\.]` character |
| HighlightPasses.PairsFrom | public/worker/highlight.js:106 | the `&key=value` repetitions are made of word characters, `=` and `&`, and end on a whole word |
| HighlightPasses.ParamsEnd | public/worker/highlight.js:106 | parameters are present exactly when `?` follows, and are made of word characters, `=` and `&` after it |
| HighlightPasses.UrlFrom | public/worker/highlight.js:106 | the protocol group is the text before `//` and the host is non-empty and starts with a word character |
| HighlightPasses.HostEnd | public/worker/highlight.js:106 | the host `\w+(?:\.\w+)*` is word characters and dots, and is neither followed by a word character nor by a `.` and a word character |
| HighlightPasses.UrlFromHost | public/worker/highlight.js:106 | the host group is the whole host after the `//` |
| HighlightPasses.UrlFromText | public/worker/highlight.js:106-107 | protocol, `//`, host, port, path and parameters concatenate to exactly the matched text |
| HighlightPasses.UrlFromGroups | public/worker/highlight.js:106-107 | the port is `:` and digits, the path starts with `/`, the parameters with `?` |
| HighlightPasses.UrlAt | public/worker/highlight.js:106 | a URL match is non-empty, and its groups spell it with a protocol `http:` or `https:` in any case and a non-empty host |
| HighlightPasses.UrlFromMatch | public/worker/highlight.js:106 | once the protocol and `//` and a word character are found, the groups make up a URL match |
| HighlightPasses.ProtocolName | public/worker/highlight.js:106 | the protocol is `http:` or `https:` in any case |
| HighlightPasses.SpanIfAnyText | public/worker/highlight.js:115-118 | an optional group contributes exactly its text |
| HighlightPasses.OptionalUrlSpansText | public/worker/highlight.js:115-118 | the optional spans show the port, path and parameters in order |
| HighlightPasses.UrlContainerText | public/worker/highlight.js:108-118 | the container's text is protocol, `//`, host, port, path and parameters, in order |
| HighlightPasses.UrlCoversMatch | public/worker/highlight.js:103-123 | the URL container shows exactly the text it replaces, and its children start with the protocol span, `//` and the host span |
| HighlightPasses.WordAt | public/worker/highlight.js:176 | an alternation of words matches one of the words (lower-cased under `i`) followed by `\b`, and fails only when no word fits |
| HighlightPasses.SeverityAt | public/worker/highlight.js:176 | a severity match is at the very start of the text, is one of `info`, `warn`, `error`, `debug`, `trace` in any case and is followed by `\b`; such a word at the start is always found |
| HighlightPasses.SeverityPass | public/worker/highlight.js:176-178 | the severity pass replaces a severity word at the start of the text by the next placeholder for a `tag` span, and otherwise leaves the text as it is |
| HighlightPasses.SeverityTags | public/worker/highlight.js:176-178 | a severity word at the start becomes the next placeholder, recording one `tag` span with the word |
| HighlightPasses.SeverityKeeps | public/worker/highlight.js:176-178 | a text not starting with a severity word is left as it is and nothing is recorded |
| HighlightPasses.BracketAt | public/worker/highlight.js:179 | a bracket match is `[`, word characters or parentheses, then `]`, at least three characters |
| HighlightPasses.BracketGuard | public/worker/highlight.js:179-183 | a bracketed token is kept as text exactly when its inside is all digits (the only tokens of `[\w()]` that the `[\d.:]` test accepts); every other one becomes one `tag` span with the token |
| HighlightPasses.DigitTokenIsNumeric | public/worker/highlight.js:181 | a bracketed token whose inside is all digits passes the numeric test |
| HighlightPasses.NumericTokenIsDigits | public/worker/highlight.js:181 | a bracketed token found by the tag pass passes the numeric test only when its inside is all digits |
| HighlightPasses.DigitsPart | public/worker/highlight.js:239 | the digits of a number start with a digit and end at a word boundary |
| HighlightPasses.NumberBody | public/worker/highlight.js:239 | a number starts at a word boundary |
| HighlightPasses.NumberAt | public/worker/highlight.js:237-241 | a number match is non-empty and within the text |
| HighlightPasses.NumberKeepsPlaceholder | public/worker/highlight.js:237-245 | the digits of a placeholder are matched together with the VS in front of them and kept, so the placeholder survives the number pass |
| HighlightPasses.DelimitedWordAt | public/worker/highlight.js:247-257 | a `\b(?:…)\b` word pass (HTTP methods upper case only; keywords and error words in any case) matches a listed word with a word boundary on both sides, and fails only when no listed word is delimited at the position |
| HighlightPasses.MethodClassName | public/worker/highlight.js:249 | the class of each method is `http-method http-method-` and the method name lower-cased |
| HighlightPasses.HttpMethodClass | public/worker/highlight.js:247-251 | a matched method becomes a span with its two classes and its name as text |
| HighlightPasses.KeywordAndErrorSpans | public/worker/highlight.js:252-258 | a delimited `true`/`false`/`null`/`undefined` (any case) is always found and becomes one `keyword` span with its own text; `error`/`failure`/`failed` likewise become one `error` span |
| Highlighter.Pass | public/worker/highlight.js:201-205 | a pass only appends to the recorded element lists; what was recorded earlier stays |
| Highlighter.RemoveMarkers | public/worker/highlight.js:208 | removing VS leaves none, never lengthens the text, and leaves a text without VS unchanged |
| Highlighter.ReplaceURLs | public/worker/highlight.js:103-123 | the URL pass on the shared counter and map produces the URL stage |
| Highlighter.ReplaceDate | public/worker/highlight.js:133-152 | the date pass produces the date-time stage, then the ISO-date stage |
| Highlighter.ReplacePath | public/worker/highlight.js:159-167 | the path pass produces the folder-and-file stage, then the file stage |
| Highlighter.ReplaceTags | public/worker/highlight.js:174-184 | the tag pass produces the severity stage, then the bracket stage |
| Highlighter.ReplaceTokens | public/worker/highlight.js:215-259 | the passes of `getHighlightObjects` itself run in their order: key=value, address, string, time, number, HTTP method, keyword, error |
| Highlighter.GetHighlightObjects | public/worker/highlight.js:194-276 | the result is the expansion of the text all passes leave, none where the source throws (with the VS characters of the input removed first) |
| Highlighter.HighlightObjects | public/worker/highlight.js:194-276 | `getHighlightObjects` as written: when the passes leave a non-empty text made only of VS, it throws |
| Highlighter.EmptyLine | public/worker/highlight.js:261 | an empty line has no elements |
| Highlighter.PassKeeps | public/worker/highlight.js:215-259 | a pass whose expression matches nowhere changes nothing |
| Highlighter.AnsiOnMarker | public/worker/highlight.js:27-96 | the ANSI stage leaves a single VS alone, in either mode |
| Highlighter.IsoPassOnMarker | public/worker/highlight.js:140-150 | the ISO-date pass leaves a single VS alone when it is not an ISO date |
| Highlighter.ConcretePassesOnMarker | public/worker/highlight.js:106-257 | none of the spelled-out expressions matches a single VS |
| Highlighter.StagesOnMarker | public/worker/highlight.js:209-213 | the URL, date, path and tag stages leave a single VS alone |
| Highlighter.TokensOnMarker | public/worker/highlight.js:215-259 | the remaining passes leave a single VS alone |
| Highlighter.LoneMarkerAsWritten | public/worker/highlight.js:208-209 | as written, a line that is a single VS reaches the expansion unchanged and the call fails |
| Highlighter.LoneMarkerCorrected | public/worker/highlight.js:208-209 | with the VS characters removed first, the same line gives no elements and no error |
| LegacyHighlight.Mark | public/highlight.js:109-110 | a placeholder is `$`, the decimal digits of the counter, then `;` |
| LegacyHighlight.MarkInjective | public/highlight.js:109-116 | different counter values give different placeholders |
| LegacyHighlight.ScanNoMatch | public/highlight.js:121-157 | a `replace` pass whose expression matches nowhere leaves the text as it is and records nothing |
| LegacyHighlight.HtmlReplacer.constructor | public/highlight.js:108-109 | a line starts with an empty map and the counter at 0 |
| LegacyHighlight.HtmlReplacer.GetReplacement | public/highlight.js:112-116 | the placeholder returned was never handed out before, and the map gains exactly the HTML given, under it |
| LegacyHighlight.HtmlReplacer.Replace | public/highlight.js:121-157 | one global `replace` whose callback keeps a match or calls `getReplacement`: the text and recorded HTML are those of the left-to-right scan |
| LegacyHighlight.SgrCodesAt | public/highlight.js:17 | an SGR sequence is ESC `[`, a non-empty list of digits and `;`, then `m` |
| LegacyHighlight.Repeat | public/highlight.js:19 | `t.repeat(k)` has `k` times the length of `t` |
| LegacyHighlight.RepeatAdd | public/highlight.js:19 | repeating `a + b` times is repeating `a` times then `b` times |
| LegacyHighlight.ColorTag | public/highlight.js:26-51 | `38;5;n` gives the inline colour of the 16-entry table for n below 16 and the `ansi-256-foreground-n` class otherwise |
| LegacyHighlight.StyleTag | public/highlight.js:54-66 | any other list gives one class per code, in order, with 1 to 5 named bold, dim, italic, underline, blink |
| LegacyHighlight.OpenCountSinceReset | public/highlight.js:10-24 | the `openingTags` counter equals the number of SGR sequences met since the last reset |
| LegacyHighlight.ResetClosesOpened | public/highlight.js:18-21 | a reset closes exactly the spans opened since the previous reset: one `</span>` each |
| LegacyHighlight.ReplaceSgr | public/highlight.js:17-67 | the loop with its `openingTags` counter produces the text and HTML of the SGR scan |
| LegacyHighlight.SgrStep | public/highlight.js:18-24 | a reset records the closing tags and zeroes the counter; any other sequence records one opening tag and adds one |
| LegacyHighlight.ReplaceAnsi | public/highlight.js:9-69 | hyperlinks, then SGR sequences, as one state change of the shared map |
| LegacyHighlight.SgrWithoutEscape | public/highlight.js:17 | text without ESC has no SGR sequence |
| LegacyHighlight.AnsiScansWithoutEscape | public/highlight.js:9-69 | text without ESC goes through the link scan and the SGR scan unchanged, recording nothing |
| LegacyHighlight.AnsiHtml | public/highlight.js:9-69 | `replaceAnsi`: text without ESC comes out as it is, with nothing recorded |
| LegacyHighlight.NumberEndAt | public/highlight.js:145 | a number ends with a space, a comma, a newline or the end of the text |
| LegacyHighlight.NumberAt | public/highlight.js:145 | a number match starts with a space and spans at least two characters |
| LegacyHighlight.MarkIsNoNumber | public/highlight.js:145-146 | a placeholder after a space is never a number, since its digits end at `;` |
| LegacyHighlight.DollarNumberKept | public/highlight.js:146 | a number candidate starting with ` $` is left unwrapped |
| LegacyHighlight.Pass | public/highlight.js:121-157 | a pass only appends to the recorded HTML |
| LegacyHighlight.MarkAt | public/highlight.js:159 | a token is `$`, at least one digit, then `;` |
| LegacyHighlight.MapGet | public/highlight.js:160 | the lookup finds HTML only for a placeholder that was handed out, and it is the HTML recorded for it |
| LegacyHighlight.ExpandMark | public/highlight.js:159-161 | every placeholder handed out is replaced by the HTML recorded for it |
| LegacyHighlight.ExpandPlain | public/highlight.js:159 | a character that starts no token is copied |
| LegacyHighlight.RawMarkAsWritten | public/highlight.js:159-161 | as written, the text `$0;` with nothing recorded comes out as `undefined` |
| LegacyHighlight.RawMarkCorrected | public/highlight.js:159-161 | with unknown tokens kept, the same text comes out unchanged |
| LegacyHighlight.UnknownMarkKept | public/highlight.js:159-161 | with unknown tokens kept, any token no replacement handed out stays as it is |
| LegacyHighlight.PassesKeepRawMark | public/highlight.js:118-157 | every pass keeps `$0;` as it is and records nothing |
| LegacyHighlight.RawMarkLineAsWritten | public/highlight.js:107-162 | as written, a log line holding `$0;` is shown as `undefined` |
| LegacyHighlight.RawMarkLineCorrected | public/highlight.js:107-162 | corrected, the same line is shown as it is |
| LegacyHighlight.ReplaceDate | public/highlight.js:79-98 | the date-time pass, then the ISO-date pass, on the shared map |
| LegacyHighlight.ReplaceTokens | public/highlight.js:121-157 | the passes of `highlightText` run in their order: key=value, tag, URL, file, string, number, address, error |
| LegacyHighlight.HighlightText | public/highlight.js:107-162 | the HTML of a line is all passes followed by the expansion of the placeholders, unknown tokens kept |
| LegacyHighlight.ExpandWithoutMarks | public/highlight.js:159-161 | text without `$` holds no token, so putting the HTML back leaves it as it is |
| LegacyHighlight.HighlightHtml | public/highlight.js:107-162 | `highlightText` with unknown tokens kept: when the passes leave no `$`, the line is what they left |
| LegacyHighlight.HighlightHtmlAsWritten | public/highlight.js:107-162 | `highlightText` as written: the same on what the passes leave without `$`; with `$0;`, see RawMarkLineAsWritten |
| HeightCaches.PrefixSums | public/utils/virtual-scroller.js:58-69 | the prefix sums of n rows have n+1 entries, entry k being the offset of row k |
| HeightCaches.OffsetMonotone | public/utils/virtual-scroller.js:76-86 | offsets never decrease with the row index |
| HeightCaches.OffsetUnmeasured | public/utils/virtual-scroller.js:14-33 | with nothing measured, row n starts at n times the estimated height |
| HeightCaches.OffsetAfterSetHeight | public/utils/virtual-scroller.js:40-43 | measuring row i shifts the offsets of the rows below it by the change in its height, and no others |
| HeightCaches.OffsetDependsOnRowsAbove | public/utils/virtual-scroller.js:76-86 | only the heights of the rows above a row decide its offset |
| HeightCaches.ScanSkips | public/utils/virtual-scroller.js:112-118 | rows that end at or above the offset are passed over without changing the answer |
| HeightCaches.IndexAtBounds | public/utils/virtual-scroller.js:108-136 | the row found exists, or is 0 when there are no rows |
| HeightCaches.ScanFromBounds | public/utils/virtual-scroller.js:112-119 | the scan from row i answers a row from i on, and an existing one |
| HeightCaches.IndexAtRow | public/utils/virtual-scroller.js:108-136 | an offset inside row i finds row i |
| HeightCaches.RowStartFindsRow | public/utils/virtual-scroller.js:108-136 | the top edge of a row of non-zero height finds that row |
| HeightCaches.IndexAtPastEnd | public/utils/virtual-scroller.js:119-135 | an offset at or past the bottom of the last row finds the last row |
| HeightCaches.IndexAtBelow | public/utils/virtual-scroller.js:108-136 | an offset above the bottom of row i finds row i or an earlier one |
| HeightCaches.ScanStops | public/utils/virtual-scroller.js:112-118 | the scan stops at the latest at a row whose bottom is below the offset |
| HeightCaches.IndexAtAbove | public/utils/virtual-scroller.js:108-136 | an offset at or below the top of row i finds row i or a later one |
| HeightCaches.IndexAtContains | public/utils/virtual-scroller.js:108-136 | every pixel within the rows is found in the row that contains it: the lookup inverts the offsets |
| HeightCaches.ScanContains | public/utils/virtual-scroller.js:112-118 | the scan from a row at or above the offset stops at the row containing it |
| HeightCaches.IndexAtMonotone | public/utils/virtual-scroller.js:108-136 | scrolling further down never finds an earlier row |
| HeightCaches.ScanMonotone | public/utils/virtual-scroller.js:112-119 | the scan's answer grows with the offset |
| HeightCaches.BinarySearchAgrees | public/utils/virtual-scroller.js:122-135 | the row the binary search returns, one before the first prefix sum above the offset, is the row the linear scan finds |
| HeightCaches.RestrictKeeps | public/utils/virtual-scroller.js:152-161 | after keeping a set of rows, a row is measured exactly when it was measured and kept, with the same height |
| HeightCaches.HeightCache.constructor | public/utils/virtual-scroller.js:14-24 | a new cache has no measurements, the prefix sums `[0]`, is clean and counts no rows |
| HeightCaches.HeightCache.GetHeight | public/utils/virtual-scroller.js:31-33 | a row's height is its measurement, else the estimate |
| HeightCaches.HeightCache.HasMeasurement | public/utils/virtual-scroller.js:50-52 | true exactly when the row has a measurement |
| HeightCaches.HeightCache.SetHeight | public/utils/virtual-scroller.js:40-43 | records the height and marks the cache dirty; prefix sums and count stay |
| HeightCaches.HeightCache.Rebuild | public/utils/virtual-scroller.js:58-69 | afterwards the cache is clean and holds the prefix sums of `itemCount` rows; when it was clean with that count already, nothing changes |
| HeightCaches.HeightCache.GetOffset | public/utils/virtual-scroller.js:76-86 | the offset of a row, the sum of the heights above it, whether read from the prefix sums or summed when dirty |
| HeightCaches.HeightCache.GetTotalHeight | public/utils/virtual-scroller.js:92-101 | the sum of the heights of all counted rows, either way |
| HeightCaches.HeightCache.FindIndexAtOffset | public/utils/virtual-scroller.js:108-136 | the row at the offset, the same whether found by the linear scan or the binary search, and an existing row when there are any |
| HeightCaches.HeightCache.Clear | public/utils/virtual-scroller.js:141-146 | forgets every measurement and returns to the initial state |
| HeightCaches.HeightCache.ClearExcept | public/utils/virtual-scroller.js:152-161 | keeps exactly the measurements of the rows given and marks the cache dirty |
| VirtualScrollers.VisibleRange | public/utils/virtual-scroller.js:339-344 | the rendered range is a non-empty part of the rows and holds every row that shows in the viewport |
| VirtualScrollers.BatchMembers | public/utils/virtual-scroller.js:292-304 | a row is collected exactly when it lies in the range, has no node yet and has a log |
| VirtualScrollers.BatchIncreasing | public/utils/virtual-scroller.js:292-304 | the collected rows increase strictly, so no row is rendered twice in a pass |
| VirtualScrollers.BatchDependsOnRange | public/utils/virtual-scroller.js:292-304 | only which rows of the range already have nodes matters to what is collected |
| VirtualScrollers.MeasureAllStep | public/utils/virtual-scroller.js:311-316 | measuring one more row of the batch is one more `measureNode` |
| VirtualScrollers.MeasureAllElsewhere | public/utils/virtual-scroller.js:205-218 | measuring a batch leaves the height of every row outside it as it was |
| VirtualScrollers.MeasureBelowKeepsOffset | public/utils/virtual-scroller.js:205-229 | measuring rows at or below a row does not move that row |
| VirtualScrollers.IncreasingFresh | public/utils/virtual-scroller.js:292-304 | a row of a strictly increasing batch is not among the rows before it |
| VirtualScrollers.ElemsSnoc | public/utils/virtual-scroller.js:303 | pushing a row adds exactly that row |
| VirtualScrollers.ReleaseKeepsNodesWellFormed | public/utils/virtual-scroller.js:240-243 | moving a row's node to the pool keeps every node in one place only |
| VirtualScrollers.RecycleKeep | public/utils/virtual-scroller.js:239-240 | visiting a row inside the range keeps the loop's invariant |
| VirtualScrollers.RecycleRelease | public/utils/virtual-scroller.js:240-243 | visiting a row outside the range moves its node to the end of the pool and keeps the loop's invariant |
| VirtualScrollers.RecycleOutside | public/utils/virtual-scroller.js:238-246 | afterwards exactly the rows inside the range keep their nodes, and the pool gains exactly the nodes of the rows outside it |
| VirtualScrollers.RenderedRows | public/utils/virtual-scroller.js:354-357 | after recycling and rendering, a row is shown exactly when it lies in the range and was shown before or has a log |
| VirtualScrollers.AlignedRowOverlaps | public/utils/virtual-scroller.js:427-433 | with `start`, `center` or `end`, a row of positive height overlaps the viewport where the browser leaves it after clamping, and the viewport never goes past the bottom of the last row |
| VirtualScrollers.RequestedRowOverlaps | public/utils/virtual-scroller.js:427-433 | the same overlap holds for the position the alignment asks for, before the clamp |
| VirtualScrollers.BottomRangeEndsAtLastRow | public/utils/virtual-scroller.js:342-402 | scrolled to the bottom, the range runs to the last row |
| VirtualScrollers.AnchorWithinRow | public/utils/virtual-scroller.js:444-458 | the anchor names the log under the viewport's top edge and an offset inside its row, so row top plus offset gives back `scrollTop` |
| VirtualScrollers.VirtualScroller.constructor | public/utils/virtual-scroller.js:558-581 | a missing or zero estimate becomes 30 and a missing or zero buffer 5; no nodes, indices 0, no compensation |
| VirtualScrollers.VirtualScroller.GetOrCreateNode | public/utils/virtual-scroller.js:189-197 | pops the top of the pool when there is one, else makes a new node; the node is neither shown nor pooled |
| VirtualScrollers.VirtualScroller.MeasureNode | public/utils/virtual-scroller.js:205-230 | a height changing by less than the threshold is ignored; otherwise it is recorded, and the change is added to the compensation only for a row measured before and above `startIndex` |
| VirtualScrollers.VirtualScroller.RecycleNodesOutsideRange | public/utils/virtual-scroller.js:238-246 | exactly the rows outside the range lose their nodes, which go to the pool |
| VirtualScrollers.VirtualScroller.RenderItem | public/utils/virtual-scroller.js:255-278 | the row gains a node, the others keep theirs, and its height is measured |
| VirtualScrollers.VirtualScroller.RenderRange | public/utils/virtual-scroller.js:287-317 | the rows collected gain nodes and are measured in increasing order; the store's cache is what `getHighlighted` on their ids, in that order, leaves; logs and filter are unchanged |
| VirtualScrollers.VirtualScroller.FetchRows | public/utils/virtual-scroller.js:311-313 | the store's cache is what `getHighlighted` on the ids of the batch's rows, in order, leaves, with insertions and evictions; logs and filter are unchanged |
| VirtualScrollers.VirtualScroller.RenderBatch | public/utils/virtual-scroller.js:311-316 | every row of the batch gains a node and is measured, in order, and the heights are the measurements applied in turn |
| VirtualScrollers.VirtualScroller.RenderRow | public/utils/virtual-scroller.js:312-315 | the row gains a node and has the height of its log measured |
| VirtualScrollers.VirtualScroller.CollectBatch | public/utils/virtual-scroller.js:288-304 | the loop collects exactly the rows of the range that need rendering, in order |
| VirtualScrollers.VirtualScroller.Render | public/utils/virtual-scroller.js:323-374 | with no rows, spacers 0; otherwise the range is computed from the heights before rendering, exactly the range's rows with logs are shown, and the spacers stand for the rows above and below it; the store's cache is what `getHighlighted` on the ids of the rows rendered leaves |
| VirtualScrollers.VirtualScroller.RenderWithin | public/utils/virtual-scroller.js:351-367 | recycles, renders and measures the range, then sets the spacers from the rebuilt cache; the store's cache is what `getHighlighted` on the ids of the rows rendered leaves |
| VirtualScrollers.VirtualScroller.ComputeRange | public/utils/virtual-scroller.js:333-344 | the range is `buffer` rows around the rows at the viewport's top and bottom edges, non-empty and within the rows |
| VirtualScrollers.VirtualScroller.UpdateSpacers | public/utils/virtual-scroller.js:360-367 | the top spacer is the height of the rows above the range, the bottom spacer that of the rows below it |
| VirtualScrollers.VirtualScroller.ScrollToBottom | public/utils/virtual-scroller.js:381-409 | with rows, the loop of at most three renders ends with the range running to the last row and that row shown |
| VirtualScrollers.VirtualScroller.BottomPass | public/utils/virtual-scroller.js:398-405 | one turn scrolls to the bottom and renders, leaving the range running to the last row, that row shown and the prefix sums fresh |
| VirtualScrollers.VirtualScroller.ScrollToIndex | public/utils/virtual-scroller.js:417-437 | an index out of range changes nothing; otherwise the viewport moves where the alignment asks, clamped by the browser to the total height less the viewport, and the row then lies in the range and is shown; the store's cache changes only by the lookups of that render |
| VirtualScrollers.VirtualScroller.GetScrollAnchor | public/utils/virtual-scroller.js:444-458 | the anchor of the current scroll position, none when there are no rows |
| VirtualScrollers.VirtualScroller.Rerender | public/utils/virtual-scroller.js:464-502 | all measurements and nodes are dropped; with no rows the position is 0, otherwise it is clamped to the estimated total height and the range is rendered afresh, every row of it looked up through the store's cache |
| VirtualScrollers.VirtualScroller.BottomTop | public/utils/virtual-scroller.js:398-402 | the position that puts the bottom of the last row at the bottom of the viewport |
| VirtualScrollers.VirtualScroller.AlignedTop | public/utils/virtual-scroller.js:422-433 | the position the alignment asks for, clamped to the total height less the viewport as the browser clamps the assignment |
| VirtualScrollers.VirtualScroller.ClampedTop | public/utils/virtual-scroller.js:490-497 | the position clamped to the estimated total height less the viewport |
| VirtualScrollers.VirtualScroller.ReleaseAllNodes | public/utils/virtual-scroller.js:470-474 | every shown node goes to the pool and no row is shown |

## Left out

- DOM and rendering are not modelled: `cloneElements`, `cloneTemplate`, `maybeAddTag`, the `data-id` and `data-date` attributes, `innerHTML` and the spacers' `style.height` strings. A row's node is a serial number. The browser's layout is a function `layout` from a log to its height in whole pixels.
- Floating point is not modelled. Heights and offsets are natural numbers. The `devicePixelRatio * 0.5` threshold is the parameter `threshold`. The `/2` of centre alignment rounds down. An assignment to `scrollTop` is clamped, as the browser does, to 0 below and to the content height less the viewport above. The content height is taken to be the height cache's total for the visible rows; the browser's `scrollHeight` is the DOM's, which can differ from it by measurements below the threshold.
- Asynchrony is not modelled: `await`, `Promise.all`, the worker round trip, `requestAnimationFrame`, the scroll debounce timer and the `ResizeObserver`. A render pass runs sequentially, rows in increasing order. Highlighting is a pure function parameter of the store. With sequential passes, `measureNode` only sees rows at or after `startIndex`, so the scroll compensation of lines 370-373 of public/utils/virtual-scroller.js stays 0.
- VirtualScrollers.VirtualScroller.FetchRows: the lookups of one pass run in batch order, all before any row is rendered. The source starts them together under `Promise.all`, and each inserts when the worker answers, so the insertion order, and which entry a full cache evicts, can differ. With a pure highlighter no row's content depends on that order.
- VirtualScrollers.VirtualScroller.ScrollToBottom: states that logs and filter are unchanged and the cache stays well formed, not which entries its up to three render passes leave in the cache.
- Some scroller functions are not modelled: `addLogs`, with its `wasAtBottom` test and frame batching, `createVirtualScroller`'s DOM set-up and event handlers, and `destroyVirtualScroller`. Only the default options of `createVirtualScroller` are modelled, in `VirtualScroller.constructor`.
- The DOM side of `setFilter` is not modelled: `updateInput`, `dispatchEvent` and the input listener. `updateFilterCount` is modelled on values, as `FilterCountText`. The filter function is fixed to the query at the time `setFilter` makes it. Every change of `filterText` goes through `setFilter`, so sequential runs behave the same.
- FilterControllers.FilterController.SetFilter: filters with `Filter.MatchesFilter`, which reads selectors as the selector expression matches them and compares an entry's whole text after its first `:`. The code as written filters with the split reading, `Filter.MatchesFilterAsWritten`. The two differ when a selector's value holds `=` or `,`, or a tag's text holds `:` (`Filter.EqualsInValueFilter`, `Filter.ColonInTextFilter`).
- FilterControllers.FilterSelects: states which positions are selected under that same reading. The selection as written is the same statement with `Filter.MatchesFilterAsWritten`.
- Filter.SelectorQuery: states the passing logs under that reading. `Filter.SelectorQueryAsWritten` states them as written, for values without `,` or `=`.
- The JS `Date` parser is not modelled. The ISO-date check of `replaceDate` is the parameter `isIsoDate`.
- Several regular expressions are parameters (`Recognizers`, `LegacyRecognizers`), each documented with its expression:
  - in the worker highlighter: the date-time, path, file, key=value, address, quoted-string and duration passes;
  - in the legacy highlighter: the date-time, key=value, tag, URL, file, string, address and error passes.
- Characters are Unicode scalar values, not UTF-16 code units. The placeholder character U+E0153 is one `char`, and `Placeholders.Tokens` reads `[^U+E0153]` as "any character but U+E0153". Without the `u` flag the source's class instead excludes each of the two code units U+DB40 and U+DD53 of that character's surrogate pair. So every character outside the Basic Multilingual Plane whose pair contains one of these units is cut by the final `match`: U+E0000 to U+E03FF, and every character whose low surrogate is U+DD53, such as U+1F553, U+1F953, U+10153 and U+1D153. This is a source defect (see Findings); the model follows the evidently intended reading.
- Placeholders.Expand: a placeholder-shaped token that the map does not hold gives `None`, the same as a text whose `match` finds nothing. In the source the two differ: `map.get` returns `undefined`, which `flatMap` keeps as an element, and the failure only comes in `getElementForObj` (public/lib.js:102); the null `match` throws at once.
- Highlighter.GetHighlightObjects: the chain of passes is not proved to leave a text in the form `Placeholders.ExpandRender` needs, well-formed runs and placeholders. Several passes are recogniser parameters, and a later pass may take earlier placeholders into its own match, so that form is not kept by every pass. The expansion is proved for texts in that form and for the empty line (`EmptyLine`).
- HighlightPasses.UrlFrom: states the bounds and the protocol group. The host's shape and length are stated by `HostEnd` and `UrlFromHost`, the other groups' shapes by `UrlFromGroups`, and their lengths by `PortEnd`, `PathFrom`, `PairsFrom` and `ParamsEnd`.
- HighlightPasses.UrlAt: states the shape of a match and its groups, not that a URL at the position is always found, nor that each group is as long as it can be; the latter is stated by the group functions listed for `UrlFrom`.
- HighlightPasses.BracketAt: states the characters between the brackets, not their arrangement `\w+(?:\(\w+\))?`, nor that such a token is always found. `BracketGuard` states what the pass does with what it finds.
- HighlightPasses.DigitsPart: states that the match starts with a digit and ends at a word boundary, not that it is digits with an optional `.` fraction.
- HighlightPasses.NumberBody: states that the match starts at a word boundary, not the optional sign or the digits after it.
- HighlightPasses.NumberAt: states only that the match is non-empty and within the text. `NumberKeepsPlaceholder` states what it does at a placeholder.
- Text.Lower: folds only `A`–`Z`. `toLowerCase` also folds letters of other scripts, which matters only for non-ASCII filter text.
- Ansi.ColorCode: states the class for every `n`, printed with its exact decimal digits, and `Ansi.ColorClass` computes it so. The source's `Number(...)` gives a double: from 2^53 on the number is rounded, so `38;5;9007199254740993` gives `ansi-256-foreground-9007199254740992`, and from 10^21 on it prints in exponent form. Neither is modelled; codes a terminal sends are below 256.
- LegacyHighlight.ColorTag: the same for the legacy highlighter. `LegacyHighlight.ColorSpan` prints `n` with its exact digits, where the source's `Number(...)` rounds from 2^53 on and prints in exponent form from 10^21 on.
- Text.NatToString: prints counters as plain decimal digits. JavaScript prints numbers of 10^21 and above in exponent form, which no placeholder counter reaches.
- The highlight cache's `Map` is a `map` plus the sequence of its keys in insertion order, which eviction needs. `activeNodes` is a plain `map`. `recycleNodesOutsideRange` may visit its rows in any order, so the order of the nodes it pushes onto the pool is not modelled.
- Placeholder collision freedom is not claimed for the legacy highlighter. A log line may contain `$n;` itself (see Findings).
- The HTTP server, stdin handling and event stream of index.mjs are not modelled. Neither are the UI-only files, the older public/filter.js and public/index.js, or the demo generators.

## Findings

| source | as written | input that shows it | evidently intended | confidence | as-written member | corrected member |
|---|---|---|---|---|---|---|
| index.mjs:31-42 | `{...}[ext] ?? "text/plain"` also finds members inherited from `Object.prototype` | the path `/x.constructor` gets the `Object` function as its Content-Type | only the nine listed extensions have a type; anything else is `text/plain` | not executed | Mime.ConstructorExtensionIsNotAString | Mime.GetMimeTypeForFile |
| public/utils/filter.js:54-55 | each spec is read with `split("=")`, which cuts a quoted value at its first `=` | `@@tag="a=b"` reads as the empty value, which matches every `tag` entry, such as `tag:x` | the value `a=b` the selector expression matched | not executed | Filter.EqualsInValueFilter | Filter.ExtractTagGroups |
| public/utils/filter.js:75-82 | an extracted entry is read with `split(':')`, keeping only the text up to a second `:` | the entry `c:a:b` never matches the spec `c="a:b"` | the whole text after the first `:` is compared | not executed | Filter.ColonInTextFilter | Filter.SpecMatchesClassTag |
| public/worker/highlight.js:208-209 | line 208 removes the placeholder character, but line 209 passes the original `text` on | a line consisting of the single character U+E0153: `match` finds nothing and `flatMap` throws | the passes run on the text with the placeholder character removed | not executed | Highlighter.LoneMarkerAsWritten | Highlighter.LoneMarkerCorrected |
| public/highlight.js:159-161 | a `$n;` in the log line itself is looked up in the map, and `map.get` returns `undefined` | the line `$0;` is shown as `undefined` | text that no pass replaced is shown as it is | not executed | LegacyHighlight.RawMarkLineAsWritten | LegacyHighlight.RawMarkLineCorrected |
| public/worker/highlight.js:263-268 | `[^VS]` in an expression without the `u` flag excludes each of the two code units of VS, U+DB40 and U+DD53, not the character | the text "a", U+1F953, "b": the tokens are "a" followed by a lone high surrogate, and "b"; the low surrogate U+DD53 is in no token | the class excludes only the character U+E0153 | not executed | Placeholders.SupplementaryCutAsWritten | Placeholders.SupplementaryKept |

=== FILE: ansi.dfy ===
/**
 * `replaceAnsi` of the worker highlighter (public/worker/highlight.js): terminal escape
 * sequences in a log line.  In strip mode the sequences are deleted; otherwise OSC 8
 * hyperlinks become links, and each Select Graphic Rendition sequence (ECMA-48
 * section 8.3.117) followed by text wraps that text in a span whose classes are all
 * those pushed since the last reset.
 */
module Ansi {
  import opened Wrappers
  import opened Text
  import opened Elements
  import opened Placeholders

  const ESC: char := '\U{1B}'

  /** A character of the parameter list of an SGR sequence: `\d` or `;`. */
  predicate IsCodeChar(c: char) {
    IsDigit(c) || c == ';'
  }

  /** Length of the run of parameter characters at the start of `s`. */
  function CodeRun(s: string): (n: nat)
    ensures n <= |s| && (n == |s| || !IsCodeChar(s[n]))
    ensures forall k :: 0 <= k < n ==> IsCodeChar(s[k])
  {
    if s != [] && IsCodeChar(s[0]) then 1 + CodeRun(s[1..]) else 0
  }

  /** Length of the run of characters other than ESC at the start of `s`. */
  function TextRun(s: string): (n: nat)
    ensures n <= |s| && (forall k :: 0 <= k < n ==> s[k] != ESC) && (n == |s| || s[n] == ESC)
  {
    if s != [] && s[0] != ESC then
      var k := TextRun(s[1..]);
      assert s[..k + 1] == [s[0]] + s[1..][..k];
      k + 1
    else 0
  }

  // ----- Strip mode -----

  /**
   * Length of the sequence `/\x1B(?:]8;;|\\|\[(?:\d+|;)+?m)/` matches at the start of
   * `s`, or 0.  The lazy parameter list can only end where the run of parameter
   * characters ends, so it is that whole run.
   */
  function EscapeLength(s: string): (n: nat)
    ensures n <= |s| && (n > 0 ==> n >= 2 && s[0] == ESC)
  {
    if |s| >= 5 && s[0] == ESC && s[1..5] == "]8;;" then 5
    else if |s| >= 2 && s[0] == ESC && s[1] == '\\' then 2
    else if |s| >= 2 && s[0] == ESC && s[1] == '[' then
      var d := CodeRun(s[2..]);
      if d > 0 && d + 2 < |s| && s[d + 2] == 'm' then d + 3 else 0
    else 0
  }

  /** `text.replace(/\x1B(?:]8;;|\\|\[(?:\d+|;)+?m)/g, '')`. */
  function StripAnsi(s: string): (r: string)
    ensures |r| <= |s|
    decreases |s|
  {
    if s == [] then []
    else
      var n := EscapeLength(s);
      if n > 0 then StripAnsi(s[n..]) else [s[0]] + StripAnsi(s[1..])
  }

  /** Text before the first ESC is kept as it is. */
  lemma {:induction false} StripKeepsPlain(a: string, b: string)
    requires ESC !in a
    ensures StripAnsi(a + b) == a + StripAnsi(b)
    decreases |a|
  {
    if a != [] {
      var s := a + b;
      assert s[0] == a[0] != ESC;
      assert EscapeLength(s) == 0;
      assert s[1..] == a[1..] + b;
      assert StripAnsi(s) == [a[0]] + StripAnsi(a[1..] + b);
      StripKeepsPlain(a[1..], b);
      assert a == [a[0]] + a[1..];
    } else {
      assert a + b == b;
    }
  }

  /** A text without ESC is left unchanged. */
  lemma StripWithoutEscape(s: string)
    requires ESC !in s
    ensures StripAnsi(s) == s
  {
    StripKeepsPlain(s, []);
    assert s + [] == s;
  }

  /** An SGR sequence is deleted, whatever follows it. */
  lemma StripDeletesSgr(codes: string, rest: string)
    requires codes != [] && forall k :: 0 <= k < |codes| ==> IsCodeChar(codes[k])
    ensures StripAnsi([ESC, '['] + codes + "m" + rest) == StripAnsi(rest)
  {
    var s := [ESC, '['] + codes + "m" + rest;
    assert s[0] == ESC && s[1] == '[' && (|s| >= 5 ==> s[1..5][0] == '[');
    assert s[2..] == codes + ("m" + rest);
    assert CodeRun(s[2..]) == |codes| by {
      CodeRunOf(codes, "m" + rest);
    }
    assert s[|codes| + 2] == 'm';
    assert EscapeLength(s) == |codes| + 3;
    assert s[|codes| + 3..] == rest;
  }

  lemma {:induction false} CodeRunOf(codes: string, rest: string)
    requires forall k :: 0 <= k < |codes| ==> IsCodeChar(codes[k])
    requires rest == [] || !IsCodeChar(rest[0])
    ensures CodeRun(codes + rest) == |codes|
    decreases |codes|
  {
    if codes != [] {
      assert (codes + rest)[1..] == codes[1..] + rest;
      CodeRunOf(codes[1..], rest);
    } else {
      assert codes + rest == rest;
    }
  }

  /** The two halves of a hyperlink's brackets are deleted. */
  lemma StripDeletesLinkParts(rest: string)
    ensures StripAnsi([ESC] + "]8;;" + rest) == StripAnsi(rest)
    ensures StripAnsi([ESC, '\\'] + rest) == StripAnsi(rest)
  {
    var s := [ESC] + "]8;;" + rest;
    assert s[1..5] == "]8;;" && s[5..] == rest;
    var t := [ESC, '\\'] + rest;
    assert t[0] == ESC && t[1] == '\\';
    assert |t| >= 5 ==> t[1..5][0] == '\\';
    assert EscapeLength(t) == 2;
    assert t[2..] == rest;
  }

  // ----- Hyperlinks: /\x1B]8;;(.+?)\x1B\\(.+?)\x1B]8;;\x1B\\/g -----

  /** The characters `.` does not match without the `s` flag. */
  predicate IsLineTerminator(c: char) {
    c == '\n' || c == '\r' || c == '\U{2028}' || c == '\U{2029}'
  }

  const LinkOpen: string := [ESC] + "]8;;"
  const LinkClose: string := [ESC] + "]8;;" + [ESC] + "\\"

  /**
   * The lazy `(.+?)` of the link's text, which started at `t`: the first `b` from the
   * one given on where the closing sequence follows, the text up to `b` holding no line
   * terminator.
   */
  function CloseFrom(s: string, t: nat, b: nat): (r: Option<nat>)
    requires t < b <= |s|
    ensures r.Some? ==> b <= r.value && SliceAt(s, LinkClose, r.value)
    decreases |s| - b
  {
    if b + 7 <= |s| && s[b..b + 7] == LinkClose then Some(b)
    else if b < |s| && !IsLineTerminator(s[b]) then CloseFrom(s, t, b + 1)
    else None
  }

  /** The text of a link starting at `t`: non-empty, then the closing sequence. */
  function LinkTextAt(s: string, t: nat): (r: Option<nat>)
    requires t <= |s|
    ensures r.Some? ==> t < r.value && SliceAt(s, LinkClose, r.value)
  {
    if t < |s| && !IsLineTerminator(s[t]) then CloseFrom(s, t, t + 1) else None
  }

  /**
   * The lazy `(.+?)` of the link's target, which started at `l`: the first `a` from the
   * one given where `ESC \` follows and a text can be found after it.
   */
  function TargetFrom(s: string, l: nat, a: nat): (r: Option<(nat, nat)>)
    requires l < a <= |s|
    ensures r.Some? ==> var (a', b) := r.value;
      a <= a' && a' + 2 < b && SliceAt(s, LinkClose, b)
      && s[a'] == ESC && s[a' + 1] == '\\'
    decreases |s| - a
  {
    var text := if a + 2 <= |s| && s[a] == ESC && s[a + 1] == '\\' then LinkTextAt(s, a + 2) else None;
    if text.Some? then Some((a, text.value))
    else if a < |s| && !IsLineTerminator(s[a]) then TargetFrom(s, l, a + 1)
    else None
  }

  /** The hyperlink expression at `i`: its end, and the target and text it captures. */
  function LinkAt(s: string, i: nat): (r: Option<(nat, (string, string))>)
    ensures r.Some? ==> i < r.value.0 <= |s|
  {
    if i + 5 < |s| && s[i..i + 5] == LinkOpen && !IsLineTerminator(s[i + 5]) then
      match TargetFrom(s, i + 5, i + 6)
      case Some((a, b)) => Some((b + 7, (s[i + 5..a], s[a + 2..b])))
      case None => None
    else None
  }

  /** A hyperlink becomes `<a class="url" href=target>text</a>`. */
  function LinkElements(m: string, captured: (string, string)): Option<seq<Node>> {
    Some([Element("a", "url", captured.1, Some(captured.0), [])])
  }

  /** A matched hyperlink is the opening sequence, the target, `ESC \`, the text and the closing sequence. */
  lemma LinkShape(s: string, i: nat)
    requires i <= |s| && LinkAt(s, i).Some?
    ensures var (e, (target, text)) := LinkAt(s, i).value;
      target != [] && text != [] && s[i..e] == LinkOpen + (target + ([ESC, '\\'] + (text + LinkClose)))
  {
    var (e, (target, text)) := LinkAt(s, i).value;
    var (a, b) := TargetFrom(s, i + 5, i + 6).value;
    assert e == b + 7 && target == s[i + 5..a] && text == s[a + 2..b];
    assert s[a..a + 2] == [ESC, '\\'];
    SliceSplit(s, a + 2, b, e);
    assert s[a + 2..e] == text + LinkClose;
    SliceSplit(s, a, a + 2, e);
    assert s[a..e] == [ESC, '\\'] + (text + LinkClose);
    SliceSplit(s, i + 5, a, e);
    assert s[i + 5..e] == target + ([ESC, '\\'] + (text + LinkClose));
    SliceSplit(s, i, i + 5, e);
  }

  // ----- Select Graphic Rendition -----

  /** One SGR match: the parameter list and the text after it, up to the next ESC. */
  datatype Sgr = Sgr(numbers: string, text: string)

  /**
   * `/\x1B\[((?:\d+|;)+?)m([^\x1B]+)/` at `i`: the parameters are the whole run of
   * parameter characters (the lazy list can end only at its `m`), and the text is the
   * longest non-empty run without ESC.
   */
  function SgrAt(s: string, i: nat): (r: Option<(nat, Sgr)>)
    ensures r.Some? ==> i < r.value.0 <= |s|
  {
    if i + 2 <= |s| && s[i] == ESC && s[i + 1] == '[' then
      var d := CodeRun(s[i + 2..]);
      var mp := i + 2 + d;
      if d > 0 && mp < |s| && s[mp] == 'm' then
        var t := TextRun(s[mp + 1..]);
        if t > 0 then Some((mp + 1 + t, Sgr(s[i + 2..mp], s[mp + 1..mp + 1 + t]))) else None
      else None
    else None
  }

  /** The colour names of `38;5;n` for n below 16. */
  const Colors: seq<string> := [
    "black", "red", "green", "yellow", "blue", "magenta", "cyan", "white",
    "gray", "red", "brightgreen", "yellow", "dodgerblue", "pink", "aqua", "white"
  ]

  /** `colors[n] ? ansi-<colors[n]> : ansi-256-foreground-<n>`. */
  function ColorClass(n: nat): string {
    if n < |Colors| then "ansi-" + Colors[n] else "ansi-256-foreground-" + NatToString(n)
  }

  /** The name of one style code: 1 to 5 have names, any other code stands for itself. */
  function StyleName(code: string): string {
    if code == "1" then "bold"
    else if code == "2" then "dim"
    else if code == "3" then "italic"
    else if code == "4" then "underline"
    else if code == "5" then "blink"
    else code
  }

  /** `Number(piece)` for a piece of a parameter list, which holds only digits. */
  function NumberOf(piece: string): nat {
    if AllDigits(piece) then DigitsValue(piece) else 0
  }

  function StyleClasses(codes: seq<string>): (cs: seq<string>)
    ensures |cs| == |codes|
  {
    if codes == [] then [] else ["ansi-" + StyleName(codes[0])] + StyleClasses(codes[1..])
  }

  /**
   * The classes one SGR sequence pushes: for `38;5...`, the colour of its last number;
   * otherwise one class per code.
   */
  function ClassesFor(numbers: string): seq<string> {
    var codes := Split(numbers, ';');
    if StartsWith(numbers, "38;5") then [ColorClass(NumberOf(codes[|codes| - 1]))]
    else StyleClasses(codes)
  }

  /** `38;5;n` gives the named colour for n below 16 and the 256-colour class otherwise. */
  lemma ColorCode(n: nat)
    ensures ClassesFor("38;5;" + NatToString(n))
      == [if n < 16 then "ansi-" + Colors[n] else "ansi-256-foreground-" + NatToString(n)]
  {
    var d := NatToString(n);
    forall k | 0 <= k < |d|
      ensures d[k] != ';'
    {
      assert IsDigit(d[k]);
    }
    assert "38;5;" + d == "38" + [';'] + "5" + [';'] + d;
    SplitThree("38", "5", d, ';');
    assert StartsWith("38;5;" + d, "38;5");
    DigitsValueOfNatToString(n);
  }

  /** A list of style codes gives one class per code, in order, bold to blink for 1 to 5. */
  lemma StyleCodes(codes: seq<string>)
    requires |codes| >= 1 && !StartsWith(Join(codes, ";"), "38;5")
    requires forall k :: 0 <= k < |codes| ==> ';' !in codes[k]
    ensures var cs := ClassesFor(Join(codes, ";"));
      |cs| == |codes| && forall k :: 0 <= k < |codes| ==> cs[k] == "ansi-" + StyleName(codes[k])
  {
    SplitJoin(codes, ';');
    StyleClassesAt(codes);
  }

  lemma {:induction false} StyleClassesAt(codes: seq<string>)
    ensures forall k :: 0 <= k < |codes| ==> StyleClasses(codes)[k] == "ansi-" + StyleName(codes[k])
    decreases |codes|
  {
    if codes != [] {
      StyleClassesAt(codes[1..]);
      forall k | 0 < k < |codes|
        ensures StyleClasses(codes)[k] == "ansi-" + StyleName(codes[k])
      {
        assert StyleClasses(codes)[k] == StyleClasses(codes[1..])[k - 1];
      }
    }
  }

  /**
   * `ansiClassNames` after the parameter lists `seen`, in order: a list equal to "0"
   * empties it, any other pushes its classes.
   */
  function StackAfter(seen: seq<string>): seq<string> {
    if seen == [] then []
    else if seen[|seen| - 1] == "0" then []
    else StackAfter(seen[..|seen| - 1]) + ClassesFor(seen[|seen| - 1])
  }

  /** The classes pushed by a list of parameter lists, in order. */
  function Pushed(seen: seq<string>): seq<string> {
    if seen == [] then [] else Pushed(seen[..|seen| - 1]) + ClassesFor(seen[|seen| - 1])
  }

  /** Where the last reset in `seen` ends: after it, or 0 when there is none. */
  function LastReset(seen: seq<string>): (r: nat)
    ensures r <= |seen| && forall k :: r <= k < |seen| ==> seen[k] != "0"
    ensures r > 0 ==> seen[r - 1] == "0"
  {
    if seen == [] then 0
    else if seen[|seen| - 1] == "0" then |seen|
    else LastReset(seen[..|seen| - 1])
  }

  /** The class list holds exactly the classes pushed since the last reset, in order. */
  lemma {:induction false} StackSinceReset(seen: seq<string>)
    ensures StackAfter(seen) == Pushed(seen[LastReset(seen)..])
    decreases |seen|
  {
    if seen != [] && seen[|seen| - 1] != "0" {
      var init := seen[..|seen| - 1];
      var r := LastReset(seen);
      StackSinceReset(init);
      assert seen[r..][..|seen[r..]| - 1] == init[r..];
    } else if seen != [] {
      assert seen[|seen|..] == [];
    }
  }

  /**
   * The SGR pass from position `i`, with the parameter lists `seen` already met: a reset
   * leaves its text as it is; any other sequence and its text become a placeholder for a
   * span carrying the classes on the list and the text.
   */
  function SgrFrom(s: string, i: nat, seen: seq<string>, next: nat): (string, seq<seq<Node>>)
    requires i <= |s|
    decreases |s| - i
  {
    if i == |s| then ([], [])
    else match SgrAt(s, i)
      case Some((e, Sgr(numbers, text))) =>
        if numbers == "0" then
          var rest := SgrFrom(s, e, seen + [numbers], next);
          (text + rest.0, rest.1)
        else
          var rest := SgrFrom(s, e, seen + [numbers], next + 1);
          (Placeholder(next) + rest.0, [[Span(Join(StackAfter(seen + [numbers]), " "), text)]] + rest.1)
      case None =>
        var rest := SgrFrom(s, i + 1, seen, next);
        ([s[i]] + rest.0, rest.1)
  }

  /** `.replace(/\x1B\[0m/g, "")`. */
  function RemoveResets(s: string): (r: string)
    ensures |r| <= |s|
    decreases |s|
  {
    if s == [] then []
    else if |s| >= 4 && s[..4] == [ESC, '[', '0', 'm'] then RemoveResets(s[4..])
    else [s[0]] + RemoveResets(s[1..])
  }

  /** Removing resets leaves text without ESC unchanged and deletes each `ESC[0m`. */
  lemma {:induction false} RemoveResetsKeepsPlain(a: string, b: string)
    requires ESC !in a
    ensures RemoveResets(a + b) == a + RemoveResets(b)
    ensures RemoveResets([ESC, '[', '0', 'm'] + b) == RemoveResets(b)
    decreases |a|
  {
    assert ([ESC, '[', '0', 'm'] + b)[4..] == b;
    if a != [] {
      assert (a + b)[0] == a[0];
      assert (a + b)[1..] == a[1..] + b;
      RemoveResetsKeepsPlain(a[1..], b);
    } else {
      assert a + b == b;
    }
  }

  /** The non-strip pass: hyperlinks, then SGR runs, then the remaining resets. */
  function AnsiPass(text: string, next: nat): (string, seq<seq<Node>>) {
    var links := ReplaceFrom(text, 0, LinkAt, LinkElements, next);
    var sgr := SgrFrom(links.0, 0, [], next + |links.1|);
    (RemoveResets(sgr.0), links.1 + sgr.1)
  }

  /** A reset sequence followed by text: the text stays, unwrapped. */
  lemma SgrResetStep(s: string, i: nat, seen: seq<string>, next: nat)
    requires i < |s| && SgrAt(s, i).Some? && SgrAt(s, i).value.1.numbers == "0"
    ensures var (e, m) := SgrAt(s, i).value;
      SgrFrom(s, i, seen, next)
      == (m.text + SgrFrom(s, e, seen + ["0"], next).0, SgrFrom(s, e, seen + ["0"], next).1)
  {
  }

  /** Any other sequence followed by text: a placeholder for the span. */
  lemma SgrWrapStep(s: string, i: nat, seen: seq<string>, next: nat)
    requires i < |s| && SgrAt(s, i).Some? && SgrAt(s, i).value.1.numbers != "0"
    ensures var (e, m) := SgrAt(s, i).value;
      SgrFrom(s, i, seen, next)
      == (Placeholder(next) + SgrFrom(s, e, seen + [m.numbers], next + 1).0,
          [[Span(Join(StackAfter(seen + [m.numbers]), " "), m.text)]]
          + SgrFrom(s, e, seen + [m.numbers], next + 1).1)
  {
  }

  lemma SgrSkipStep(s: string, i: nat, seen: seq<string>, next: nat)
    requires i < |s| && SgrAt(s, i).None?
    ensures SgrFrom(s, i, seen, next) == ([s[i]] + SgrFrom(s, i + 1, seen, next).0, SgrFrom(s, i + 1, seen, next).1)
  {
  }

  /**
   * The SGR replacement of `replaceAnsi`, with its `ansiClassNames` array: proved to
   * keep that array equal to the classes pushed since the last reset.
   */
  method ReplaceSgr(r: Replacer, s: string) returns (out: string)
    requires r.Valid()
    modifies r
    ensures r.Valid()
    ensures out == SgrFrom(s, 0, [], old(r.ident)).0
    ensures r.recorded == old(r.recorded) + SgrFrom(s, 0, [], old(r.ident)).1
  {
    ghost var r0 := r.recorded;
    ghost var total := SgrFrom(s, 0, [], r.ident);
    ghost var issued: seq<seq<Node>> := [];
    ghost var seen: seq<string> := [];
    var ansiClassNames: seq<string> := [];
    out := [];
    var i := 0;
    ghost var rest := total;
    assert [] + total.0 == total.0 && [] + total.1 == total.1;
    while i < |s|
      invariant i <= |s| && r.Valid() && r.recorded == r0 + issued
      invariant ansiClassNames == StackAfter(seen)
      invariant rest == SgrFrom(s, i, seen, r.ident)
      invariant out + rest.0 == total.0 && issued + rest.1 == total.1
      decreases |s| - i
    {
      var piece, e;
      ghost var added;
      piece, e, ansiClassNames, seen, added := SgrStep(r, s, i, ansiClassNames, seen);
      rest := SgrFrom(s, e, seen, r.ident);
      ConcatAssoc(out, piece, rest.0);
      ConcatAssoc(issued, added, rest.1);
      ConcatAssoc(r0, issued, added);
      out, issued, i := out + piece, issued + added, e;
    }
    assert rest == ([], []);
    assert out + [] == out && issued + [] == issued;
  }

  /** One step of that scan, at position `i`. */
  method SgrStep(r: Replacer, s: string, i: nat, ansiClassNames: seq<string>, ghost seen: seq<string>)
    returns (piece: string, e: nat, classNames': seq<string>, ghost seen': seq<string>, ghost added: seq<seq<Node>>)
    requires r.Valid() && i < |s| && ansiClassNames == StackAfter(seen)
    modifies r
    ensures r.Valid() && i < e <= |s| && r.recorded == old(r.recorded) + added
    ensures classNames' == StackAfter(seen')
    ensures SgrFrom(s, i, seen, old(r.ident))
      == (piece + SgrFrom(s, e, seen', r.ident).0, added + SgrFrom(s, e, seen', r.ident).1)
  {
    var n := r.ident;
    match SgrAt(s, i)
    case Some((end, Sgr(numbers, text))) =>
      e, seen' := end, seen + [numbers];
      if numbers == "0" {
        SgrResetStep(s, i, seen, n);
        classNames', piece, added := [], text, [];
        assert added + SgrFrom(s, e, seen', n).1 == SgrFrom(s, e, seen', n).1;
      } else {
        SgrWrapStep(s, i, seen, n);
        classNames' := ansiClassNames + ClassesFor(numbers);
        var els := [Span(Join(classNames', " "), text)];
        piece := r.GetReplacement(els);
        added := [els];
      }
    case None =>
      SgrSkipStep(s, i, seen, n);
      piece, e, classNames', seen', added := [s[i]], i + 1, ansiClassNames, seen, [];
      assert added + SgrFrom(s, e, seen', n).1 == SgrFrom(s, e, seen', n).1;
  }

  /**
   * `replaceAnsi(text, getReplacement, stripAnsiEscape)`: in strip mode only the escape
   * sequences are deleted and nothing is recorded.
   */
  method ReplaceAnsi(r: Replacer, text: string, stripAnsiEscape: bool) returns (out: string)
    requires r.Valid()
    modifies r
    ensures r.Valid()
    ensures stripAnsiEscape ==> out == StripAnsi(text) && r.recorded == old(r.recorded)
    ensures !stripAnsiEscape ==>
      out == AnsiPass(text, old(r.ident)).0 && r.recorded == old(r.recorded) + AnsiPass(text, old(r.ident)).1
  {
    if stripAnsiEscape {
      return StripAnsi(text);
    }
    ghost var n0, r0 := r.ident, r.recorded;
    var withReplacedLinks := r.Replace(text, LinkAt, LinkElements);
    var sgr := ReplaceSgr(r, withReplacedLinks);
    out := RemoveResets(sgr);
    assert r0 + ReplaceFrom(text, 0, LinkAt, LinkElements, n0).1 + SgrFrom(withReplacedLinks, 0, [], n0 + |ReplaceFrom(text, 0, LinkAt, LinkElements, n0).1|).1
      == r0 + AnsiPass(text, n0).1;
  }
}

=== FILE: elements.dfy ===
/**
 * The element objects the highlighter produces and the DOM nodes the page builds from
 * them.  `getElementForObj` (public/lib.js) turns a string into a text node and an
 * element object into an element whose `className`, `textContent` and `href` are the
 * object's, and then appends the children; both shapes are one datatype here, `name`
 * being the lower-case tag name (`tagName` upper-cases it).
 */
module Elements {
  import opened Wrappers

  datatype Node =
    | Text(text: string)
    | Element(name: string, className: string, text: string, href: Option<string>, children: seq<Node>)

  /** `getSpan(className, textContent)`: a span with no children. */
  function Span(className: string, text: string): Node {
    Element("span", className, text, None, [])
  }

  /**
   * `textContent` of a built node: the text assigned to it followed by the text of the
   * children appended after the assignment.
   */
  function TextContent(n: Node): string {
    match n
    case Text(t) => t
    case Element(_, _, t, _, cs) => t + TextContentAll(cs)
  }

  function TextContentAll(ns: seq<Node>): string {
    if ns == [] then "" else TextContent(ns[0]) + TextContentAll(ns[1..])
  }

  lemma {:induction false} TextContentAllAppend(a: seq<Node>, b: seq<Node>)
    ensures TextContentAll(a + b) == TextContentAll(a) + TextContentAll(b)
    decreases |a|
  {
    if a != [] {
      TextContentAllAppend(a[1..], b);
      assert (a + b)[0] == a[0];
      assert (a + b)[1..] == a[1..] + b;
    } else {
      assert a + b == b;
    }
  }
}

=== FILE: filter.dfy ===
/**
 * The tag-filter query language of the viewer's filter box.
 *
 * A query holds selectors `@@class[="text"](,class[="text"])*` and free text.  Each
 * selector is a group: a log passes a group when one of its `class:text` tags matches one
 * of the group's specs, and it passes the query when it passes every group and its text
 * contains the free text left after the selectors are removed (ignoring case).
 *
 * The selector's regular expression is modelled by hand, as the backtracking engine runs
 * it: the class name is the longest run of `[\w-]`, and the quoted value is the greedy run
 * of `\"` pairs and non-quote characters, closed by the quote it stops at, or, when it
 * runs to the end of the text, by the quote of the last `\"` pair it took.
 */
module Filter {
  import opened Wrappers
  import opened Text

  /** One spec of a group: a class name, and the text its tag must carry when given. */
  datatype TagSpec = TagSpec(tag: string, textValue: Option<string>)

  /** `[\w-]`, the characters of a class name. */
  predicate IsClassChar(c: char) {
    IsWordChar(c) || c == '-'
  }

  predicate IsClassName(s: string) {
    s != [] && forall k :: 0 <= k < |s| ==> IsClassChar(s[k])
  }

  lemma ClassNameLacks(s: string, c: char)
    requires IsClassName(s) && !IsClassChar(c)
    ensures c !in s
  {
    assert forall k :: 0 <= k < |s| ==> s[k] != c;
  }

  // ----- The selector's regular expression -----

  /** The end of the longest run of class characters from `p`. */
  function ClassEnd(s: string, p: nat): (e: nat)
    requires p <= |s|
    ensures p <= e <= |s|
    ensures forall k :: p <= k < e ==> IsClassChar(s[k])
    ensures e < |s| ==> !IsClassChar(s[e])
    decreases |s| - p
  {
    if p < |s| && IsClassChar(s[p]) then ClassEnd(s, p + 1) else p
  }

  /**
   * The greedy pass of `(?:\\"|[^"])*` from `p`: where it stops, and the start of the
   * last `\"` pair it took (`lastPair` when it took none).
   */
  function BodyScan(s: string, p: nat, lastPair: Option<nat>): (r: (nat, Option<nat>))
    requires p <= |s|
    ensures p <= r.0 <= |s|
    ensures r.0 < |s| ==> s[r.0] == '"'
    ensures r.1 == lastPair
      || (r.1.Some? && p <= r.1.value && r.1.value + 2 <= r.0 && s[r.1.value] == '\\' && s[r.1.value + 1] == '"')
    decreases |s| - p
  {
    if p + 1 < |s| && s[p] == '\\' && s[p + 1] == '"' then BodyScan(s, p + 2, Some(p))
    else if p < |s| && s[p] != '"' then BodyScan(s, p + 1, lastPair)
    else (p, lastPair)
  }

  /**
   * Where `(?:="((?:\\"|[^"])+)")?` ends when tried at `p`, or None when it does not
   * match there.  The value is at least one character long.
   */
  function QuotedEnd(s: string, p: nat): (r: Option<nat>)
    requires p <= |s|
    ensures r.Some? ==> p + 4 <= r.value <= |s| && s[p] == '=' && s[p + 1] == '"' && s[r.value - 1] == '"'
  {
    if p + 1 < |s| && s[p] == '=' && s[p + 1] == '"' then
      var (stop, lastPair) := BodyScan(s, p + 2, None);
      if stop < |s| then
        if stop > p + 2 then Some(stop + 1) else None
      else if lastPair.Some? then Some(lastPair.value + 2)
      else None
    else None
  }

  /** One `class[="text"]` at `p`: the spec it denotes and where it ends. */
  function SpecAt(s: string, p: nat): (r: (TagSpec, nat))
    requires p < |s| && IsClassChar(s[p])
    ensures p < r.1 <= |s|
    ensures IsClassName(r.0.tag)
    ensures r.0.textValue.Some? ==> r.0.textValue.value != []
  {
    var c := ClassEnd(s, p);
    match QuotedEnd(s, c)
    case None => (TagSpec(s[p..c], None), c)
    case Some(e) => (TagSpec(s[p..c], Some(s[c + 2..e - 1])), e)
  }

  /** Another spec follows at `p`: a comma, then a class character. */
  predicate MoreAt(s: string, p: nat) {
    p + 1 < |s| && s[p] == ',' && IsClassChar(s[p + 1])
  }

  /** The comma-separated specs from `p`, and where the last one ends. */
  function SpecsAt(s: string, p: nat): (r: (seq<TagSpec>, nat))
    requires p < |s| && IsClassChar(s[p])
    ensures p < r.1 <= |s| && |r.0| >= 1
    decreases |s| - p
  {
    var (spec, e) := SpecAt(s, p);
    if MoreAt(s, e) then
      var (rest, e') := SpecsAt(s, e + 1);
      ([spec] + rest, e')
    else ([spec], e)
  }

  /** A selector starts at `i`: `@@` and a class character. */
  predicate SelectorAt(s: string, i: nat) {
    i + 2 < |s| && s[i] == '@' && s[i + 1] == '@' && IsClassChar(s[i + 2])
  }

  /** One match of the selector: where it starts and ends, and the group its specs denote. */
  datatype Match = Match(start: nat, end: nat, group: seq<TagSpec>)

  /** No selector starts in [lo, hi). */
  predicate NoSelectorIn(s: string, lo: nat, hi: nat) {
    forall j: nat :: lo <= j < hi ==> !SelectorAt(s, j)
  }

  /**
   * `matchAll` with the global flag: the leftmost match from `i`, then the matches after
   * its end.
   */
  function MatchesFrom(s: string, i: nat): (ms: seq<Match>)
    requires i <= |s|
    ensures forall k :: 0 <= k < |ms| ==>
      i <= ms[k].start && ms[k].start + 2 < ms[k].end <= |s| && SelectorAt(s, ms[k].start)
    decreases |s| - i
  {
    if i == |s| then []
    else if SelectorAt(s, i) then
      var r := SpecsAt(s, i + 2);
      [Match(i, r.1, r.0)] + MatchesFrom(s, r.1)
    else MatchesFrom(s, i + 1)
  }

  /** The first match is the leftmost selector: none starts before it, and none at all when nothing matches. */
  lemma {:induction false} FirstMatchIsLeftmost(s: string, i: nat)
    requires i <= |s|
    ensures MatchesFrom(s, i) == [] ==> NoSelectorIn(s, i, |s|)
    ensures MatchesFrom(s, i) != [] ==> NoSelectorIn(s, i, MatchesFrom(s, i)[0].start)
    decreases |s| - i
  {
    if i < |s| && !SelectorAt(s, i) {
      FirstMatchIsLeftmost(s, i + 1);
      assert MatchesFrom(s, i) == MatchesFrom(s, i + 1);
    }
  }

  lemma DropCons<T>(x: T, rest: seq<T>, k: nat)
    requires 0 < k <= |rest| + 1
    ensures ([x] + rest)[k..] == rest[k - 1..]
  {
  }

  /** After each match the search resumes where it ended. */
  lemma {:induction false} MatchesResume(s: string, i: nat, k: nat)
    requires i <= |s| && 0 < k < |MatchesFrom(s, i)|
    ensures MatchesFrom(s, MatchesFrom(s, i)[k - 1].end) == MatchesFrom(s, i)[k..]
    decreases |s| - i
  {
    var ms := MatchesFrom(s, i);
    if SelectorAt(s, i) {
      var e := SpecsAt(s, i + 2).1;
      var rest := MatchesFrom(s, e);
      var first := Match(i, e, SpecsAt(s, i + 2).0);
      assert ms == [first] + rest;
      DropCons(first, rest, k);
      if k == 1 {
        assert ms[0] == first;
      } else {
        MatchesResume(s, e, k - 1);
        assert ms[k - 1] == rest[k - 2];
      }
      assert ms[k..] == rest[k - 1..];
    } else {
      assert ms == MatchesFrom(s, i + 1);
      MatchesResume(s, i + 1, k);
    }
  }

  /**
   * The matches are ordered and do not overlap, and no selector starts between two
   * consecutive ones.
   */
  lemma MatchesAreLeftmost(s: string, i: nat, k: nat)
    requires i <= |s| && 0 < k < |MatchesFrom(s, i)|
    ensures var ms := MatchesFrom(s, i);
      ms[k - 1].end <= ms[k].start && NoSelectorIn(s, ms[k - 1].end, ms[k].start)
  {
    var ms := MatchesFrom(s, i);
    MatchesResume(s, i, k);
    FirstMatchIsLeftmost(s, ms[k - 1].end);
    assert MatchesFrom(s, ms[k - 1].end)[0] == ms[k];
  }

  /** The query with every match of the selector removed (`replace` with the global flag). */
  function RemoveSelectors(s: string, i: nat): string
    requires i <= |s|
    decreases |s| - i
  {
    if i == |s| then []
    else if SelectorAt(s, i) then RemoveSelectors(s, SpecsAt(s, i + 2).1)
    else [s[i]] + RemoveSelectors(s, i + 1)
  }

  /** The total length of the matches. */
  function MatchedLength(ms: seq<Match>): int {
    if ms == [] then 0 else (ms[0].end - ms[0].start) + MatchedLength(ms[1..])
  }

  /** Removing the selectors removes exactly the matched characters. */
  lemma {:induction false} RemoveSelectorsLength(s: string, i: nat)
    requires i <= |s|
    ensures |RemoveSelectors(s, i)| == |s| - i - MatchedLength(MatchesFrom(s, i))
    decreases |s| - i
  {
    if i < |s| {
      var ms := MatchesFrom(s, i);
      if SelectorAt(s, i) {
        var e := SpecsAt(s, i + 2).1;
        RemoveSelectorsLength(s, e);
        assert ms[1..] == MatchesFrom(s, e);
      } else {
        RemoveSelectorsLength(s, i + 1);
      }
    }
  }

  // ----- extractTagGroups -----

  /** The groups of a query, one per match, in order, read from the grammar. */
  function ExtractTagGroups(filterText: string): (groups: seq<seq<TagSpec>>)
    ensures |groups| == |MatchesFrom(filterText, 0)|
    ensures forall k :: 0 <= k < |groups| ==> groups[k] == MatchesFrom(filterText, 0)[k].group
  {
    var ms := MatchesFrom(filterText, 0);
    seq(|ms|, k requires 0 <= k < |ms| => ms[k].group)
  }

  /** Every spec read from the grammar has a class name, and a value when given is not empty. */
  lemma {:induction false} SpecsWellFormed(s: string, p: nat)
    requires p < |s| && IsClassChar(s[p])
    ensures forall k :: 0 <= k < |SpecsAt(s, p).0| ==>
      IsClassName(SpecsAt(s, p).0[k].tag)
      && (SpecsAt(s, p).0[k].textValue.Some? ==> SpecsAt(s, p).0[k].textValue.value != [])
    decreases |s| - p
  {
    var (spec, e) := SpecAt(s, p);
    if MoreAt(s, e) {
      SpecsWellFormed(s, e + 1);
    }
  }

  /** `s.slice(1, -1)`: drops the first and the last character; shorter strings give "". */
  function SliceInner(s: string): string {
    if |s| >= 2 then s[1..|s| - 1] else []
  }

  /** `const [tag, textValue] = tagText.split("=")`, with the value's quotes dropped. */
  function SpecAsWritten(tagText: string): TagSpec {
    var parts := Split(tagText, '=');
    TagSpec(parts[0], if |parts| >= 2 then Some(SliceInner(parts[1])) else None)
  }

  function SpecsAsWritten(pieces: seq<string>): (specs: seq<TagSpec>)
    ensures |specs| == |pieces|
  {
    if pieces == [] then [] else [SpecAsWritten(pieces[0])] + SpecsAsWritten(pieces[1..])
  }

  /**
   * `extractTagGroups` as written, from `i`: each match's text after `@@` is split on
   * every `,` and each piece on every `=`, whether or not the character lies inside a
   * quoted value.
   */
  function GroupsAsWrittenFrom(s: string, i: nat): seq<seq<TagSpec>>
    requires i <= |s|
    decreases |s| - i
  {
    if i == |s| then []
    else if SelectorAt(s, i) then
      var e := SpecsAt(s, i + 2).1;
      [SpecsAsWritten(Split(s[i + 2..e], ','))] + GroupsAsWrittenFrom(s, e)
    else GroupsAsWrittenFrom(s, i + 1)
  }

  /**
   * `extractTagGroups` as written: one group per match of the selector expression, read by
   * splitting the match's text after `@@`.
   */
  function ExtractTagGroupsAsWritten(filterText: string): (groups: seq<seq<TagSpec>>)
    ensures |groups| == |MatchesFrom(filterText, 0)|
    ensures forall k :: 0 <= k < |groups| ==> ReadAsWritten(filterText, MatchesFrom(filterText, 0)[k], groups[k])
  {
    AsWrittenOnePerMatch(filterText, 0);
    GroupsAsWrittenFrom(filterText, 0)
  }

  /** `g` is what the code as written reads from the text of match `m`. */
  predicate ReadAsWritten(s: string, m: Match, g: seq<TagSpec>) {
    m.start + 2 <= m.end <= |s| && g == SpecsAsWritten(Split(s[m.start + 2..m.end], ','))
  }

  /** As written, there is one group per match, read from the match's text after `@@`. */
  lemma {:induction false} AsWrittenOnePerMatch(s: string, i: nat)
    requires i <= |s|
    ensures var ms, gs := MatchesFrom(s, i), GroupsAsWrittenFrom(s, i);
      |gs| == |ms| && forall k :: 0 <= k < |ms| ==> ReadAsWritten(s, ms[k], gs[k])
    decreases |s| - i
  {
    if i < |s| {
      if SelectorAt(s, i) {
        var e := SpecsAt(s, i + 2).1;
        var me, ge := MatchesFrom(s, e), GroupsAsWrittenFrom(s, e);
        var m := Match(i, e, SpecsAt(s, i + 2).0);
        var g := SpecsAsWritten(Split(s[i + 2..e], ','));
        assert ReadAsWritten(s, m, g);
        var ms, gs := MatchesFrom(s, i), GroupsAsWrittenFrom(s, i);
        assert ms == [m] + me;
        assert gs == [g] + ge;
        AsWrittenOnePerMatch(s, e);
        forall k | 0 < k < |ms| ensures ReadAsWritten(s, ms[k], gs[k]) {
          assert gs[k] == ge[k - 1] && ms[k] == me[k - 1];
        }
      } else {
        AsWrittenOnePerMatch(s, i + 1);
      }
    }
  }

  /** A text that is one selector reads, as written, as the split of its text after `@@`. */
  lemma AsWrittenWholeSelector(q: string)
    requires SelectorAt(q, 0) && SpecsAt(q, 2).1 == |q|
    ensures ExtractTagGroupsAsWritten(q) == [SpecsAsWritten(Split(q[2..], ','))]
  {
    var g := SpecsAsWritten(Split(q[2..|q|], ','));
    assert q[2..|q|] == q[2..];
    assert GroupsAsWrittenFrom(q, 0) == [g] + GroupsAsWrittenFrom(q, |q|);
    assert GroupsAsWrittenFrom(q, |q|) == [];
    assert [g] + [] == [g];
  }

  // ----- Printing a group back as a selector -----

  /** A value that reads back as itself: not empty, no quote and no backslash. */
  predicate PlainValue(v: string) {
    v != [] && '"' !in v && '\\' !in v
  }

  predicate WellFormedSpec(spec: TagSpec) {
    IsClassName(spec.tag) && (spec.textValue.Some? ==> PlainValue(spec.textValue.value))
  }

  predicate WellFormedGroup(group: seq<TagSpec>) {
    |group| >= 1 && forall k :: 0 <= k < |group| ==> WellFormedSpec(group[k])
  }

  function SpecText(spec: TagSpec): string {
    match spec.textValue
    case None => spec.tag
    case Some(v) => spec.tag + "=\"" + v + "\""
  }

  /** The selector text of a group, without its `@@`: the specs' texts joined by commas. */
  function GroupText(group: seq<TagSpec>): string
    requires |group| >= 1
  {
    if |group| == 1 then SpecText(group[0]) else SpecText(group[0]) + "," + GroupText(group[1..])
  }

  lemma {:induction false} ClassEndOfRun(s: string, p: nat, q: nat)
    requires p <= q <= |s|
    requires forall k :: p <= k < q ==> IsClassChar(s[k])
    requires q < |s| ==> !IsClassChar(s[q])
    ensures ClassEnd(s, p) == q
    decreases q - p
  {
    if p < q {
      ClassEndOfRun(s, p + 1, q);
    }
  }

  /** The greedy pass runs over a stretch without quotes or backslashes. */
  lemma {:induction false} BodyScanPlain(s: string, p: nat, q: nat, lastPair: Option<nat>)
    requires p <= q <= |s|
    requires forall k :: p <= k < q ==> s[k] != '"' && s[k] != '\\'
    ensures BodyScan(s, p, lastPair) == BodyScan(s, q, lastPair)
    decreases q - p
  {
    if p < q {
      BodyScanPlain(s, p + 1, q, lastPair);
    }
  }

  /** What may follow a spec's text in a selector: a comma, or the end of the selector. */
  predicate SpecFollower(s: string, e: nat) {
    e == |s| || (e < |s| && (IsSpace(s[e]) || s[e] == ','))
  }

  /** A well-formed spec's text, followed by a comma or the end of a selector, reads back as the spec. */
  lemma SpecAtText(s: string, p: nat, spec: TagSpec)
    requires WellFormedSpec(spec)
    requires SliceAt(s, SpecText(spec), p)
    requires SpecFollower(s, p + |SpecText(spec)|)
    ensures p < |s| && IsClassChar(s[p]) && SpecAt(s, p) == (spec, p + |SpecText(spec)|)
  {
    match spec.textValue {
      case None =>
        SpecAtBare(s, p, spec.tag);
      case Some(v) =>
        SpecAtQuoted(s, p, spec.tag, v);
    }
  }

  /** The tag of a spec, read up to its end. */
  lemma TagAt(s: string, p: nat, tag: string)
    requires IsClassName(tag) && SliceAt(s, tag, p)
    requires p + |tag| < |s| ==> !IsClassChar(s[p + |tag|])
    ensures p < |s| && IsClassChar(s[p]) && ClassEnd(s, p) == p + |tag|
  {
    assert s[p] == tag[0];
    assert forall k :: p <= k < p + |tag| ==> s[k] == tag[k - p];
    ClassEndOfRun(s, p, p + |tag|);
  }

  lemma SpecAtBare(s: string, p: nat, tag: string)
    requires IsClassName(tag) && SliceAt(s, tag, p)
    requires SpecFollower(s, p + |tag|)
    ensures p < |s| && IsClassChar(s[p]) && SpecAt(s, p) == (TagSpec(tag, None), p + |tag|)
  {
    TagAt(s, p, tag);
  }

  lemma SpecAtQuoted(s: string, p: nat, tag: string, v: string)
    requires IsClassName(tag) && PlainValue(v)
    requires SliceAt(s, tag + "=\"" + v + "\"", p)
    ensures p < |s| && IsClassChar(s[p]) && SpecAt(s, p) == (TagSpec(tag, Some(v)), p + |tag| + |v| + 3)
  {
    var c := p + |tag|;
    var quoted := "=\"" + v + "\"";
    SliceOfConcat(s, p, tag, quoted);
    assert s[c] == quoted[0];
    TagAt(s, p, tag);
    QuotedValueAt(s, c, v);
    SpecAtValue(s, p, c, c + |v| + 3);
  }

  /** A spec whose tag ends at `c` and whose quoted value ends at `e`. */
  lemma SpecAtValue(s: string, p: nat, c: nat, e: nat)
    requires p < c <= |s| && IsClassChar(s[p]) && ClassEnd(s, p) == c && QuotedEnd(s, c) == Some(e)
    ensures SpecAt(s, p) == (TagSpec(s[p..c], Some(s[c + 2..e - 1])), e)
  {
  }

  /** `="v"` at `c`, followed by a comma or the end of a selector, is a quoted value `v`. */
  lemma QuotedValueAt(s: string, c: nat, v: string)
    requires PlainValue(v)
    requires SliceAt(s, "=\"" + v + "\"", c)
    ensures QuotedEnd(s, c) == Some(c + |v| + 3) && SliceAt(s, v, c + 2)
  {
    var stop := c + 2 + |v|;
    var t := "=\"" + v + "\"";
    assert forall k :: c <= k < c + |t| ==> s[k] == t[k - c];
    assert s[c] == '=' && s[c + 1] == '"' && s[stop] == '"';
    assert forall k :: c + 2 <= k < stop ==> s[k] == v[k - c - 2];
    BodyScanPlain(s, c + 2, stop, None);
    assert s[c + 2..stop] == v;
  }

  /** The specs read from `p` are `specs`, and the reading stops at `e`. */
  predicate SpecsReadAt(s: string, p: nat, specs: seq<TagSpec>, e: nat)
  {
    p < |s| && IsClassChar(s[p]) && SpecsAt(s, p) == (specs, e)
  }

  lemma SpecsAtLast(s: string, p: nat, spec: TagSpec, e: nat)
    requires p < |s| && IsClassChar(s[p]) && SpecAt(s, p) == (spec, e) && !MoreAt(s, e)
    ensures SpecsReadAt(s, p, [spec], e)
  {
  }

  lemma SpecsAtCons(s: string, p: nat, spec: TagSpec, e: nat, rest: seq<TagSpec>, e': nat)
    requires p < |s| && IsClassChar(s[p]) && SpecAt(s, p) == (spec, e) && MoreAt(s, e)
    requires SpecsReadAt(s, e + 1, rest, e')
    ensures SpecsReadAt(s, p, [spec] + rest, e')
  {
  }

  /** A slice that spells `a + b` spells `a`, then `b`. */
  lemma SliceOfConcat(s: string, p: nat, a: string, b: string)
    requires SliceAt(s, a + b, p)
    ensures SliceAt(s, a, p) && SliceAt(s, b, p + |a|)
  {
    assert s[p..p + |a|] == s[p..p + |a| + |b|][..|a|];
    assert s[p + |a|..p + |a| + |b|] == s[p..p + |a| + |b|][|a|..];
  }

  /** A suffix that spells `t,rest`: `t`, then the comma, then `rest` up to the end. */
  lemma SuffixPieces(s: string, p: nat, t: string, rest: string)
    requires SuffixAt(s, t + ("," + rest), p)
    ensures p + |t| < |s| && SliceAt(s, t, p) && s[p + |t|] == ','
    ensures SuffixAt(s, rest, p + |t| + 1)
  {
    var u := t + ("," + rest);
    assert s[p..] == u;
    assert s[p..p + |t|] == u[..|t|] == t;
    assert s[p + |t|] == u[|t|];
    assert s[p + |t| + 1..] == u[|t| + 1..] == rest;
  }

  lemma SpecsAtTextOne(s: string, p: nat, group: seq<TagSpec>)
    requires WellFormedGroup(group) && |group| == 1
    requires SuffixAt(s, GroupText(group), p)
    ensures SpecsReadAt(s, p, group, |s|)
  {
    var t := SpecText(group[0]);
    assert s[p..p + |t|] == t;
    SpecAtText(s, p, group[0]);
    SpecsAtLast(s, p, group[0], |s|);
    assert [group[0]] == group;
  }

  /** A well-formed group's text, up to the end of `s`, reads back as the group. */
  lemma {:induction false} SpecsAtText(s: string, p: nat, group: seq<TagSpec>)
    requires WellFormedGroup(group)
    requires SuffixAt(s, GroupText(group), p)
    ensures SpecsReadAt(s, p, group, |s|)
    decreases |group|, 2
  {
    if |group| == 1 {
      SpecsAtTextOne(s, p, group);
    } else {
      SpecsAtTextMany(s, p, group);
    }
  }

  lemma {:induction false} SpecsAtTextMany(s: string, p: nat, group: seq<TagSpec>)
    requires WellFormedGroup(group) && |group| >= 2
    requires SuffixAt(s, GroupText(group), p)
    ensures SpecsReadAt(s, p, group, |s|)
    decreases |group|, 1
  {
    var t := SpecText(group[0]);
    GroupTextCons(group);
    SuffixPieces(s, p, t, GroupText(group[1..]));
    WellFormedTail(group);
    SpecsAtRest(s, p, group[0], p + |t|, group[1..]);
    HeadTail(group);
  }

  /** A spec's text, a comma, then the text of the rest of a group up to the end of `s`. */
  lemma {:induction false} SpecsAtRest(s: string, p: nat, spec: TagSpec, e: nat, rest: seq<TagSpec>)
    requires WellFormedSpec(spec) && WellFormedGroup(rest)
    requires e == p + |SpecText(spec)| && e < |s|
    requires SliceAt(s, SpecText(spec), p) && s[e] == ','
    requires SuffixAt(s, GroupText(rest), e + 1)
    ensures SpecsReadAt(s, p, [spec] + rest, |s|)
    decreases |rest| + 1, 0
  {
    SpecsAtText(s, e + 1, rest);
    SpecsAtStep(s, p, spec, e, rest, |s|);
  }

  lemma GroupTextCons(group: seq<TagSpec>)
    requires |group| >= 2
    ensures GroupText(group) == SpecText(group[0]) + ("," + GroupText(group[1..]))
  {
  }

  lemma WellFormedTail(group: seq<TagSpec>)
    requires WellFormedGroup(group) && |group| >= 2
    ensures WellFormedSpec(group[0]) && WellFormedGroup(group[1..])
  {
    forall k | 0 <= k < |group| - 1 ensures WellFormedSpec(group[1..][k]) {
      assert group[1..][k] == group[k + 1];
    }
  }

  /** A spec's text, a comma, then specs that read back: the whole reads back. */
  lemma SpecsAtStep(s: string, p: nat, spec: TagSpec, e: nat, rest: seq<TagSpec>, e': nat)
    requires WellFormedSpec(spec)
    requires e == p + |SpecText(spec)| && e + 1 < |s|
    requires SliceAt(s, SpecText(spec), p) && s[e] == ','
    requires SpecsReadAt(s, e + 1, rest, e')
    ensures SpecsReadAt(s, p, [spec] + rest, e')
  {
    SpecAtText(s, p, spec);
    assert MoreAt(s, e);
    SpecsAtCons(s, p, spec, e, rest, e');
  }

  /** The selector of a group: `@@` and its specs. */
  function Selector(group: seq<TagSpec>): string
    requires |group| >= 1
  {
    "@@" + GroupText(group)
  }

  /**
   * Printing a well-formed group as a selector and reading it back gives the group: the
   * whole text is one match, and nothing is left once it is removed.
   */
  lemma SelectorRoundTrip(group: seq<TagSpec>)
    requires WellFormedGroup(group)
    ensures MatchesFrom(Selector(group), 0) == [Match(0, |Selector(group)|, group)]
    ensures ExtractTagGroups(Selector(group)) == [group]
    ensures RemoveSelectors(Selector(group), 0) == []
  {
    SelectorReads(group);
  }

  /** A selector starts the selector text of a group, and its specs run to the end. */
  lemma SelectorReads(group: seq<TagSpec>)
    requires WellFormedGroup(group)
    ensures SelectorAt(Selector(group), 0) && SpecsAt(Selector(group), 2) == (group, |Selector(group)|)
  {
    SelectorParts(group);
    SpecsAtText(Selector(group), 2, group);
  }

  /** Where the parts of a selector lie: `@@`, then the group's text up to the end. */
  lemma SelectorParts(group: seq<TagSpec>)
    requires |group| >= 1
    ensures var q := Selector(group);
      |q| >= 2 && q[0] == '@' && q[1] == '@' && SuffixAt(q, GroupText(group), 2)
  {
  }

  lemma SpecAsWrittenOfText(spec: TagSpec)
    requires WellFormedSpec(spec)
    requires spec.textValue.Some? ==> '=' !in spec.textValue.value
    ensures SpecAsWritten(SpecText(spec)) == spec
  {
    ClassNameLacks(spec.tag, '=');
    match spec.textValue {
      case None =>
        assert IndexOf(spec.tag, '=') == None;
      case Some(v) =>
        var quoted := "\"" + v + "\"";
        assert '=' !in quoted;
        assert SpecText(spec) == Join([spec.tag, quoted], "=");
        SplitJoin([spec.tag, quoted], '=');
        assert SliceInner(quoted) == v;
    }
  }

  /**
   * The splitting reading agrees with the grammar on selectors whose values hold no `,`
   * and no `=`, such as the documented `@@tag="[INFO]"` and `@@tag,number,string`.
   */
  lemma SelectorRoundTripAsWritten(group: seq<TagSpec>)
    requires WellFormedGroup(group)
    requires forall k :: 0 <= k < |group| && group[k].textValue.Some? ==>
      ',' !in group[k].textValue.value && '=' !in group[k].textValue.value
    ensures ExtractTagGroupsAsWritten(Selector(group)) == [group]
  {
    var q := Selector(group);
    SelectorReads(group);
    AsWrittenWholeSelector(q);
    assert q[2..] == GroupText(group);
    SplitGroupText(group);
  }

  /** A spec's text holds no comma when its value holds none. */
  lemma SpecTextLacksComma(spec: TagSpec)
    requires WellFormedSpec(spec)
    requires spec.textValue.Some? ==> ',' !in spec.textValue.value
    ensures ',' !in SpecText(spec)
  {
    ClassNameLacks(spec.tag, ',');
  }

  /** Splitting a group's text on `,` and each piece on `=` gives back the group. */
  lemma {:induction false} SplitGroupText(group: seq<TagSpec>)
    requires WellFormedGroup(group)
    requires forall k :: 0 <= k < |group| && group[k].textValue.Some? ==>
      ',' !in group[k].textValue.value && '=' !in group[k].textValue.value
    ensures SpecsAsWritten(Split(GroupText(group), ',')) == group
    decreases |group|
  {
    var t := SpecText(group[0]);
    SpecTextLacksComma(group[0]);
    SpecAsWrittenOfText(group[0]);
    if |group| == 1 {
      assert Split(t, ',') == [t];
      assert [group[0]] == group;
    } else {
      var tail := group[1..];
      assert [group[0]] + tail == group;
      var rest := GroupText(tail);
      SplitCons(t, rest, ',');
      assert WellFormedGroup(tail) by {
        assert forall k :: 0 <= k < |tail| ==> tail[k] == group[k + 1];
      }
      SplitGroupText(tail);
      assert ([t] + Split(rest, ','))[1..] == Split(rest, ',');
    }
  }

  /** A separator-free piece, the separator, then the rest: the split starts with the piece. */
  lemma SplitCons(t: string, rest: string, sep: char)
    requires sep !in t
    ensures Split(t + [sep] + rest, sep) == [t] + Split(rest, sep)
  {
    var s := t + [sep] + rest;
    IndexOfAfterFree(t, sep, rest);
    assert s[..|t|] == t;
    assert s[|t| + 1..] == rest;
  }

  // ----- matchTags -----

  /** The class of an extracted `class:text` entry: the text before its first `:`. */
  function ClassOf(entry: string): string {
    Split(entry, ':')[0]
  }

  /** The text of an entry: everything after its first `:`, or nothing when it has none. */
  function ContentOf(entry: string): Option<string> {
    match IndexOf(entry, ':')
    case None => None
    case Some(i) => Some(entry[i + 1..])
  }

  /** The text of an entry as written: only the piece between its first and second `:`. */
  function ContentAsWritten(entry: string): Option<string> {
    var parts := Split(entry, ':');
    if |parts| >= 2 then Some(parts[1]) else None
  }

  /** A spec matches an entry: same class, and same text when the spec gives a non-empty one. */
  predicate SpecMatches(spec: TagSpec, entry: string) {
    ClassOf(entry) == spec.tag
    && (spec.textValue.None? || spec.textValue.value == [] || ContentOf(entry) == spec.textValue)
  }

  predicate SpecMatchesAsWritten(spec: TagSpec, entry: string) {
    ClassOf(entry) == spec.tag
    && (spec.textValue.None? || spec.textValue.value == [] || ContentAsWritten(entry) == spec.textValue)
  }

  /**
   * On the tags the store extracts, `class:text` with a class name, a spec with a value
   * matches exactly the tags of its class whose whole text is that value.
   */
  lemma SpecMatchesClassTag(spec: TagSpec, className: string, text: string)
    requires IsClassName(className) && spec.textValue.Some? && spec.textValue.value != []
    ensures SpecMatches(spec, className + ":" + text) <==> spec.tag == className && spec.textValue.value == text
  {
    ClassTagParts(className, text);
  }

  /** As written, the same holds only for texts without a `:`. */
  lemma SpecMatchesAsWrittenClassTag(spec: TagSpec, className: string, text: string)
    requires IsClassName(className) && spec.textValue.Some? && spec.textValue.value != []
    requires ':' !in text
    ensures SpecMatchesAsWritten(spec, className + ":" + text) <==> spec.tag == className && spec.textValue.value == text
  {
    ClassTagParts(className, text);
    var entry := className + ":" + text;
    assert entry[|className| + 1..] == text;
    assert IndexOf(text, ':') == None;
    assert Split(entry, ':') == [className, text];
  }

  lemma ClassTagParts(className: string, text: string)
    requires IsClassName(className)
    ensures ClassOf(className + ":" + text) == className
    ensures ContentOf(className + ":" + text) == Some(text)
  {
    var entry := className + ":" + text;
    ClassNameLacks(className, ':');
    IndexOfAfterFree(className, ':', text);
    assert entry[..|className|] == className;
    assert entry[|className| + 1..] == text;
  }

  /** `extractedTags.some(...)` for one spec. */
  function AnyTagMatches(matches: (TagSpec, string) -> bool, spec: TagSpec, tags: seq<string>): (r: bool)
    ensures r <==> exists t :: 0 <= t < |tags| && matches(spec, tags[t])
  {
    if tags == [] then false
    else matches(spec, tags[0]) || AnyTagMatches(matches, spec, tags[1..])
  }

  /** The inner loop of `matchTags`: some spec of the group matches some tag. */
  function GroupMatches(matches: (TagSpec, string) -> bool, group: seq<TagSpec>, tags: seq<string>): (r: bool)
    ensures r <==> exists j, t :: 0 <= j < |group| && 0 <= t < |tags| && matches(group[j], tags[t])
  {
    if group == [] then false
    else
      AnyTagMatches(matches, group[0], tags) || GroupMatches(matches, group[1..], tags)
  }

  /** `matchTags`: every group matches; no groups at all match every log. */
  function MatchTagsWith(matches: (TagSpec, string) -> bool, groups: seq<seq<TagSpec>>, tags: seq<string>): (r: bool)
    ensures r <==> forall k :: 0 <= k < |groups| ==> GroupMatches(matches, groups[k], tags)
  {
    if groups == [] then true
    else GroupMatches(matches, groups[0], tags) && MatchTagsWith(matches, groups[1..], tags)
  }

  function MatchTags(groups: seq<seq<TagSpec>>, tags: seq<string>): (r: bool)
    ensures r <==> forall k :: 0 <= k < |groups| ==> GroupMatches(SpecMatches, groups[k], tags)
  {
    MatchTagsWith(SpecMatches, groups, tags)
  }

  function MatchTagsAsWritten(groups: seq<seq<TagSpec>>, tags: seq<string>): (r: bool)
    ensures r <==> forall k :: 0 <= k < |groups| ==> GroupMatches(SpecMatchesAsWritten, groups[k], tags)
  {
    MatchTagsWith(SpecMatchesAsWritten, groups, tags)
  }

  // ----- matchesFilter -----

  /** Case-insensitive substring search, as `toLowerCase().includes(...)`. */
  predicate ContainsIgnoringCase(text: string, query: string) {
    Contains(Lower(text), Lower(query))
  }

  /**
   * The test of `matchesFilter`, given the groups read from the query and the match of one
   * spec against one entry: without groups, a substring search for the whole query; with
   * groups, every group must match the tags, and the free text left after removing the
   * selectors, trimmed, must be empty or occur in the log's text.
   */
  predicate MatchesQuery(groups: seq<seq<TagSpec>>, matches: (TagSpec, string) -> bool,
                         filterText: string, textContent: string, tags: seq<string>) {
    if groups == [] then ContainsIgnoringCase(textContent, filterText)
    else if !MatchTagsWith(matches, groups, tags) then false
    else
      var residual := Trim(RemoveSelectors(filterText, 0));
      residual == [] || ContainsIgnoringCase(textContent, residual)
  }

  /**
   * `matchesFilter` with the selectors read as the selector expression matches them and
   * entries compared on their whole text after the first `:`: a log that passes has, for
   * every selector, a tag that one of its specs matches.
   */
  function MatchesFilter(filterText: string, textContent: string, tags: seq<string>): (r: bool)
    ensures r ==> forall k :: 0 <= k < |ExtractTagGroups(filterText)| ==>
      GroupMatches(SpecMatches, ExtractTagGroups(filterText)[k], tags)
  {
    MatchesQuery(ExtractTagGroups(filterText), SpecMatches, filterText, textContent, tags)
  }

  /**
   * `matchesFilter` as written: the groups read with `split(",")` and `split("=")`, and
   * entries read with `split(':')`.  A log that passes has, for every group so read, a
   * tag that one of its specs matches as written.
   */
  function MatchesFilterAsWritten(filterText: string, textContent: string, tags: seq<string>): (r: bool)
    ensures r ==> forall k :: 0 <= k < |ExtractTagGroupsAsWritten(filterText)| ==>
      GroupMatches(SpecMatchesAsWritten, ExtractTagGroupsAsWritten(filterText)[k], tags)
  {
    MatchesQuery(ExtractTagGroupsAsWritten(filterText), SpecMatchesAsWritten, filterText, textContent, tags)
  }

  /** A query with no selector in it is a plain case-insensitive substring search. */
  lemma PlainQuery(filterText: string, textContent: string, tags: seq<string>)
    requires NoSelectorIn(filterText, 0, |filterText|)
    ensures MatchesFilter(filterText, textContent, tags) <==> ContainsIgnoringCase(textContent, filterText)
  {
  }

  /**
   * A query that is a single selector passes exactly the logs with a tag matching one of
   * its specs.
   */
  lemma SelectorQuery(group: seq<TagSpec>, textContent: string, tags: seq<string>)
    requires WellFormedGroup(group)
    ensures MatchesFilter(Selector(group), textContent, tags) <==>
      exists j, t :: 0 <= j < |group| && 0 <= t < |tags| && SpecMatches(group[j], tags[t])
  {
    var q := Selector(group);
    SelectorRoundTrip(group);
    assert [group][1..] == [];
    assert MatchTags([group], tags) == GroupMatches(SpecMatches, group, tags);
    assert Trim(RemoveSelectors(q, 0)) == [];
  }

  /**
   * As written, the same holds for a selector whose values hold no `,` and no `=`, with
   * each spec matched as written.
   */
  lemma SelectorQueryAsWritten(group: seq<TagSpec>, textContent: string, tags: seq<string>)
    requires WellFormedGroup(group)
    requires forall k :: 0 <= k < |group| && group[k].textValue.Some? ==>
      ',' !in group[k].textValue.value && '=' !in group[k].textValue.value
    ensures MatchesFilterAsWritten(Selector(group), textContent, tags) <==>
      exists j, t :: 0 <= j < |group| && 0 <= t < |tags| && SpecMatchesAsWritten(group[j], tags[t])
  {
    var q := Selector(group);
    SelectorRoundTrip(group);
    SelectorRoundTripAsWritten(group);
    assert [group][1..] == [];
    assert MatchTagsAsWritten([group], tags) == GroupMatches(SpecMatchesAsWritten, group, tags);
    assert Trim(RemoveSelectors(q, 0)) == [];
  }

  // ----- Worked examples -----

  /** The documented selector `@@tag="[INFO]"` is one group of one spec with a value. */
  lemma InfoSelector()
    ensures ExtractTagGroups("@@tag=\"[INFO]\"") == [[TagSpec("tag", Some("[INFO]"))]]
    ensures ExtractTagGroupsAsWritten("@@tag=\"[INFO]\"") == [[TagSpec("tag", Some("[INFO]"))]]
  {
    var group := [TagSpec("tag", Some("[INFO]"))];
    assert GroupText(group) == "tag=\"[INFO]\"";
    assert Selector(group) == "@@tag=\"[INFO]\"";
    SelectorRoundTrip(group);
    SelectorRoundTripAsWritten(group);
  }

  /** The documented selector `@@tag,number,string` is one group of three specs without values. */
  lemma ListSelector()
    ensures ExtractTagGroups("@@tag,number,string") ==
      [[TagSpec("tag", None), TagSpec("number", None), TagSpec("string", None)]]
  {
    var group := [TagSpec("tag", None), TagSpec("number", None), TagSpec("string", None)];
    assert GroupText(group[2..]) == "string";
    assert Selector(group) == "@@tag,number,string";
    SelectorRoundTrip(group);
  }

  /** The text of the spec `c="a=b"` read as written: its value is `"a` with its ends sliced off. */
  lemma EqualsInValueText(c: string, a: string, b: string)
    requires IsClassName(c) && PlainValue(a) && PlainValue(b)
    requires ',' !in a && ',' !in b && '=' !in a && '=' !in b
    ensures SpecsAsWritten(Split(SpecText(TagSpec(c, Some(a + "=" + b))), ','))
      == [TagSpec(c, Some(a[..|a| - 1]))]
  {
    var body := SpecText(TagSpec(c, Some(a + "=" + b)));
    var head, tail := "\"" + a, b + "\"";
    assert body == c + "=" + head + "=" + tail;
    ClassNameLacks(c, ',');
    ClassNameLacks(c, '=');
    SpecAsWrittenThree(c, head, tail);
    assert SliceInner(head) == a[..|a| - 1];
    assert ',' !in body;
    assert Split(body, ',') == [body];
    assert SpecsAsWritten([body]) == [SpecAsWritten(body)];
  }

  /** A spec text with two `=` reads as its first piece and the second piece, sliced. */
  lemma SpecAsWrittenThree(c: string, head: string, tail: string)
    requires '=' !in c && '=' !in head && '=' !in tail
    ensures SpecAsWritten(c + "=" + head + "=" + tail) == TagSpec(c, Some(SliceInner(head)))
  {
    SplitThree(c, head, tail, '=');
  }

  /** How `@@c="a=b"` reads: by the grammar, and as written. */
  lemma EqualsInValueGroups(c: string, a: string, b: string)
    requires IsClassName(c) && PlainValue(a) && PlainValue(b)
    requires ',' !in a && ',' !in b && '=' !in a && '=' !in b
    ensures var group := [TagSpec(c, Some(a + "=" + b))];
      && |group| >= 1
      && ExtractTagGroups(Selector(group)) == [group]
      && ExtractTagGroupsAsWritten(Selector(group)) == [[TagSpec(c, Some(a[..|a| - 1]))]]
  {
    var group := [TagSpec(c, Some(a + "=" + b))];
    assert WellFormedGroup(group) by {
      assert PlainValue(a + "=" + b);
    }
    var q := Selector(group);
    SelectorRoundTrip(group);
    SelectorReads(group);
    AsWrittenWholeSelector(q);
    assert q[2..] == SpecText(group[0]);
    EqualsInValueText(c, a, b);
  }

  /**
   * A value holding `=` loses its text when read as written.  In `@@c="a=b"` the grammar
   * reads the value `a=b`; splitting on `=` keeps only `"a` and slices off its first and
   * last characters.  With a one-character `a`, as in `@@tag="a=b"`, what is left is the
   * empty value, which matches every entry of the class, `tag:x` among them.
   */
  lemma EqualsInValueAsWritten(c: string, a: string, b: string, text: string)
    requires IsClassName(c) && PlainValue(a) && PlainValue(b)
    requires ',' !in a && ',' !in b && '=' !in a && '=' !in b
    ensures var group := [TagSpec(c, Some(a + "=" + b))];
      && ExtractTagGroups(Selector(group)) == [group]
      && ExtractTagGroupsAsWritten(Selector(group)) == [[TagSpec(c, Some(a[..|a| - 1]))]]
      && (MatchTags([group], [c + ":" + text]) <==> text == a + "=" + b)
      && (|a| == 1 ==> MatchTagsAsWritten(ExtractTagGroupsAsWritten(Selector(group)), [c + ":" + text]))
  {
    var spec := TagSpec(c, Some(a + "=" + b));
    EqualsInValueGroups(c, a, b);
    SpecMatchesClassTag(spec, c, text);
    assert GroupMatches(SpecMatches, [spec], [c + ":" + text]) <==> SpecMatches(spec, c + ":" + text);
    if |a| == 1 {
      ClassTagParts(c, text);
      assert SpecMatchesAsWritten(TagSpec(c, Some(a[..|a| - 1])), c + ":" + text);
    }
  }

  /**
   * A tag whose text holds `:` never matches a spec with that text as written: the entry
   * `c:a:b` is compared with `a` only, where the spec `c="a:b"` matches it.
   */
  lemma ColonInTextAsWritten(c: string, a: string, b: string)
    requires IsClassName(c) && ':' !in a && ':' !in b
    ensures SpecMatches(TagSpec(c, Some(a + ":" + b)), c + ":" + (a + ":" + b))
    ensures !SpecMatchesAsWritten(TagSpec(c, Some(a + ":" + b)), c + ":" + (a + ":" + b))
  {
    var text := a + ":" + b;
    var entry := c + ":" + text;
    ClassNameLacks(c, ':');
    assert entry == c + ":" + a + ":" + b;
    SplitThree(c, a, b, ':');
    assert ContentAsWritten(entry) == Some(a);
    assert |a| < |text|;
    SpecMatchesClassTag(TagSpec(c, Some(text)), c, text);
  }

  /**
   * The two readings of `matchesFilter` differ.  For `@@c="a=b"` with a one-character `a`,
   * as in `@@tag="a=b"`, the code as written passes a log tagged `c:x` for any other text
   * `x`, which the query's value does not name.
   */
  lemma EqualsInValueFilter(c: string, a: string, b: string, text: string, textContent: string)
    requires IsClassName(c) && PlainValue(a) && PlainValue(b)
    requires ',' !in a && ',' !in b && '=' !in a && '=' !in b
    requires |a| == 1 && text != a + "=" + b
    ensures var q := Selector([TagSpec(c, Some(a + "=" + b))]);
      && MatchesFilterAsWritten(q, textContent, [c + ":" + text])
      && !MatchesFilter(q, textContent, [c + ":" + text])
  {
    var group := [TagSpec(c, Some(a + "=" + b))];
    var q := Selector(group);
    var tags := [c + ":" + text];
    EqualsInValueAsWritten(c, a, b, text);
    assert WellFormedGroup(group) by {
      assert PlainValue(a + "=" + b);
    }
    SelectorQuery(group, textContent, tags);
    assert !SpecMatches(group[0], tags[0]) by {
      SpecMatchesClassTag(group[0], c, text);
    }
    var read := [TagSpec(c, Some(a[..|a| - 1]))];
    assert ExtractTagGroupsAsWritten(q) == [read];
    assert MatchTagsAsWritten([read], tags);
    SelectorReads(group);
    assert Trim(RemoveSelectors(q, 0)) == [];
  }

  /**
   * For `@@c="a:b"`, the grammar's reading passes a log tagged `c:a:b`; the code as
   * written does not.
   */
  lemma ColonInTextFilter(c: string, a: string, b: string, textContent: string)
    requires IsClassName(c) && PlainValue(a) && PlainValue(b)
    requires ':' !in a && ':' !in b && ',' !in a && ',' !in b && '=' !in a && '=' !in b
    ensures var q := Selector([TagSpec(c, Some(a + ":" + b))]);
      && MatchesFilter(q, textContent, [c + ":" + (a + ":" + b)])
      && !MatchesFilterAsWritten(q, textContent, [c + ":" + (a + ":" + b)])
  {
    var group := [TagSpec(c, Some(a + ":" + b))];
    var tags := [c + ":" + (a + ":" + b)];
    assert WellFormedGroup(group) by {
      assert PlainValue(a + ":" + b);
    }
    ColonInTextAsWritten(c, a, b);
    assert SpecMatches(group[0], tags[0]);
    assert forall j, t :: 0 <= j < |group| && 0 <= t < |tags| ==> !SpecMatchesAsWritten(group[j], tags[t]);
    SelectorQuery(group, textContent, tags);
    SelectorQueryAsWritten(group, textContent, tags);
  }
}

=== FILE: filter_controller.dfy ===
/**
 * The stateful half of public/utils/filter.js: the current query, `setFilter`, which
 * filters the store's logs and restores the scroll position, and the count it shows.
 */
module FilterControllers {
  import opened Wrappers
  import opened Text
  import opened Elements
  import opened LogStores
  import opened VirtualScrollers
  import opened Filter

  /**
   * The filter function `setFilter` hands to the store: `matchesFilter` on a highlighted
   * log.  The source reads the query from the module's variable when it is called; every
   * change of that variable goes through `setFilter`, which replaces the function, so the
   * query is fixed here when the function is made.
   */
  function FilterFn(filterText: string): (r: HighlightedLog -> bool)
    ensures forall h: HighlightedLog :: r(h) ==>
      forall k :: 0 <= k < |ExtractTagGroups(filterText)| ==> GroupMatches(SpecMatches, ExtractTagGroups(filterText)[k], h.tags)
    ensures NoSelectorIn(filterText, 0, |filterText|) ==>
      forall h: HighlightedLog :: r(h) <==> ContainsIgnoringCase(h.textContent, filterText)
  {
    (h: HighlightedLog) => MatchesFilter(filterText, h.textContent, h.tags)
  }

  /**
   * A log's position is selected by a query exactly when the highlighted form of the
   * first log with its id matches the query.
   */
  lemma FilterSelects(highlight: string -> seq<Node>, filterText: string, logs: seq<CliInput>, k: nat)
    ensures k in Passing(highlight, FilterFn(filterText), logs, 0, |logs|) <==>
      k < |logs| && HighlightFor(highlight, logs, logs[k].id).Some?
      && MatchesFilter(filterText, HighlightFor(highlight, logs, logs[k].id).value.textContent,
                       HighlightFor(highlight, logs, logs[k].id).value.tags)
  {
    PassingMembers(highlight, FilterFn(filterText), logs, 0, |logs|, k);
    if k < |logs| {
      PassesAt(highlight, FilterFn(filterText), logs, k);
    }
  }

  /**
   * `indices.findIndex(i => logs[i].id === id)`: the first position in `indices` whose
   * log has that id, or -1.
   */
  function FindIndex(indices: seq<nat>, logs: seq<CliInput>, id: string): (r: int)
    requires AllBelow(indices, |logs|)
    ensures -1 <= r < |indices|
    ensures r == -1 <==> forall j :: 0 <= j < |indices| ==> logs[indices[j]].id != id
    ensures r >= 0 ==> logs[indices[r]].id == id && forall j :: 0 <= j < r ==> logs[indices[j]].id != id
  {
    if indices == [] then -1
    else if logs[indices[0]].id == id then 0
    else
      var r := FindIndex(indices[1..], logs, id);
      if r == -1 then -1 else r + 1
  }

  /**
   * `updateFilterCount`: the text of the count, empty when no query is set or no
   * filter is active.
   */
  function FilterCountText(filterText: string, filtered: Option<seq<nat>>): (t: string)
    ensures t == [] <==> filterText == [] || filtered.None?
    ensures t != [] ==>
      && |t| >= 12 && StartsWith(t, "filtered: (") && t[|t| - 1] == ')'
      && DecimalAt(t, 11, |t| - 1, |filtered.value|)
  {
    if filterText == [] || filtered.None? then ""
    else
      var digits := NatToString(|filtered.value|);
      var t := "filtered: (" + digits + ")";
      assert t[..11] == "filtered: (" && t[11..|t| - 1] == digits;
      DigitsValueOfNatToString(|filtered.value|);
      t
  }

  class FilterController {
    /** The module's `filterText`. */
    var filterText: string
    const store: LogStore
    const scroller: VirtualScroller

    ghost predicate Valid()
      reads this, store, scroller, scroller.heightCache
    {
      scroller.store == store && store.Valid() && scroller.Valid()
    }

    constructor(store: LogStore, scroller: VirtualScroller)
      requires scroller.store == store && store.Valid() && scroller.Valid()
      ensures Valid() && filterText == []
      ensures this.store == store && this.scroller == scroller
    {
      filterText := [];
      this.store := store;
      this.scroller := scroller;
    }

    /**
     * `setFilter`: an empty query clears the filter; any other query selects the logs
     * whose highlighted form matches it, in order, and makes the store keep filtering
     * new logs with it.  The view is drawn again, and when the log at the top of the
     * viewport is still shown, scrolled back to it.
     */
    method SetFilter(newText: string, layout: CliInput -> nat)
      requires Valid()
      modifies this, store, scroller, scroller.heightCache
      ensures Valid() && filterText == newText
      ensures store.logs == old(store.logs)
      ensures newText == [] ==> store.filtered == None && store.filterFn == None
      ensures newText != [] ==>
        && store.filtered == Some(Passing(store.highlight, FilterFn(newText), store.logs, 0, |store.logs|))
        && store.filterFn == Some(FilterFn(newText))
    {
      filterText := newText;
      if |newText| == 0 {
        store.ClearFilter();
        scroller.Rerender(layout);
        return;
      }
      var anchor := scroller.GetScrollAnchor();
      var fn := FilterFn(newText);
      var indices := CollectIndices(fn);
      store.SetFiltered(indices, Some(fn));
      if anchor.Some? {
        PassingIncreasing(store.highlight, fn, store.logs, 0, |store.logs|);
        var newIndex := FindIndex(indices, store.logs, anchor.value.id);
        scroller.Rerender(layout);
        if newIndex != -1 {
          scroller.ScrollToIndex(newIndex, Start, layout);
        }
      } else {
        scroller.Rerender(layout);
      }
    }

    /** The loop of `setFilter` that runs the filter function over every log. */
    method CollectIndices(fn: HighlightedLog -> bool) returns (indices: seq<nat>)
      requires Valid()
      modifies store
      ensures Valid()
      ensures store.logs == old(store.logs) && store.filtered == old(store.filtered)
      ensures store.filterFn == old(store.filterFn)
      ensures indices == Passing(store.highlight, fn, store.logs, 0, |store.logs|)
    {
      indices := [];
      var i := 0;
      while i < |store.logs|
        invariant Valid() && i <= |store.logs|
        invariant store.logs == old(store.logs) && store.filtered == old(store.filtered)
        invariant store.filterFn == old(store.filterFn)
        invariant indices == Passing(store.highlight, fn, store.logs, 0, i)
      {
        indices := CollectOne(fn, i, indices);
        i := i + 1;
      }
    }

    /** One turn of that loop: highlight the log at `i` and record `i` when it passes. */
    method CollectOne(fn: HighlightedLog -> bool, i: nat, indices: seq<nat>) returns (indices': seq<nat>)
      requires Valid() && i < |store.logs|
      requires indices == Passing(store.highlight, fn, store.logs, 0, i)
      modifies store
      ensures Valid()
      ensures store.logs == old(store.logs) && store.filtered == old(store.filtered)
      ensures store.filterFn == old(store.filterFn)
      ensures indices' == Passing(store.highlight, fn, store.logs, 0, i + 1)
    {
      PassesAt(store.highlight, fn, store.logs, i);
      PassingStep(store.highlight, fn, store.logs, 0, i);
      var r := store.GetHighlighted(store.logs[i].id);
      indices' := if fn(r.value) then indices + [i] else indices;
    }
  }
}

=== FILE: height_cache.dfy ===
/**
 * The height cache of the virtual scroller: measured row heights, an estimate for rows
 * never measured, and the prefix sums that turn a row index into a pixel offset and a
 * pixel offset back into a row index.
 *
 * Heights and offsets are whole pixels (`nat`).  The specification functions `Height`,
 * `Offset` and `IndexAt` say what the cache computes; the class `HeightCache` is the
 * cache itself, whose methods are proved to compute exactly those, whether they use the
 * prefix sums or fall back to a linear scan.
 */
module HeightCaches {

  /** The height of row `i`: its measurement, else the estimate. */
  function Height(heights: map<nat, nat>, est: nat, i: nat): nat {
    if i in heights then heights[i] else est
  }

  /** The offset of the top of row `n`: the sum of the heights of rows 0 .. n-1. */
  function Offset(heights: map<nat, nat>, est: nat, n: nat): nat {
    if n == 0 then 0 else Offset(heights, est, n - 1) + Height(heights, est, n - 1)
  }

  /** The prefix sums of rows 0 .. n-1: n+1 entries, entry k being the offset of row k. */
  function PrefixSums(heights: map<nat, nat>, est: nat, n: nat): (ps: seq<nat>)
    ensures |ps| == n + 1
    ensures forall k :: 0 <= k <= n ==> ps[k] == Offset(heights, est, k)
  {
    if n == 0 then [0] else PrefixSums(heights, est, n - 1) + [Offset(heights, est, n)]
  }

  /**
   * The linear scan of `findIndexAtOffset` from row `i` on: the first row whose bottom
   * lies below `offset`, and the last row (or 0 when there is none) if no row does.
   */
  function ScanFrom(heights: map<nat, nat>, est: nat, count: nat, offset: int, i: nat): nat
    requires i <= count
    decreases count - i
  {
    if i == count then (if count == 0 then 0 else count - 1)
    else if Offset(heights, est, i + 1) > offset then i
    else ScanFrom(heights, est, count, offset, i + 1)
  }

  /** The row shown at pixel `offset` among `count` rows. */
  function IndexAt(heights: map<nat, nat>, est: nat, count: nat, offset: int): nat {
    ScanFrom(heights, est, count, offset, 0)
  }

  // ----- Properties of offsets -----

  /** Offsets grow with the row index. */
  lemma {:induction false} OffsetMonotone(heights: map<nat, nat>, est: nat, a: nat, b: nat)
    requires a <= b
    ensures Offset(heights, est, a) <= Offset(heights, est, b)
    decreases b - a
  {
    if a < b {
      OffsetMonotone(heights, est, a, b - 1);
    }
  }

  /** With nothing measured, every row has the estimated height. */
  lemma {:induction false} OffsetUnmeasured(est: nat, n: nat)
    ensures Offset(map[], est, n) == n * est
  {
    if n > 0 {
      OffsetUnmeasured(est, n - 1);
    }
  }

  /** Measuring row `i` as `h` shifts the offsets below it by the change in its height, and no others. */
  lemma {:induction false} OffsetAfterSetHeight(heights: map<nat, nat>, est: nat, i: nat, h: nat, n: nat)
    ensures Offset(heights[i := h], est, n) ==
      Offset(heights, est, n) + (if i < n then h - Height(heights, est, i) else 0)
  {
    if n > 0 {
      OffsetAfterSetHeight(heights, est, i, h, n - 1);
    }
  }

  /** Only the heights of the rows above row `n` matter to its offset. */
  lemma {:induction false} OffsetDependsOnRowsAbove(h1: map<nat, nat>, h2: map<nat, nat>, est: nat, n: nat)
    requires forall i: nat :: i < n ==> Height(h1, est, i) == Height(h2, est, i)
    ensures Offset(h1, est, n) == Offset(h2, est, n)
  {
    if n > 0 {
      OffsetDependsOnRowsAbove(h1, h2, est, n - 1);
    }
  }

  // ----- Properties of the index lookup -----

  /** Row `j` ends at or above pixel `offset`, so the scan passes over it. */
  predicate EndsAbove(heights: map<nat, nat>, est: nat, j: nat, offset: int) {
    Offset(heights, est, j + 1) <= offset
  }

  /** Rows the scan passes over do not change its answer. */
  lemma {:induction false} ScanSkips(heights: map<nat, nat>, est: nat, count: nat, offset: int, i: nat, m: nat)
    requires i <= m <= count
    requires forall j: nat :: i <= j < m ==> EndsAbove(heights, est, j, offset)
    ensures ScanFrom(heights, est, count, offset, i) == ScanFrom(heights, est, count, offset, m)
    decreases m - i
  {
    if i < m {
      assert EndsAbove(heights, est, i, offset);
      ScanSkips(heights, est, count, offset, i + 1, m);
    }
  }

  /** The lookup names an existing row, or 0 when there are no rows. */
  lemma {:induction false} IndexAtBounds(heights: map<nat, nat>, est: nat, count: nat, offset: int)
    ensures count == 0 ==> IndexAt(heights, est, count, offset) == 0
    ensures count > 0 ==> IndexAt(heights, est, count, offset) < count
  {
    ScanFromBounds(heights, est, count, offset, 0);
  }

  lemma {:induction false} ScanFromBounds(heights: map<nat, nat>, est: nat, count: nat, offset: int, i: nat)
    requires i <= count
    ensures count == 0 ==> ScanFrom(heights, est, count, offset, i) == 0
    ensures count > 0 ==> ScanFrom(heights, est, count, offset, i) < count
    ensures i < count ==> i <= ScanFrom(heights, est, count, offset, i)
    decreases count - i
  {
    if i < count && Offset(heights, est, i + 1) <= offset {
      ScanFromBounds(heights, est, count, offset, i + 1);
    }
  }

  /** An offset inside row `i` finds row `i`. */
  lemma IndexAtRow(heights: map<nat, nat>, est: nat, count: nat, offset: int, i: nat)
    requires i < count
    requires Offset(heights, est, i) <= offset < Offset(heights, est, i + 1)
    ensures IndexAt(heights, est, count, offset) == i
  {
    forall j: nat | j < i
      ensures EndsAbove(heights, est, j, offset)
    {
      OffsetMonotone(heights, est, j + 1, i);
    }
    ScanSkips(heights, est, count, offset, 0, i);
  }

  /** The top edge of a row of non-zero height belongs to that row. */
  lemma RowStartFindsRow(heights: map<nat, nat>, est: nat, count: nat, i: nat)
    requires i < count && Height(heights, est, i) > 0
    ensures IndexAt(heights, est, count, Offset(heights, est, i)) == i
  {
    IndexAtRow(heights, est, count, Offset(heights, est, i), i);
  }

  /** An offset at or past the bottom of the last row finds the last row. */
  lemma IndexAtPastEnd(heights: map<nat, nat>, est: nat, count: nat, offset: int)
    requires count > 0 && offset >= Offset(heights, est, count)
    ensures IndexAt(heights, est, count, offset) == count - 1
  {
    forall j: nat | j < count
      ensures EndsAbove(heights, est, j, offset)
    {
      OffsetMonotone(heights, est, j + 1, count);
    }
    ScanSkips(heights, est, count, offset, 0, count);
  }

  /** An offset above the bottom of row `i` finds row `i` or an earlier one. */
  lemma IndexAtBelow(heights: map<nat, nat>, est: nat, count: nat, offset: int, i: nat)
    requires i < count && offset < Offset(heights, est, i + 1)
    ensures IndexAt(heights, est, count, offset) <= i
  {
    ScanStops(heights, est, count, offset, 0, i);
  }

  lemma {:induction false} ScanStops(heights: map<nat, nat>, est: nat, count: nat, offset: int, j: nat, i: nat)
    requires j <= i < count && offset < Offset(heights, est, i + 1)
    ensures ScanFrom(heights, est, count, offset, j) <= i
    decreases i - j
  {
    if Offset(heights, est, j + 1) <= offset {
      ScanStops(heights, est, count, offset, j + 1, i);
    }
  }

  /** An offset at or below the top of row `i` finds row `i` or a later one. */
  lemma IndexAtAbove(heights: map<nat, nat>, est: nat, count: nat, offset: int, i: nat)
    requires i < count && Offset(heights, est, i) <= offset
    ensures i <= IndexAt(heights, est, count, offset)
  {
    forall j: nat | j < i
      ensures EndsAbove(heights, est, j, offset)
    {
      OffsetMonotone(heights, est, j + 1, i);
    }
    ScanSkips(heights, est, count, offset, 0, i);
    ScanFromBounds(heights, est, count, offset, i);
  }

  /**
   * Every pixel of the rows is found in the row that contains it: the lookup is the
   * inverse of `Offset`.
   */
  lemma IndexAtContains(heights: map<nat, nat>, est: nat, count: nat, offset: int)
    requires 0 <= offset < Offset(heights, est, count)
    ensures IndexAt(heights, est, count, offset) < count
    ensures Offset(heights, est, IndexAt(heights, est, count, offset)) <= offset
    ensures offset < Offset(heights, est, IndexAt(heights, est, count, offset) + 1)
  {
    ScanContains(heights, est, count, offset, 0);
  }

  lemma {:induction false} ScanContains(heights: map<nat, nat>, est: nat, count: nat, offset: int, j: nat)
    requires j < count && Offset(heights, est, j) <= offset < Offset(heights, est, count)
    ensures ScanFrom(heights, est, count, offset, j) < count
    ensures Offset(heights, est, ScanFrom(heights, est, count, offset, j)) <= offset
    ensures offset < Offset(heights, est, ScanFrom(heights, est, count, offset, j) + 1)
    decreases count - j
  {
    if Offset(heights, est, j + 1) <= offset {
      ScanContains(heights, est, count, offset, j + 1);
    }
  }

  /** Scrolling further down never finds an earlier row. */
  lemma {:induction false} IndexAtMonotone(heights: map<nat, nat>, est: nat, count: nat, o1: int, o2: int)
    requires o1 <= o2
    ensures IndexAt(heights, est, count, o1) <= IndexAt(heights, est, count, o2)
  {
    ScanMonotone(heights, est, count, o1, o2, 0);
  }

  lemma {:induction false} ScanMonotone(heights: map<nat, nat>, est: nat, count: nat, o1: int, o2: int, i: nat)
    requires o1 <= o2 && i <= count
    ensures ScanFrom(heights, est, count, o1, i) <= ScanFrom(heights, est, count, o2, i)
    decreases count - i
  {
    if i < count {
      if Offset(heights, est, i + 1) > o2 {
      } else if Offset(heights, est, i + 1) > o1 {
        ScanFromBounds(heights, est, count, o2, i + 1);
      } else {
        ScanMonotone(heights, est, count, o1, o2, i + 1);
      }
    }
  }

  /**
   * The answer of the binary search over the prefix sums agrees with the linear scan:
   * if `L` is the first of rows 0 .. count-1 whose top lies below `offset` (or `count`),
   * the row found is `max(0, L - 1)`.
   */
  lemma BinarySearchAgrees(heights: map<nat, nat>, est: nat, count: nat, offset: int, left: nat)
    requires left <= count
    requires left > 0 ==> Offset(heights, est, left - 1) <= offset
    requires left < count ==> Offset(heights, est, left) > offset
    ensures IndexAt(heights, est, count, offset) == if left == 0 then 0 else left - 1
  {
    if left == 0 {
      if count > 0 {
        OffsetMonotone(heights, est, 0, 1);
      }
    } else {
      forall j: nat | j < left - 1
        ensures EndsAbove(heights, est, j, offset)
      {
        OffsetMonotone(heights, est, j + 1, left - 1);
      }
      ScanSkips(heights, est, count, offset, 0, left - 1);
      if left - 1 < count && Offset(heights, est, left) <= offset {
        assert left == count;
      }
    }
  }

  /** The keys of `heights` that are in `keep`, with their heights. */
  function Restrict(heights: map<nat, nat>, keep: set<nat>): map<nat, nat> {
    map k | k in heights && k in keep :: heights[k]
  }

  /**
   * The cache.  While it is not dirty, `prefixSums` holds the prefix sums of its first
   * `count` rows; once a height changes it is dirty and the lookups fall back to scans.
   */
  class HeightCache {
    const estimatedHeight: nat
    var heights: map<nat, nat>
    var prefixSums: seq<nat>
    var dirty: bool
    var count: nat

    ghost predicate Valid()
      reads this
    {
      |prefixSums| >= 1 && (!dirty ==> prefixSums == PrefixSums(heights, estimatedHeight, count))
    }

    constructor(estimatedHeight: nat)
      ensures Valid()
      ensures this.estimatedHeight == estimatedHeight
      ensures heights == map[] && prefixSums == [0] && !dirty && count == 0
    {
      this.estimatedHeight := estimatedHeight;
      heights := map[];
      prefixSums := [0];
      dirty := false;
      count := 0;
    }

    /** The measured height of row `index`, or the estimate. */
    function GetHeight(index: nat): (h: nat)
      reads this
      ensures index in heights ==> h == heights[index]
      ensures index !in heights ==> h == estimatedHeight
    {
      Height(heights, estimatedHeight, index)
    }

    function HasMeasurement(index: nat): (b: bool)
      reads this
      ensures b <==> index in heights
    {
      index in heights
    }

    method SetHeight(index: nat, height: nat)
      requires Valid()
      modifies this
      ensures Valid()
      ensures heights == old(heights)[index := height] && dirty
      ensures prefixSums == old(prefixSums) && count == old(count)
    {
      heights := heights[index := height];
      dirty := true;
    }

    /** Recomputes the prefix sums for `itemCount` rows, unless they are already current. */
    method Rebuild(itemCount: nat)
      requires Valid()
      modifies this
      ensures Valid() && !dirty && count == itemCount
      ensures prefixSums == PrefixSums(heights, estimatedHeight, itemCount)
      ensures heights == old(heights)
      ensures !old(dirty) && old(count) == itemCount ==> prefixSums == old(prefixSums)
    {
      if !dirty && count == itemCount {
        return;
      }
      count := itemCount;
      prefixSums := [0];
      var i := 0;
      while i < itemCount
        invariant i <= itemCount
        invariant prefixSums == PrefixSums(heights, estimatedHeight, i)
        invariant heights == old(heights) && count == itemCount
      {
        prefixSums := prefixSums + [prefixSums[i] + GetHeight(i)];
        i := i + 1;
      }
      dirty := false;
    }

    /** The offset of row `index`, from the prefix sums when they are current and cover it. */
    method GetOffset(index: nat) returns (offset: nat)
      requires Valid()
      ensures offset == Offset(heights, estimatedHeight, index)
    {
      if dirty || index >= |prefixSums| - 1 {
        offset := 0;
        var i := 0;
        while i < index
          invariant i <= index
          invariant offset == Offset(heights, estimatedHeight, i)
        {
          offset := offset + GetHeight(i);
          i := i + 1;
        }
        return;
      }
      offset := prefixSums[index];
    }

    /** The height of all `count` rows. */
    method GetTotalHeight() returns (total: nat)
      requires Valid()
      ensures total == Offset(heights, estimatedHeight, count)
    {
      if dirty || |prefixSums| == 0 {
        total := 0;
        var i := 0;
        while i < count
          invariant i <= count
          invariant total == Offset(heights, estimatedHeight, i)
        {
          total := total + GetHeight(i);
          i := i + 1;
        }
        return;
      }
      total := prefixSums[|prefixSums| - 1];
    }

    /** The row at pixel `offset`: a linear scan when dirty, a binary search otherwise. */
    method FindIndexAtOffset(offset: int) returns (index: nat)
      requires Valid()
      ensures index == IndexAt(heights, estimatedHeight, count, offset)
      ensures count == 0 ==> index == 0
      ensures count > 0 ==> index < count
    {
      IndexAtBounds(heights, estimatedHeight, count, offset);
      if dirty || |prefixSums| == 0 {
        var cumulative := 0;
        var i := 0;
        while i < count
          invariant i <= count
          invariant cumulative == Offset(heights, estimatedHeight, i)
          invariant IndexAt(heights, estimatedHeight, count, offset) ==
            ScanFrom(heights, estimatedHeight, count, offset, i)
        {
          var height := GetHeight(i);
          if cumulative + height > offset {
            return i;
          }
          cumulative := cumulative + height;
          i := i + 1;
        }
        return if count == 0 then 0 else count - 1;
      }
      var left := 0;
      var right := |prefixSums| - 1;
      while left < right
        invariant 0 <= left <= right <= count
        invariant left > 0 ==> Offset(heights, estimatedHeight, left - 1) <= offset
        invariant right < count ==> Offset(heights, estimatedHeight, right) > offset
      {
        var mid := (left + right) / 2;
        if prefixSums[mid] <= offset {
          left := mid + 1;
        } else {
          right := mid;
        }
      }
      BinarySearchAgrees(heights, estimatedHeight, count, offset, left);
      index := if left == 0 then 0 else left - 1;
    }

    /** Forgets every measurement. */
    method Clear()
      modifies this
      ensures Valid()
      ensures heights == map[] && prefixSums == [0] && !dirty && count == 0
    {
      heights := map[];
      prefixSums := [0];
      dirty := false;
      count := 0;
    }

    /** Keeps only the measurements of the rows in `keep`. */
    method ClearExcept(keep: set<nat>)
      requires Valid()
      modifies this
      ensures Valid() && dirty
      ensures heights == Restrict(old(heights), keep)
      ensures prefixSums == old(prefixSums) && count == old(count)
    {
      var preserved: map<nat, nat> := map[];
      var remaining := keep;
      while remaining != {}
        invariant remaining <= keep
        invariant preserved == Restrict(heights, keep - remaining)
        invariant heights == old(heights)
        decreases remaining
      {
        var index :| index in remaining;
        if index in heights {
          preserved := preserved[index := heights[index]];
        }
        remaining := remaining - {index};
      }
      assert keep - remaining == keep;
      heights := preserved;
      dirty := true;
    }
  }

  /** After `ClearExcept`, a row is measured exactly when it was measured and kept. */
  lemma RestrictKeeps(heights: map<nat, nat>, keep: set<nat>, i: nat)
    ensures i in Restrict(heights, keep) <==> i in heights && i in keep
    ensures i in Restrict(heights, keep) ==> Restrict(heights, keep)[i] == heights[i]
  {
  }
}

=== FILE: highlight_passes.dfy ===
/**
 * The recognisers of the passes of `getHighlightObjects` (public/worker/highlight.js)
 * that this model spells out -- URLs, severity words, bracketed tags, numbers, HTTP
 * methods, keywords and error words -- and the element objects each pass records for
 * a match.  A recogniser `F(s, i)` is the match its regular expression makes when the
 * global scan tries position `i`: where the expression backtracks, the function takes
 * the branch the backtracking settles on.
 */
module HighlightPasses {
  import opened Wrappers
  import opened Text
  import opened Elements
  import opened Placeholders

  /** The end of the longest run of characters satisfying `p` that starts at `j`. */
  function Run(s: string, j: nat, p: char -> bool): (e: nat)
    requires j <= |s|
    ensures j <= e <= |s|
    ensures forall k :: j <= k < e ==> p(s[k])
    ensures e == |s| || !p(s[e])
    decreases |s| - j
  {
    if j < |s| && p(s[j]) then Run(s, j + 1, p) else j
  }

  /** `\b` at position `p`: a word character on exactly one side. */
  predicate Boundary(s: string, p: nat) {
    (0 < p <= |s| && IsWordChar(s[p - 1])) != (p < |s| && IsWordChar(s[p]))
  }

  predicate IsNonSpace(c: char) {
    !IsSpace(c)
  }

  /** `/\S+/g` at `i`: the whole run of non-space characters, where the ISO-date pass looks. */
  function NonSpaceAt(s: string, i: nat): (r: Option<(nat, NoGroups)>)
    ensures r.Some? ==> i < r.value.0 <= |s| && (forall k :: i <= k < r.value.0 ==> !IsSpace(s[k]))
                        && (r.value.0 == |s| || IsSpace(s[r.value.0]))
    ensures r.None? <==> i >= |s| || IsSpace(s[i])
  {
    if i < |s| && !IsSpace(s[i]) then Some((Run(s, i, IsNonSpace), ())) else None
  }

  // ----- URLs -----

  /** `[\w\.]`, the characters of a path segment. */
  predicate IsUrlPathChar(c: char) {
    IsWordChar(c) || c == '.'
  }

  /** The groups of a URL match: `protocol`, `host`, `port`, `path` and `params`. */
  datatype Url = Url(protocol: string, host: string, port: string, path: string, params: string)

  /** `(https?:)` under the `i` flag, from `i`. */
  function ProtocolEnd(s: string, i: nat): (r: Option<nat>)
    requires i <= |s|
    ensures r.Some? ==> i + 5 <= r.value <= |s| && WordMatch(s, i, "http", true) && s[r.value - 1] == ':'
    ensures r.Some? && r.value == i + 6 ==> LowerChar(s[i + 4]) == 's'
    ensures r.Some? ==> r.value == i + 5 || r.value == i + 6
    ensures WordMatch(s, i, "http:", true) ==> r == Some(i + 5)
    ensures WordMatch(s, i, "https:", true) ==> r == Some(i + 6)
  {
    assert i + 5 <= |s| ==> Lower(s[i..i + 5])[..4] == Lower(s[i..i + 4]);
    assert i + 6 <= |s| ==> Lower(s[i..i + 6])[..4] == Lower(s[i..i + 4]);
    if i + 5 <= |s| && Lower(s[i..i + 4]) == "http" then
      if s[i + 4] == ':' then Some(i + 5)
      else if i + 6 <= |s| && LowerChar(s[i + 4]) == 's' && s[i + 5] == ':' then Some(i + 6)
      else None
    else None
  }

  /** `(?:\.\w+)*`, each repetition as long as it goes. */
  function DottedFrom(s: string, k: nat): (e: nat)
    requires k <= |s|
    ensures k <= e <= |s|
    ensures forall j :: k <= j < e ==> IsWordChar(s[j]) || s[j] == '.'
    ensures e > k ==> IsWordChar(s[e - 1]) && (e == |s| || !IsWordChar(s[e]))
    ensures !(e + 1 < |s| && s[e] == '.' && IsWordChar(s[e + 1]))
    decreases |s| - k
  {
    if k + 1 < |s| && s[k] == '.' && IsWordChar(s[k + 1]) then DottedFrom(s, Run(s, k + 1, IsWordChar)) else k
  }

  /** `(:\d+)?`. */
  function PortEnd(s: string, k: nat): (e: nat)
    requires k <= |s|
    ensures k <= e <= |s|
    ensures e > k ==> s[k] == ':' && e > k + 1 && forall j :: k < j < e ==> IsDigit(s[j])
    ensures e > k <==> k + 1 < |s| && s[k] == ':' && IsDigit(s[k + 1])
    ensures e > k ==> e == |s| || !IsDigit(s[e])
  {
    if k + 1 < |s| && s[k] == ':' && IsDigit(s[k + 1]) then
      Run(s, k + 1, IsDigit)
    else k
  }

  /** `((?:\/[\w\.]+)*\/?)`. */
  function PathFrom(s: string, k: nat): (e: nat)
    requires k <= |s|
    ensures k <= e <= |s|
    ensures e > k <==> k < |s| && s[k] == '/'
    ensures forall j :: k <= j < e ==> IsUrlPathChar(s[j]) || s[j] == '/'
    ensures e > k ==> e == |s| || !IsUrlPathChar(s[e])
    decreases |s| - k
  {
    if k + 1 < |s| && s[k] == '/' && IsUrlPathChar(s[k + 1]) then PathFrom(s, Run(s, k + 1, IsUrlPathChar))
    else if k < |s| && s[k] == '/' then k + 1
    else k
  }

  /** `(?:&?\w+=\w+)*`: a pair that does not complete ends the repetition where it began. */
  function PairsFrom(s: string, k: nat): (e: nat)
    requires k <= |s|
    ensures k <= e <= |s|
    ensures forall j :: k <= j < e ==> IsWordChar(s[j]) || s[j] == '=' || s[j] == '&'
    ensures e > k ==> IsWordChar(s[e - 1]) && (e == |s| || !IsWordChar(s[e]))
    decreases |s| - k
  {
    var a := if k < |s| && s[k] == '&' then k + 1 else k;
    var w := Run(s, a, IsWordChar);
    if a < w && w + 1 < |s| && s[w] == '=' && IsWordChar(s[w + 1]) then PairsFrom(s, Run(s, w + 1, IsWordChar))
    else k
  }

  /** `((?:\?(?:&?\w+=\w+)*))?`. */
  function ParamsEnd(s: string, k: nat): (e: nat)
    requires k <= |s|
    ensures k <= e <= |s|
    ensures e > k <==> k < |s| && s[k] == '?'
    ensures forall j :: k < j < e ==> IsWordChar(s[j]) || s[j] == '=' || s[j] == '&'
  {
    if k < |s| && s[k] == '?' then PairsFrom(s, k + 1) else k
  }

  /** The groups of a URL whose protocol ends at `p`, before the `//` and the host. */
  function UrlFrom(s: string, i: nat, p: nat): (r: (nat, Url))
    requires i <= p && p + 2 < |s| && IsWordChar(s[p + 2])
    ensures p + 2 < r.0 <= |s|
    ensures SliceAt(s, r.1.protocol, i) && |r.1.protocol| == p - i
    ensures r.1.host != [] && IsWordChar(r.1.host[0])
  {
    var h := HostEnd(s, p + 2);
    var o := PortEnd(s, h);
    var t := PathFrom(s, o);
    var q := ParamsEnd(s, t);
    (q, Url(s[i..p], s[p + 2..h], s[h..o], s[o..t], s[t..q]))
  }

  /** The end of the host `\w+(?:\.\w+)*` from `k`: word characters and dots, as long as it can be. */
  function HostEnd(s: string, k: nat): (h: nat)
    requires k < |s| && IsWordChar(s[k])
    ensures k < h <= |s| && forall j :: k <= j < h ==> IsWordChar(s[j]) || s[j] == '.'
    ensures (h == |s| || !IsWordChar(s[h])) && !(h + 1 < |s| && s[h] == '.' && IsWordChar(s[h + 1]))
  {
    DottedFrom(s, Run(s, k, IsWordChar))
  }

  /** The groups, in order, are the whole match. */
  lemma UrlFromText(s: string, i: nat, p: nat)
    requires i <= p && p + 2 < |s| && IsWordChar(s[p + 2]) && s[p..p + 2] == "//"
    ensures var (e, u) := UrlFrom(s, i, p);
      var whole := u.protocol + ("//" + (u.host + (u.port + (u.path + u.params))));
      SliceAt(s, whole, i) && e == i + |whole|
  {
    var h := HostEnd(s, p + 2);
    var o := PortEnd(s, h);
    var t := PathFrom(s, o);
    var q := ParamsEnd(s, t);
    SliceSplit(s, o, t, q);
    SliceSplit(s, h, o, q);
    SliceSplit(s, p + 2, h, q);
    SliceSplit(s, p, p + 2, q);
    SliceSplit(s, i, p, q);
  }

  /** The host group is the whole host `\w+(?:\.\w+)*` after the `//`. */
  lemma UrlFromHost(s: string, i: nat, p: nat)
    requires i <= p && p + 2 < |s| && IsWordChar(s[p + 2])
    ensures var host := UrlFrom(s, i, p).1.host;
      SliceAt(s, host, p + 2) && p + 2 + |host| == HostEnd(s, p + 2)
  {
  }

  /** The port is a colon and digits, the path starts with `/`, the parameters with `?`. */
  lemma UrlFromGroups(s: string, i: nat, p: nat)
    requires i <= p && p + 2 < |s| && IsWordChar(s[p + 2])
    ensures var u := UrlFrom(s, i, p).1;
      && (u.port != [] ==> u.port[0] == ':' && |u.port| > 1 && forall j :: 0 < j < |u.port| ==> IsDigit(u.port[j]))
      && (u.path != [] ==> u.path[0] == '/')
      && (u.params != [] ==> u.params[0] == '?')
  {
  }

  /**
   * `/\b(https?:)\/\/(\w+(?:\.\w+)*)(:\d+)?((?:\/[\w\.]+)*\/?)((?:\?(?:&?\w+=\w+)*))?/gi`
   * at `i`.  Everything after the host is optional, so the first way the expression
   * matches takes every repetition and option as far as it goes.  The groups, in
   * order, make up the whole match; the protocol is `http:` or `https:` in any case
   * and the host is not empty.
   */
  function UrlAt(s: string, i: nat): (r: Option<(nat, Url)>)
    ensures r.Some? ==> i < r.value.0 <= |s| && UrlMatch(s, i, r.value.0, r.value.1)
  {
    if i < |s| && Boundary(s, i) then
      match ProtocolEnd(s, i)
      case None => None
      case Some(p) =>
        if p + 2 < |s| && s[p] == '/' && s[p + 1] == '/' && IsWordChar(s[p + 2]) then
          UrlFromMatch(s, i, p);
          Some(UrlFrom(s, i, p))
        else None
    else None
  }

  /** The shape of a URL match `u` of `s[i..e]`. */
  predicate UrlMatch(s: string, i: nat, e: nat, u: Url)
    requires i <= e <= |s|
  {
    && s[i..e] == u.protocol + ("//" + (u.host + (u.port + (u.path + u.params))))
    && (Lower(u.protocol) == "http:" || Lower(u.protocol) == "https:")
    && u.host != [] && IsWordChar(u.host[0])
    && (u.port != [] ==> u.port[0] == ':' && |u.port| > 1 && AllDigits(u.port[1..]))
    && (u.path != [] ==> u.path[0] == '/')
    && (u.params != [] ==> u.params[0] == '?')
  }

  lemma UrlFromMatch(s: string, i: nat, p: nat)
    requires i <= |s| && ProtocolEnd(s, i) == Some(p)
    requires p + 2 < |s| && s[p] == '/' && s[p + 1] == '/' && IsWordChar(s[p + 2])
    ensures i < UrlFrom(s, i, p).0 <= |s| && UrlMatch(s, i, UrlFrom(s, i, p).0, UrlFrom(s, i, p).1)
  {
    UrlWhole(s, i, p);
    UrlProtocol(s, i, p);
    UrlFromGroups(s, i, p);
  }

  lemma UrlWhole(s: string, i: nat, p: nat)
    requires i <= p && p + 2 < |s| && s[p] == '/' && s[p + 1] == '/' && IsWordChar(s[p + 2])
    ensures var (e, u) := UrlFrom(s, i, p);
      s[i..e] == u.protocol + ("//" + (u.host + (u.port + (u.path + u.params))))
  {
    assert s[p..p + 2] == "//";
    UrlFromText(s, i, p);
  }

  lemma UrlProtocol(s: string, i: nat, p: nat)
    requires i <= |s| && ProtocolEnd(s, i) == Some(p) && p + 2 < |s| && IsWordChar(s[p + 2])
    ensures Lower(UrlFrom(s, i, p).1.protocol) == "http:" || Lower(UrlFrom(s, i, p).1.protocol) == "https:"
  {
    ProtocolName(s, i, p);
    assert UrlFrom(s, i, p).1.protocol == s[i..p];
  }

  lemma ProtocolName(s: string, i: nat, p: nat)
    requires i <= |s| && ProtocolEnd(s, i) == Some(p)
    ensures (p == i + 5 && WordMatch(s, i, "http:", true)) || (p == i + 6 && WordMatch(s, i, "https:", true))
  {
    if p == i + 5 {
      assert Lower(s[i..p]) == Lower(s[i..i + 4]) + [LowerChar(s[i + 4])];
    } else {
      assert Lower(s[i..p]) == Lower(s[i..i + 4]) + [LowerChar(s[i + 4]), LowerChar(s[i + 5])];
    }
  }

  /** A span for an optional group: none when the group is empty or did not take part. */
  function SpanIfAny(className: string, text: string): seq<Node> {
    if text == [] then [] else [Span(className, text)]
  }

  /**
   * The container the URL pass builds: a `url` span with no text of its own whose
   * children are the protocol span, the text `//`, the host span, and then spans for
   * the port, the path and the parameters, each only when it is not empty.
   */
  function UrlContainer(u: Url): Node {
    Element("span", "url", "", None,
      [Span("url-protocol", u.protocol), Text("//"), Span("url-host", u.host)] + OptionalUrlSpans(u))
  }

  function OptionalUrlSpans(u: Url): seq<Node> {
    SpanIfAny("url-port", u.port) + (SpanIfAny("url-path", u.path) + SpanIfAny("url-params", u.params))
  }

  function UrlElements(m: string, u: Url): Option<seq<Node>> {
    Some([UrlContainer(u)])
  }

  lemma SpanIfAnyText(className: string, text: string)
    ensures TextContentAll(SpanIfAny(className, text)) == text
  {
    if text != [] {
      assert TextContentAll([Span(className, text)]) == text + TextContentAll([]);
    }
  }

  lemma TextContentCons(n: Node, rest: seq<Node>)
    ensures TextContentAll([n] + rest) == TextContent(n) + TextContentAll(rest)
  {
    assert ([n] + rest)[1..] == rest;
  }

  lemma OptionalUrlSpansText(u: Url)
    ensures TextContentAll(OptionalUrlSpans(u)) == u.port + (u.path + u.params)
  {
    SpanIfAnyText("url-port", u.port);
    SpanIfAnyText("url-path", u.path);
    SpanIfAnyText("url-params", u.params);
    TextContentAllAppend(SpanIfAny("url-path", u.path), SpanIfAny("url-params", u.params));
    TextContentAllAppend(SpanIfAny("url-port", u.port), SpanIfAny("url-path", u.path) + SpanIfAny("url-params", u.params));
  }

  /** The text of the container is its groups in order. */
  lemma UrlContainerText(u: Url)
    ensures TextContent(UrlContainer(u)) == u.protocol + ("//" + (u.host + (u.port + (u.path + u.params))))
  {
    var tail := OptionalUrlSpans(u);
    var a, b, c := Span("url-protocol", u.protocol), Text("//"), Span("url-host", u.host);
    var children := [a] + ([b] + ([c] + tail));
    assert UrlContainer(u).children == children;
    OptionalUrlSpansText(u);
    TextContentCons(c, tail);
    assert TextContent(c) == u.host;
    assert TextContentAll([c] + tail) == u.host + (u.port + (u.path + u.params));
    TextContentCons(b, [c] + tail);
    assert TextContentAll([b] + ([c] + tail)) == "//" + (u.host + (u.port + (u.path + u.params)));
    TextContentCons(a, [b] + ([c] + tail));
    assert TextContent(a) == u.protocol;
    assert TextContentAll(children) == u.protocol + ("//" + (u.host + (u.port + (u.path + u.params))));
  }

  /**
   * The container shows exactly the text it replaces: its children start with the
   * protocol, `//` and the host, and their text, in order, is the whole match.
   */
  lemma UrlCoversMatch(s: string, i: nat)
    requires UrlAt(s, i).Some?
    ensures var u := UrlAt(s, i).value.1;
      && TextContent(UrlContainer(u)) == s[i..UrlAt(s, i).value.0]
      && UrlContainer(u).children[..3] == [Span("url-protocol", u.protocol), Text("//"), Span("url-host", u.host)]
  {
    UrlContainerText(UrlAt(s, i).value.1);
  }

  // ----- Word lists -----

  /** The text as a case-insensitive expression compares it: lower-cased when `fold`. */
  function Folded(m: string, fold: bool): string {
    if fold then Lower(m) else m
  }

  /** The word `w` is at `i`, compared as the expression compares it. */
  predicate WordMatch(s: string, i: nat, w: string, fold: bool) {
    i + |w| <= |s| && Folded(s[i..i + |w|], fold) == w
  }

  /** No word of `words` is at `i` with a word boundary after it. */
  predicate NoWordAt(s: string, i: nat, words: seq<string>, fold: bool) {
    forall w :: w in words && w != [] && Boundary(s, i + |w|) ==> !WordMatch(s, i, w, fold)
  }

  /** The text from `i` to `e` is, compared as the expression compares it, a word of `words`. */
  predicate ListedWord(s: string, i: nat, e: nat, words: seq<string>, fold: bool) {
    i <= e <= |s| && Folded(s[i..e], fold) in words
  }

  /**
   * The first word of `words` found at `i` and followed by `\b`, as an alternation of
   * literal words tries them: the end of the match.
   */
  function WordAt(s: string, i: nat, words: seq<string>, fold: bool): (r: Option<nat>)
    requires i <= |s|
    ensures r.Some? ==> i < r.value && ListedWord(s, i, r.value, words, fold) && Boundary(s, r.value)
    ensures r.None? ==> NoWordAt(s, i, words, fold)
  {
    if words == [] then None
    else
      var w := words[0];
      if w != [] && i + |w| <= |s| && Folded(s[i..i + |w|], fold) == w && Boundary(s, i + |w|) then Some(i + |w|)
      else
        NoWordAtCons(s, i, words, fold);
        WordAt(s, i, words[1..], fold)
  }

  /** When the first word is not at `i`, no word is exactly when none of the others is. */
  lemma NoWordAtCons(s: string, i: nat, words: seq<string>, fold: bool)
    requires words != [] && i <= |s|
    requires !(words[0] != [] && WordMatch(s, i, words[0], fold) && Boundary(s, i + |words[0]|))
    ensures NoWordAt(s, i, words[1..], fold) ==> NoWordAt(s, i, words, fold)
  {
    assert forall w :: w in words ==> w == words[0] || w in words[1..];
  }

  // ----- Tags -----

  const SeverityWords: seq<string> := ["info", "warn", "error", "debug", "trace"]

  /**
   * `/^info\b|^warn\b|^error\b|^debug\b|^trace\b/i`: a severity word at the very start of
   * the text, in any case.  The expression is not global, so only its first match is
   * replaced; anchored at the start it has no other.
   */
  function SeverityAt(s: string, i: nat): (r: Option<(nat, NoGroups)>)
    ensures r.Some? ==> i == 0 && 0 < r.value.0 && ListedWord(s, 0, r.value.0, SeverityWords, true)
                        && Boundary(s, r.value.0)
    ensures r.None? ==> i != 0 || NoWordAt(s, 0, SeverityWords, true)
  {
    if i != 0 then None
    else
      var e := WordAt(s, 0, SeverityWords, true);
      if e.Some? then Some((e.value, ())) else None
  }

  function TagElements(m: string, u: NoGroups): Option<seq<Node>> {
    Some([Span("tag", m)])
  }

  /**
   * The severity pass replaces at most one word, at the start of the text, by the next
   * placeholder and records a `tag` span for it; any other text comes through unchanged.
   */
  lemma SeverityPass(s: string, next: nat)
    ensures ReplaceFrom(s, 0, SeverityAt, TagElements, next) ==
      match WordAt(s, 0, SeverityWords, true)
      case Some(e) => (Placeholder(next) + s[e..], [[Span("tag", s[..e])]])
      case None => (s, [])
  {
    match WordAt(s, 0, SeverityWords, true)
    case Some(e) => SeverityTags(s, e, next);
    case None => if s != [] { SeverityKeeps(s, next); }
  }

  lemma SeverityTags(s: string, e: nat, next: nat)
    requires WordAt(s, 0, SeverityWords, true) == Some(e)
    ensures ReplaceFrom(s, 0, SeverityAt, TagElements, next) == (Placeholder(next) + s[e..], [[Span("tag", s[..e])]])
  {
    ReplaceRecords(s, 0, SeverityAt, TagElements, next);
    forall j | e <= j < |s| ensures !MatchesAt(SeverityAt, s, j) {
    }
    ReplaceNoMatch(s, e, SeverityAt, TagElements, next + 1);
    assert [[Span("tag", s[..e])]] + [] == [[Span("tag", s[..e])]];
  }

  lemma SeverityKeeps(s: string, next: nat)
    requires s != [] && WordAt(s, 0, SeverityWords, true).None?
    ensures ReplaceFrom(s, 0, SeverityAt, TagElements, next) == (s, [])
  {
    assert SeverityAt(s, 0).None?;
    ReplaceSkips(s, 0, SeverityAt, TagElements, next);
    forall j | 1 <= j < |s| ensures !MatchesAt(SeverityAt, s, j) {
      assert SeverityAt(s, j).None?;
    }
    ReplaceNoMatch(s, 1, SeverityAt, TagElements, next);
    HeadTail(s);
  }

  /**
   * `/\[\w+(?:\(\w+\))?\]/g` at `i`: a bracketed word, optionally followed by a second
   * word in parentheses.
   */
  function BracketAt(s: string, i: nat): (r: Option<(nat, NoGroups)>)
    ensures r.Some? ==> i + 3 <= r.value.0 <= |s| && s[i] == '[' && s[r.value.0 - 1] == ']'
    ensures r.Some? ==> forall k :: i < k < r.value.0 - 1 ==> IsWordChar(s[k]) || s[k] == '(' || s[k] == ')'
  {
    if i < |s| && s[i] == '[' then
      var w := Run(s, i + 1, IsWordChar);
      if w == i + 1 || w == |s| then None
      else if s[w] == ']' then Some((w + 1, ()))
      else if s[w] == '(' && w + 1 < |s| && IsWordChar(s[w + 1]) then
        var v := Run(s, w + 1, IsWordChar);
        if v + 1 < |s| && s[v] == ')' && s[v + 1] == ']' then Some((v + 2, ())) else None
      else None
    else None
  }

  /** `[\d\.:]`. */
  predicate IsNumericTagChar(c: char) {
    IsDigit(c) || c == '.' || c == ':'
  }

  /** `\[[\d\.:]+\]` matches at `j` of `m`. */
  predicate NumericTagAt(m: string, j: nat) {
    j < |m| && m[j] == '[' && var e := Run(m, j + 1, IsNumericTagChar); j + 1 < e < |m| && m[e] == ']'
  }

  /** `/\[[\d\.:]+\]/.test(m)`. */
  predicate NumericTag(m: string) {
    exists j :: 0 <= j < |m| && NumericTagAt(m, j)
  }

  /** A bracketed token that looks like a number or an address is left as it is. */
  function BracketElements(m: string, u: NoGroups): Option<seq<Node>> {
    if NumericTag(m) then None else Some([Span("tag", m)])
  }

  /**
   * Of the bracketed tokens the tag pass finds, it keeps as text exactly those whose
   * inside is all digits, and tags every other one.
   */
  lemma BracketGuard(s: string, i: nat, m: string)
    requires SliceAt(s, m, i) && BracketAt(s, i) == Some((i + |m|, ()))
    ensures BracketElements(m, ()).None? <==> forall k :: 0 < k < |m| - 1 ==> IsDigit(m[k])
    ensures BracketElements(m, ()).Some? ==> BracketElements(m, ()) == Some([Span("tag", m)])
  {
    var e := i + |m|;
    var inner := m[1..|m| - 1];
    assert BracketToken(m) by {
      forall k | 0 < k < |m| - 1 ensures IsWordChar(m[k]) || m[k] == '(' || m[k] == ')' {
        assert m[k] == s[i + k];
      }
    }
    assert AllDigits(inner) <==> forall k :: 0 < k < |m| - 1 ==> IsDigit(m[k]) by {
      assert forall k :: 0 < k < |m| - 1 ==> inner[k - 1] == m[k];
    }
    if AllDigits(inner) {
      DigitTokenIsNumeric(m);
    } else if NumericTag(m) {
      NumericTokenIsDigits(m);
      assert false;
    }
  }

  /** What the tag pass finds: `[`, word characters and parentheses, then `]`. */
  predicate BracketToken(m: string) {
    && |m| >= 3 && m[0] == '[' && m[|m| - 1] == ']'
    && forall k :: 0 < k < |m| - 1 ==> IsWordChar(m[k]) || m[k] == '(' || m[k] == ')'
  }

  lemma DigitTokenIsNumeric(m: string)
    requires BracketToken(m) && AllDigits(m[1..|m| - 1])
    ensures NumericTag(m)
  {
    var inner := m[1..|m| - 1];
    assert forall k :: 1 <= k < |m| - 1 ==> IsNumericTagChar(m[k]) by {
      forall k | 1 <= k < |m| - 1 ensures IsNumericTagChar(m[k]) {
        assert m[k] == inner[k - 1];
      }
    }
    assert !IsNumericTagChar(m[|m| - 1]);
    assert Run(m, 1, IsNumericTagChar) == |m| - 1;
    assert NumericTagAt(m, 0);
  }

  lemma NumericTokenIsDigits(m: string)
    requires BracketToken(m) && NumericTag(m)
    ensures AllDigits(m[1..|m| - 1])
  {
    var j :| 0 <= j < |m| && NumericTagAt(m, j);
    assert j == 0;
    assert Run(m, 1, IsNumericTagChar) == |m| - 1;
    var inner := m[1..|m| - 1];
    forall k | 0 <= k < |inner| ensures IsDigit(inner[k]) {
      assert inner[k] == m[k + 1];
      assert IsNumericTagChar(m[k + 1]);
    }
  }

  // ----- Numbers -----

  /**
   * `\d+(?:\.\d+)?\b` from `q`: a fraction whose end is not a boundary is given back,
   * and then the boundary after the integer part always holds.
   */
  function DigitsPart(s: string, q: nat): (r: Option<nat>)
    requires q <= |s|
    ensures r.Some? ==> q < r.value <= |s| && IsDigit(s[q]) && Boundary(s, r.value)
  {
    var d := Run(s, q, IsDigit);
    if d == q then None
    else
      var f := if d + 1 < |s| && s[d] == '.' && IsDigit(s[d + 1]) then Run(s, d + 1, IsDigit) else d;
      if f > d && Boundary(s, f) then Some(f)
      else if Boundary(s, d) then Some(d)
      else None
  }

  /** `\b(?:-|\+)?\d+(?:\.\d+)?\b` from `p`. */
  function NumberBody(s: string, p: nat): (r: Option<nat>)
    requires p <= |s|
    ensures r.Some? ==> p < r.value <= |s| && Boundary(s, p)
  {
    if !Boundary(s, p) then None
    else
      var q := if p < |s| && (s[p] == '-' || s[p] == '+') then p + 1 else p;
      DigitsPart(s, q)
  }

  /**
   * `(?:VS)?\b(?:-|\+)?\d+(?:\.\d+)?\b` at `i`: a VS in front is taken when a number
   * follows it; without it the expression cannot match at a VS.
   */
  function NumberAt(s: string, i: nat): (r: Option<(nat, NoGroups)>)
    ensures r.Some? ==> i < r.value.0 <= |s|
  {
    if i < |s| && s[i] == VS then
      match NumberBody(s, i + 1)
      case Some(e) => Some((e, ()))
      case None => None
    else if i <= |s| then
      match NumberBody(s, i)
      case Some(e) => Some((e, ()))
      case None => None
    else None
  }

  /** A match that starts with VS is kept as it is: it belongs to a placeholder. */
  function NumberElements(m: string, u: NoGroups): Option<seq<Node>> {
    if StartsWith(m, [VS]) then None else Some([Span("number", m)])
  }

  /**
   * The digits of a placeholder are matched together with the VS in front of them, so
   * the number pass keeps them and the placeholder survives it.
   */
  lemma NumberKeepsPlaceholder(n: nat, rest: string, m: string)
    requires SliceAt(Placeholder(n) + rest, m, 0) && |m| == |Placeholder(n)| - 1
    ensures NumberAt(Placeholder(n) + rest, 0) == Some((|m|, ()))
    ensures NumberElements(m, ()).None?
  {
    var p := Placeholder(n);
    var s := p + rest;
    var digits := NatToString(n);
    assert s[0] == VS;
    assert Boundary(s, 1) by {
      assert s[1] == digits[0];
    }
    assert s[1] != '-' && s[1] != '+';
    var d := Run(s, 1, IsDigit);
    forall k | 1 <= k < |p| - 1 ensures IsDigit(s[k]) {
      assert s[k] == digits[k - 1];
    }
    assert s[|p| - 1] == VS;
    assert d == |p| - 1;
    assert Boundary(s, d);
    assert DigitsPart(s, 1) == Some(d);
  }

  // ----- HTTP methods, keywords, errors -----

  /**
   * `/\b(?:w1|w2|...)\b/g` at `i`, with the `i` flag when `fold`: a word of the list with a
   * word boundary on both sides.  Found exactly when such a word starts at `i`.
   */
  function DelimitedWordAt(s: string, i: nat, words: seq<string>, fold: bool): (r: Option<(nat, NoGroups)>)
    ensures r.Some? ==> i < r.value.0 && Boundary(s, i) && Boundary(s, r.value.0)
                        && ListedWord(s, i, r.value.0, words, fold)
    ensures r.None? ==> i > |s| || !Boundary(s, i)
                        || NoWordAt(s, i, words, fold)
  {
    if i <= |s| && Boundary(s, i) then
      match WordAt(s, i, words, fold)
      case Some(e) => Some((e, ()))
      case None => None
    else None
  }

  const HttpMethods: seq<string> := ["GET", "POST", "PUT", "PATCH", "DELETE"]
  const HttpMethodClasses: seq<string> := [
    "http-method http-method-get", "http-method http-method-post", "http-method http-method-put",
    "http-method http-method-patch", "http-method http-method-delete"]

  /** `/\b(?:GET|POST|PUT|PATCH|DELETE)\b/g` at `i`, upper case only. */
  function HttpMethodAt(s: string, i: nat): Option<(nat, NoGroups)> {
    DelimitedWordAt(s, i, HttpMethods, false)
  }

  function HttpMethodElements(m: string, u: NoGroups): Option<seq<Node>> {
    Some([Span("http-method http-method-" + Lower(m), m)])
  }

  lemma MethodClassName(k: nat)
    requires k < |HttpMethods|
    ensures "http-method http-method-" + Lower(HttpMethods[k]) == HttpMethodClasses[k]
  {
    if k == 0 {
      assert Lower("GET") == "get";
    } else if k == 1 {
      assert Lower("POST") == "post";
    } else if k == 2 {
      assert Lower("PUT") == "put";
    } else if k == 3 {
      assert Lower("PATCH") == "patch";
    } else {
      assert Lower("DELETE") == "delete";
    }
  }

  /** A method name gets the class `http-method` and `http-method-` with the name in lower case. */
  lemma HttpMethodClass(s: string, i: nat, m: string)
    requires SliceAt(s, m, i) && HttpMethodAt(s, i) == Some((i + |m|, ()))
    ensures exists k :: (0 <= k < |HttpMethods| && m == HttpMethods[k]
                         && HttpMethodElements(m, ()) == Some([Span(HttpMethodClasses[k], m)]))
  {
    assert Folded(m, false) == m;
    var k :| 0 <= k < |HttpMethods| && m == HttpMethods[k];
    MethodClassName(k);
  }

  const Keywords: seq<string> := ["true", "false", "null", "undefined"]

  /** `/\b(?:true|false|null|undefined)\b/gi` at `i`. */
  function KeywordAt(s: string, i: nat): Option<(nat, NoGroups)> {
    DelimitedWordAt(s, i, Keywords, true)
  }

  function KeywordElements(m: string, u: NoGroups): Option<seq<Node>> {
    Some([Span("keyword", m)])
  }

  const ErrorWords: seq<string> := ["error", "failure", "failed"]

  /** `/\b(?:error|fail(?:ure|ed))\b/gi` at `i`. */
  function ErrorAt(s: string, i: nat): Option<(nat, NoGroups)> {
    DelimitedWordAt(s, i, ErrorWords, true)
  }

  function ErrorElements(m: string, u: NoGroups): Option<seq<Node>> {
    Some([Span("error", m)])
  }

  /**
   * A delimited `true`, `false`, `null` or `undefined` in any case is always found, and
   * becomes one `keyword` span showing the matched text; likewise `error`, `failure` and
   * `failed` become one `error` span.
   */
  lemma KeywordAndErrorSpans(s: string, i: nat, m: string)
    requires SliceAt(s, m, i) && Boundary(s, i) && Boundary(s, i + |m|)
    ensures Lower(m) in Keywords ==> KeywordAt(s, i).Some?
    ensures Lower(m) in ErrorWords ==> ErrorAt(s, i).Some?
    ensures KeywordAt(s, i) == Some((i + |m|, ())) ==>
      Lower(m) in Keywords && KeywordElements(m, ()) == Some([Span("keyword", m)])
    ensures ErrorAt(s, i) == Some((i + |m|, ())) ==>
      Lower(m) in ErrorWords && ErrorElements(m, ()) == Some([Span("error", m)])
  {
    ListedWordFound(s, i, m, Keywords);
    ListedWordFound(s, i, m, ErrorWords);
    assert [] !in Keywords && [] !in ErrorWords;
    assert |Lower(m)| == |m|;
  }

  /** A delimited word of a list, in any case, is found; a word found is of the list. */
  lemma ListedWordFound(s: string, i: nat, m: string, words: seq<string>)
    requires SliceAt(s, m, i) && Boundary(s, i) && Boundary(s, i + |m|)
    ensures m != [] && Lower(m) in words ==> DelimitedWordAt(s, i, words, true).Some?
    ensures DelimitedWordAt(s, i, words, true) == Some((i + |m|, ())) ==> Lower(m) in words
  {
    assert s[i..i + |m|] == m;
    assert WordMatch(s, i, Lower(m), true);
    if DelimitedWordAt(s, i, words, true) == Some((i + |m|, ())) {
      assert ListedWord(s, i, i + |m|, words, true);
    }
  }
}

=== FILE: highlighter.dfy ===
/**
 * `getHighlightObjects(text, stripAnsiEscape)` (public/worker/highlight.js): the chain of
 * passes over one log line, each replacing what it recognises by a placeholder, and the
 * final expansion of the placeholders into element objects.  The passes this model does
 * not spell out -- dates, paths and files, key=value pairs, addresses, quoted strings
 * and durations -- are recognisers given as parameters, and so is the ISO-date check,
 * which depends on the engine's `Date` parser.
 */
module Highlighter {
  import opened Wrappers
  import opened Text
  import opened Elements
  import opened Placeholders
  import opened Ansi
  import opened HighlightPasses

  /** The recognisers of the passes that are parameters of this model. */
  datatype Recognizers = Recognizers(
    /** `\b\d+[-\/]\d+[-\/]\d+ \d+:\d+:\d+(?:[.,]\d+)?` */
    date: (string, nat) -> Option<(nat, NoGroups)>,
    /** `new Date(m)` is a valid date whose `toISOString()` is `m` */
    isIsoDate: string -> bool,
    /** `(\/?(?:[\w.-]+\/)+)(\S+)`, with its folder and file groups */
    path: (string, nat) -> Option<(nat, (string, string))>,
    /** `[\w-]+\.[a-zA-Z]+(?::(?:\d+|\(\d+,\d+\)))?` */
    file: (string, nat) -> Option<(nat, NoGroups)>,
    /** `(\S+?)=(\S+)`, with its key and value groups */
    keyValue: (string, nat) -> Option<(nat, (string, string))>,
    /** `\b\d+\.\d+\.\d+\.\d+\b` */
    ip: (string, nat) -> Option<(nat, NoGroups)>,
    /** `"(?:\\"|[^"])*?"|'(?:\\'|[^'])*?'` */
    quoted: (string, nat) -> Option<(nat, NoGroups)>,
    /** `(?:\d+(\.\d+)?(?:h|ms?|s))+` */
    time: (string, nat) -> Option<(nat, NoGroups)>)

  /** The text between passes and the element lists recorded so far, one per placeholder. */
  type State = (string, seq<seq<Node>>)

  /** One global `replace` pass whose callback calls `getReplacement`. */
  function Pass<T>(st: State, find: (string, nat) -> Option<(nat, T)>,
                   build: (string, T) -> Option<seq<Node>>): (r: State)
    ensures |st.1| <= |r.1| && r.1[..|st.1|] == st.1
  {
    var p := ReplaceFrom(st.0, 0, find, build, |st.1|);
    (p.0, st.1 + p.1)
  }

  // ----- The callbacks of the passes given as parameters -----

  function DateElements(m: string, u: NoGroups): Option<seq<Node>> {
    Some([Span("date", m)])
  }

  /** A run of non-space characters is a date exactly when it is an ISO date. */
  function IsoDateElements(isIsoDate: string -> bool): (string, NoGroups) -> Option<seq<Node>> {
    (m: string, u: NoGroups) => if isIsoDate(m) then Some([Span("date", m)]) else None
  }

  function PathElements(m: string, groups: (string, string)): Option<seq<Node>> {
    Some([Span("path", groups.0), Span("file", groups.1)])
  }

  function FileElements(m: string, u: NoGroups): Option<seq<Node>> {
    Some([Span("file", m)])
  }

  function KeyValueElements(m: string, groups: (string, string)): Option<seq<Node>> {
    Some([Span("key", groups.0), Text("="), Span("value", groups.1)])
  }

  function IpElements(m: string, u: NoGroups): Option<seq<Node>> {
    Some([Span("ip", m)])
  }

  function StringElements(m: string, u: NoGroups): Option<seq<Node>> {
    Some([Span("string", m)])
  }

  function TimeElements(m: string, u: NoGroups): Option<seq<Node>> {
    Some([Span("time", m)])
  }

  // ----- The stages, as the source groups them -----

  /** `replaceAnsi`: strip mode records nothing; otherwise links and SGR runs are replaced. */
  function AnsiStage(text: string, stripAnsiEscape: bool): State {
    if stripAnsiEscape then (StripAnsi(text), []) else AnsiPass(text, 0)
  }

  /** `replaceURLs`. */
  function UrlStage(st: State): State {
    Pass(st, UrlAt, UrlElements)
  }

  /** `replaceDate`: the date-time pattern, then the ISO dates among the non-space runs. */
  function DateStage(st: State, rs: Recognizers): State {
    Pass(Pass(st, rs.date, DateElements), NonSpaceAt, IsoDateElements(rs.isIsoDate))
  }

  /** `replacePath`: folder and file, then bare file names. */
  function PathStage(st: State, rs: Recognizers): State {
    Pass(Pass(st, rs.path, PathElements), rs.file, FileElements)
  }

  /** `replaceTags`: the severity word at the start, then bracketed tags. */
  function TagStage(st: State): State {
    Pass(Pass(st, SeverityAt, TagElements), BracketAt, BracketElements)
  }

  /** The passes written out in `getHighlightObjects` itself, in their order. */
  function TokenStage(st: State, rs: Recognizers): State {
    var kv := Pass(st, rs.keyValue, KeyValueElements);
    var ip := Pass(kv, rs.ip, IpElements);
    var quoted := Pass(ip, rs.quoted, StringElements);
    var time := Pass(quoted, rs.time, TimeElements);
    var number := Pass(time, NumberAt, NumberElements);
    var verb := Pass(number, HttpMethodAt, HttpMethodElements);
    var keyword := Pass(verb, KeywordAt, KeywordElements);
    Pass(keyword, ErrorAt, ErrorElements)
  }

  /** All passes over `text`. */
  function Passes(text: string, stripAnsiEscape: bool, rs: Recognizers): State {
    TokenStage(TagStage(PathStage(DateStage(UrlStage(AnsiStage(text, stripAnsiEscape)), rs), rs)), rs)
  }

  /** The passes over `text` followed by the expansion; None where the source throws. */
  function HighlightObjects(text: string, stripAnsiEscape: bool, rs: Recognizers): (r: Option<seq<Node>>)
    ensures var m := Passes(text, stripAnsiEscape, rs).0;
      m != [] && (forall i :: 0 <= i < |m| ==> m[i] == VS) ==> r.None?
  {
    var st := Passes(text, stripAnsiEscape, rs);
    Expand(st.0, st.1)
  }

  /** `text.replace(new RegExp(VS, "g"), "")`. */
  function RemoveMarkers(text: string): (r: string)
    ensures VS !in r && |r| <= |text|
    ensures VS !in text ==> r == text
  {
    if text == [] then []
    else if text[0] == VS then RemoveMarkers(text[1..])
    else [text[0]] + RemoveMarkers(text[1..])
  }

  // ----- The imperative chain -----

  method ReplaceURLs(r: Replacer, text: string) returns (out: string)
    requires r.Valid()
    modifies r
    ensures r.Valid() && (out, r.recorded) == UrlStage((text, old(r.recorded)))
  {
    out := r.Replace(text, UrlAt, UrlElements);
  }

  method ReplaceDate(r: Replacer, text: string, rs: Recognizers) returns (out: string)
    requires r.Valid()
    modifies r
    ensures r.Valid() && (out, r.recorded) == DateStage((text, old(r.recorded)), rs)
  {
    out := r.Replace(text, rs.date, DateElements);
    out := r.Replace(out, NonSpaceAt, IsoDateElements(rs.isIsoDate));
  }

  method ReplacePath(r: Replacer, text: string, rs: Recognizers) returns (out: string)
    requires r.Valid()
    modifies r
    ensures r.Valid() && (out, r.recorded) == PathStage((text, old(r.recorded)), rs)
  {
    out := r.Replace(text, rs.path, PathElements);
    out := r.Replace(out, rs.file, FileElements);
  }

  method ReplaceTags(r: Replacer, text: string) returns (out: string)
    requires r.Valid()
    modifies r
    ensures r.Valid() && (out, r.recorded) == TagStage((text, old(r.recorded)))
  {
    out := r.Replace(text, SeverityAt, TagElements);
    out := r.Replace(out, BracketAt, BracketElements);
  }

  method ReplaceTokens(r: Replacer, text: string, rs: Recognizers) returns (out: string)
    requires r.Valid()
    modifies r
    ensures r.Valid() && (out, r.recorded) == TokenStage((text, old(r.recorded)), rs)
  {
    out := r.Replace(text, rs.keyValue, KeyValueElements);
    out := r.Replace(out, rs.ip, IpElements);
    out := r.Replace(out, rs.quoted, StringElements);
    out := r.Replace(out, rs.time, TimeElements);
    out := r.Replace(out, NumberAt, NumberElements);
    out := r.Replace(out, HttpMethodAt, HttpMethodElements);
    out := r.Replace(out, KeywordAt, KeywordElements);
    out := r.Replace(out, ErrorAt, ErrorElements);
  }

  /**
   * `getHighlightObjects`, with the VS characters of the input removed before the
   * passes run (see `LoneMarkerAsWritten` for the code as written): the result is the
   * expansion of the text the passes leave, None where the source throws.
   */
  method GetHighlightObjects(text: string, stripAnsiEscape: bool, rs: Recognizers) returns (r: Option<seq<Node>>)
    ensures r == HighlightObjects(RemoveMarkers(text), stripAnsiEscape, rs)
  {
    var rep := new Replacer();
    var modified := RemoveMarkers(text);
    ghost var pass := AnsiPass(modified, 0);
    modified := ReplaceAnsi(rep, modified, stripAnsiEscape);
    assert [] + pass.1 == pass.1;
    ghost var st := AnsiStage(RemoveMarkers(text), stripAnsiEscape);
    assert (modified, rep.recorded) == st;
    modified := ReplaceURLs(rep, modified);
    st := UrlStage(st);
    modified := ReplaceDate(rep, modified, rs);
    st := DateStage(st, rs);
    modified := ReplacePath(rep, modified, rs);
    st := PathStage(st, rs);
    modified := ReplaceTags(rep, modified);
    st := TagStage(st);
    modified := ReplaceTokens(rep, modified, rs);
    st := TokenStage(st, rs);
    assert st == Passes(RemoveMarkers(text), stripAnsiEscape, rs);
    if modified == [] {
      return Some([]);
    }
    r := Expand(modified, rep.recorded);
  }

  // ----- Properties -----

  /** Every pass keeps the empty text empty, so an empty line has no elements. */
  lemma EmptyLine(stripAnsiEscape: bool, rs: Recognizers)
    ensures HighlightObjects([], stripAnsiEscape, rs) == Some([])
  {
    assert AnsiStage([], stripAnsiEscape).0 == [];
  }

  /**
   * A pass over a text where its expression matches nowhere, or only where the callback
   * keeps the match, changes nothing.
   */
  lemma PassKeeps<T>(st: State, find: (string, nat) -> Option<(nat, T)>, build: (string, T) -> Option<seq<Node>>)
    requires forall j :: 0 <= j < |st.0| ==> !MatchesAt(find, st.0, j)
    ensures Pass(st, find, build) == st
  {
    ReplaceNoMatch(st.0, 0, find, build, |st.1|);
    assert st.1 + [] == st.1;
  }

  /** The abstract recognisers find nothing in the text that is a single VS. */
  predicate QuietOnMarker(rs: Recognizers) {
    && !MatchesAt(rs.date, [VS], 0) && !rs.isIsoDate([VS]) && !MatchesAt(rs.path, [VS], 0)
    && !MatchesAt(rs.file, [VS], 0) && !MatchesAt(rs.keyValue, [VS], 0) && !MatchesAt(rs.ip, [VS], 0)
    && !MatchesAt(rs.quoted, [VS], 0) && !MatchesAt(rs.time, [VS], 0)
  }

  lemma AnsiOnMarker(stripAnsiEscape: bool)
    ensures AnsiStage([VS], stripAnsiEscape) == ([VS], [])
  {
    if stripAnsiEscape {
      StripWithoutEscape([VS]);
    } else {
      assert LinkAt([VS], 0).None?;
      ReplaceSkips([VS], 0, LinkAt, LinkElements, 0);
      assert ReplaceFrom([VS], 0, LinkAt, LinkElements, 0) == ([VS], []) by {
        assert ReplaceFrom([VS], 1, LinkAt, LinkElements, 0) == ([], []);
        assert [[VS][0]] + [] == [VS];
      }
      assert SgrAt([VS], 0).None?;
      assert SgrFrom([VS], 1, [], 0) == ([], []);
      assert [[VS][0]] + [] == [VS];
      assert SgrFrom([VS], 0, [], 0) == ([VS], []);
      RemoveResetsKeepsPlain([VS], []);
      assert [VS] + [] == [VS];
      assert RemoveResets([VS]) == [VS];
      var none: seq<seq<Node>> := [];
      assert none + none == none;
    }
  }

  lemma IsoPassOnMarker(rs: Recognizers)
    requires !rs.isIsoDate([VS])
    ensures Pass(([VS], []), NonSpaceAt, IsoDateElements(rs.isIsoDate)) == ([VS], [])
  {
    assert Run([VS], 1, IsNonSpace) == 1;
    assert Run([VS], 0, IsNonSpace) == 1;
    assert NonSpaceAt([VS], 0) == Some((1, ()));
    assert [VS][0..1] == [VS];
    assert IsoDateElements(rs.isIsoDate)([VS], ()) == None;
    ReplaceKeeps([VS], 0, NonSpaceAt, IsoDateElements(rs.isIsoDate), 0);
    assert ReplaceFrom([VS], 1, NonSpaceAt, IsoDateElements(rs.isIsoDate), 0) == ([], []);
    assert [VS] + [] == [VS];
    var none: seq<seq<Node>> := [];
    assert none + none == none;
  }

  lemma ConcretePassesOnMarker()
    ensures !MatchesAt(UrlAt, [VS], 0) && !MatchesAt(SeverityAt, [VS], 0) && !MatchesAt(BracketAt, [VS], 0)
    ensures !MatchesAt(NumberAt, [VS], 0) && !MatchesAt(HttpMethodAt, [VS], 0)
    ensures !MatchesAt(KeywordAt, [VS], 0) && !MatchesAt(ErrorAt, [VS], 0)
  {
    assert !Boundary([VS], 0) && !Boundary([VS], 1);
  }

  /**
   * As written, line 209 hands `text` to the passes instead of the text with its VS
   * characters removed, so a line that is a single VS reaches the expansion as it is:
   * `match` finds no token and `flatMap` throws.
   */
  lemma LoneMarkerAsWritten(stripAnsiEscape: bool, rs: Recognizers)
    requires QuietOnMarker(rs)
    ensures HighlightObjects([VS], stripAnsiEscape, rs) == None
  {
    var st: State := ([VS], []);
    AnsiOnMarker(stripAnsiEscape);
    StagesOnMarker(rs);
    TokensOnMarker(rs);
    assert Passes([VS], stripAnsiEscape, rs) == st;
    LoneMarkerThrows([]);
  }

  /** The URL, date, path and tag stages leave the single VS alone. */
  lemma StagesOnMarker(rs: Recognizers)
    requires QuietOnMarker(rs)
    ensures TagStage(PathStage(DateStage(UrlStage(([VS], [])), rs), rs)) == ([VS], [])
  {
    UrlDateOnMarker(rs);
    PathTagOnMarker(rs);
  }

  lemma UrlDateOnMarker(rs: Recognizers)
    requires QuietOnMarker(rs)
    ensures DateStage(UrlStage(([VS], [])), rs) == ([VS], [])
  {
    var st: State := ([VS], []);
    UrlOnMarker();
    PassKeeps(st, rs.date, DateElements);
    IsoPassOnMarker(rs);
  }

  lemma UrlOnMarker()
    ensures UrlStage(([VS], [])) == ([VS], [])
  {
    ConcretePassesOnMarker();
    PassKeeps(([VS], []), UrlAt, UrlElements);
  }

  lemma PathTagOnMarker(rs: Recognizers)
    requires QuietOnMarker(rs)
    ensures PathStage(([VS], []), rs) == ([VS], []) && TagStage(([VS], [])) == ([VS], [])
  {
    var st: State := ([VS], []);
    PassKeeps(st, rs.path, PathElements);
    PassKeeps(st, rs.file, FileElements);
    TagOnMarker();
  }

  lemma TagOnMarker()
    ensures TagStage(([VS], [])) == ([VS], [])
  {
    var st: State := ([VS], []);
    ConcretePassesOnMarker();
    PassKeeps(st, SeverityAt, TagElements);
    PassKeeps(st, BracketAt, BracketElements);
  }

  lemma TokensOnMarker(rs: Recognizers)
    requires QuietOnMarker(rs)
    ensures TokenStage(([VS], []), rs) == ([VS], [])
  {
    AbstractTokensOnMarker(rs);
    ConcreteTokensOnMarker();
  }

  /** The number, method, keyword and error passes leave the single VS alone. */
  lemma ConcreteTokensOnMarker()
    ensures var st: State := ([VS], []);
      Pass(Pass(Pass(Pass(st, NumberAt, NumberElements), HttpMethodAt, HttpMethodElements), KeywordAt, KeywordElements), ErrorAt, ErrorElements) == st
  {
    NumberMethodOnMarker();
    KeywordErrorOnMarker();
  }

  lemma NumberMethodOnMarker()
    ensures Pass(Pass(([VS], []), NumberAt, NumberElements), HttpMethodAt, HttpMethodElements) == ([VS], [])
  {
    assert !MatchesAt(NumberAt, [VS], 0) && !MatchesAt(HttpMethodAt, [VS], 0) by {
      ConcretePassesOnMarker();
    }
    PassKeeps(([VS], []), NumberAt, NumberElements);
    PassKeeps(([VS], []), HttpMethodAt, HttpMethodElements);
  }

  lemma KeywordErrorOnMarker()
    ensures Pass(Pass(([VS], []), KeywordAt, KeywordElements), ErrorAt, ErrorElements) == ([VS], [])
  {
    assert !MatchesAt(KeywordAt, [VS], 0) && !MatchesAt(ErrorAt, [VS], 0) by {
      ConcretePassesOnMarker();
    }
    PassKeeps(([VS], []), KeywordAt, KeywordElements);
    PassKeeps(([VS], []), ErrorAt, ErrorElements);
  }

  /** The key-value, address, string and time passes leave the single VS alone. */
  lemma AbstractTokensOnMarker(rs: Recognizers)
    requires QuietOnMarker(rs)
    ensures var st: State := ([VS], []);
      Pass(Pass(Pass(Pass(st, rs.keyValue, KeyValueElements), rs.ip, IpElements), rs.quoted, StringElements), rs.time, TimeElements) == st
  {
    var st: State := ([VS], []);
    PassKeeps(st, rs.keyValue, KeyValueElements);
    PassKeeps(st, rs.ip, IpElements);
    PassKeeps(st, rs.quoted, StringElements);
    PassKeeps(st, rs.time, TimeElements);
  }

  /** With the VS characters removed first, the same line gives no elements and no error. */
  lemma LoneMarkerCorrected(stripAnsiEscape: bool, rs: Recognizers)
    ensures HighlightObjects(RemoveMarkers([VS]), stripAnsiEscape, rs) == Some([])
  {
    assert RemoveMarkers([VS]) == [];
    EmptyLine(stripAnsiEscape, rs);
  }
}

=== FILE: legacy_highlight.dfy ===
/**
 * `highlightText(text)` (public/highlight.js), the older highlighter that builds an HTML
 * string.  Its placeholders are `$n;`, each standing for a piece of HTML; its ANSI pass
 * keeps a count of the spans it has opened, so that a reset closes exactly those; a
 * last `replace` puts the recorded HTML back in place of each placeholder.  The passes
 * whose expressions this model does not spell out are recognisers given as parameters.
 */
module LegacyHighlight {
  import opened Wrappers
  import opened Text
  import opened Placeholders
  import opened Ansi
  import opened HighlightPasses

  /** `getIdent()` when the counter is `n`: `$n;`. */
  function Mark(n: nat): (p: string)
    ensures |p| >= 3 && p[0] == '$' && p[|p| - 1] == ';' && p[1..|p| - 1] == NatToString(n)
  {
    "$" + NatToString(n) + ";"
  }

  /** Different counter values give different placeholders. */
  lemma MarkInjective(a: nat, b: nat)
    requires Mark(a) == Mark(b)
    ensures a == b
  {
    NatToStringInjective(a, b);
  }

  /**
   * `text.replace(regex, callback)` where the callback returns the text it matched
   * (None) or a placeholder for a piece of HTML: the new text and the pieces recorded.
   */
  function ScanFrom<T>(s: string, i: nat, find: (string, nat) -> Option<(nat, T)>,
                       build: (string, T) -> Option<string>, next: nat): (string, seq<string>)
    requires i <= |s|
    decreases |s| - i
  {
    if i == |s| then ([], [])
    else
      var f := find(s, i);
      if f.Some? && i < f.value.0 <= |s| then
        var m := s[i..f.value.0];
        match build(m, f.value.1)
        case None =>
          var rest := ScanFrom(s, f.value.0, find, build, next);
          (m + rest.0, rest.1)
        case Some(html) =>
          var rest := ScanFrom(s, f.value.0, find, build, next + 1);
          (Mark(next) + rest.0, [html] + rest.1)
      else
        var rest := ScanFrom(s, i + 1, find, build, next);
        ([s[i]] + rest.0, rest.1)
  }

  lemma ScanRecords<T>(s: string, i: nat, find: (string, nat) -> Option<(nat, T)>,
                       build: (string, T) -> Option<string>, next: nat)
    requires i < |s| && MatchesAt(find, s, i)
    requires build(s[i..find(s, i).value.0], find(s, i).value.1).Some?
    ensures var e := find(s, i).value.0;
      ScanFrom(s, i, find, build, next)
      == (Mark(next) + ScanFrom(s, e, find, build, next + 1).0,
          [build(s[i..e], find(s, i).value.1).value] + ScanFrom(s, e, find, build, next + 1).1)
  {
  }

  lemma ScanKeeps<T>(s: string, i: nat, find: (string, nat) -> Option<(nat, T)>,
                     build: (string, T) -> Option<string>, next: nat)
    requires i < |s| && MatchesAt(find, s, i)
    requires build(s[i..find(s, i).value.0], find(s, i).value.1).None?
    ensures var e := find(s, i).value.0;
      ScanFrom(s, i, find, build, next)
      == (s[i..e] + ScanFrom(s, e, find, build, next).0, ScanFrom(s, e, find, build, next).1)
  {
  }

  lemma ScanSkips<T>(s: string, i: nat, find: (string, nat) -> Option<(nat, T)>,
                     build: (string, T) -> Option<string>, next: nat)
    requires i < |s| && !MatchesAt(find, s, i)
    ensures ScanFrom(s, i, find, build, next)
      == ([s[i]] + ScanFrom(s, i + 1, find, build, next).0, ScanFrom(s, i + 1, find, build, next).1)
  {
  }

  /** Where the expression matches nowhere, the pass leaves the text as it is. */
  lemma {:induction false} ScanNoMatch<T>(s: string, i: nat, find: (string, nat) -> Option<(nat, T)>,
                                          build: (string, T) -> Option<string>, next: nat)
    requires i <= |s|
    requires forall j :: i <= j < |s| ==> !MatchesAt(find, s, j)
    ensures ScanFrom(s, i, find, build, next) == (s[i..], [])
    decreases |s| - i
  {
    if i < |s| {
      ScanSkips(s, i, find, build, next);
      ScanNoMatch(s, i + 1, find, build, next);
      assert s[i..] == [s[i]] + s[i + 1..];
    }
  }

  /** The state of this `getReplacement` closure: the counter and the map it fills. */
  class HtmlReplacer {
    var ident: nat
    /** The map's values, in the order of their placeholders. */
    var recorded: seq<string>

    ghost predicate Valid()
      reads this
    {
      |recorded| == ident
    }

    constructor()
      ensures Valid() && recorded == []
    {
      ident := 0;
      recorded := [];
    }

    /** `getReplacement(text)`: a placeholder never handed out before, mapped to `html`. */
    method GetReplacement(html: string) returns (p: string)
      requires Valid()
      modifies this
      ensures Valid() && recorded == old(recorded) + [html]
      ensures p == Mark(old(ident))
      ensures forall k :: 0 <= k < old(ident) ==> Mark(k) != p
    {
      p := Mark(ident);
      forall k | 0 <= k < ident
        ensures Mark(k) != p
      {
        if Mark(k) == p {
          MarkInjective(k, ident);
        }
      }
      recorded := recorded + [html];
      ident := ident + 1;
    }

    method Replace<T>(s: string, find: (string, nat) -> Option<(nat, T)>,
                      build: (string, T) -> Option<string>) returns (out: string)
      requires Valid()
      modifies this
      ensures Valid()
      ensures out == ScanFrom(s, 0, find, build, old(ident)).0
      ensures recorded == old(recorded) + ScanFrom(s, 0, find, build, old(ident)).1
    {
      ghost var r0 := recorded;
      ghost var total := ScanFrom(s, 0, find, build, ident);
      ghost var issued: seq<string> := [];
      out := [];
      var i := 0;
      ghost var rest := total;
      assert [] + total.0 == total.0 && [] + total.1 == total.1;
      while i < |s|
        invariant i <= |s| && Valid() && recorded == r0 + issued
        invariant rest == ScanFrom(s, i, find, build, ident)
        invariant out + rest.0 == total.0 && issued + rest.1 == total.1
        decreases |s| - i
      {
        var piece, e, added := ReplaceAt(s, i, find, build);
        rest := ScanFrom(s, e, find, build, ident);
        ConcatAssoc(out, piece, rest.0);
        ConcatAssoc(issued, added, rest.1);
        ConcatAssoc(r0, issued, added);
        out, issued, i := out + piece, issued + added, e;
      }
      assert rest == ([], []);
      assert out + [] == out && issued + [] == issued;
    }

    method ReplaceAt<T>(s: string, i: nat, find: (string, nat) -> Option<(nat, T)>,
                        build: (string, T) -> Option<string>)
      returns (piece: string, e: nat, ghost added: seq<string>)
      requires Valid() && i < |s|
      modifies this
      ensures Valid() && i < e <= |s| && recorded == old(recorded) + added
      ensures ScanFrom(s, i, find, build, old(ident))
        == (piece + ScanFrom(s, e, find, build, ident).0, added + ScanFrom(s, e, find, build, ident).1)
    {
      var n := ident;
      var f := find(s, i);
      if f.Some? && i < f.value.0 <= |s| {
        e := f.value.0;
        var b := build(s[i..e], f.value.1);
        if b.Some? {
          ScanRecords(s, i, find, build, n);
          piece := GetReplacement(b.value);
          added := [b.value];
        } else {
          ScanKeeps(s, i, find, build, n);
          piece, added := s[i..e], [];
          assert added + ScanFrom(s, e, find, build, n).1 == ScanFrom(s, e, find, build, n).1;
        }
      } else {
        ScanSkips(s, i, find, build, n);
        piece, e, added := [s[i]], i + 1, [];
        assert added + ScanFrom(s, e, find, build, n).1 == ScanFrom(s, e, find, build, n).1;
      }
    }
  }

  // ----- ANSI -----

  /** A hyperlink becomes `<a href="target">text</a>`. */
  function LinkHtml(m: string, captured: (string, string)): Option<string> {
    Some("<a href=\"" + captured.0 + "\">" + captured.1 + "</a>")
  }

  /** `/\x1B\[((?:\d+|;)+?)m/g` at `i`: the end of the sequence and its parameter list. */
  function SgrCodesAt(s: string, i: nat): (r: Option<(nat, string)>)
    ensures r.Some? ==> i < r.value.0 <= |s| && r.value.1 != []
    ensures r.Some? ==> forall k :: 0 <= k < |r.value.1| ==> IsCodeChar(r.value.1[k])
  {
    if i + 2 <= |s| && s[i] == ESC && s[i + 1] == '[' then
      var d := CodeRun(s[i + 2..]);
      if d > 0 && i + 2 + d < |s| && s[i + 2 + d] == 'm' then
        Some((i + 3 + d, s[i + 2..i + 2 + d]))
      else None
    else None
  }

  /** `t.repeat(k)`. */
  function Repeat(t: string, k: nat): (r: string)
    ensures |r| == k * |t|
  {
    if k == 0 then [] else t + Repeat(t, k - 1)
  }

  /** Repeating `a + b` times is repeating `a` times, then `b` times. */
  lemma {:induction false} RepeatAdd(t: string, a: nat, b: nat)
    ensures Repeat(t, a + b) == Repeat(t, a) + Repeat(t, b)
    decreases a
  {
    if a > 0 {
      RepeatAdd(t, a - 1, b);
      ConcatAssoc(t, Repeat(t, a - 1), Repeat(t, b));
    }
  }

  /**
   * The opening tag for a parameter list other than a reset: for `38;5...`, an inline
   * colour for the 16 named colours and a 256-colour class otherwise; for other lists,
   * one class per code.
   */
  function OpeningTag(numbers: string): string {
    var codes := Split(numbers, ';');
    if StartsWith(numbers, "38;5") then ColorSpan(NumberOf(codes[|codes| - 1]))
    else ClassSpan(StyleClasses(codes))
  }

  /** An inline colour for the 16 named colours, a 256-colour class for the rest. */
  function ColorSpan(n: nat): string {
    if n < |Colors| then "<span style=\"color: " + Colors[n] + "\">"
    else "<span class=\"ansi-256-foreground-" + NatToString(n) + "\">"
  }

  function ClassSpan(classes: seq<string>): string {
    "<span class=\"" + Join(classes, " ") + "\">"
  }

  /** `38;5;n` gives an inline colour for n below 16 and the 256-colour class otherwise. */
  lemma ColorTag(n: nat)
    ensures OpeningTag("38;5;" + NatToString(n))
      == if n < 16 then "<span style=\"color: " + Colors[n] + "\">"
         else "<span class=\"ansi-256-foreground-" + NatToString(n) + "\">"
  {
    var d := NatToString(n);
    forall k | 0 <= k < |d|
      ensures d[k] != ';'
    {
      assert IsDigit(d[k]);
    }
    assert "38;5;" + d == "38" + [';'] + "5" + [';'] + d;
    SplitThree("38", "5", d, ';');
    assert StartsWith("38;5;" + d, "38;5");
    DigitsValueOfNatToString(n);
  }

  /** Any other list of codes gives one class per code, bold to blink for 1 to 5, in order. */
  lemma StyleTag(numbers: string, codes: seq<string>)
    requires |codes| >= 1 && numbers == Join(codes, ";") && !StartsWith(numbers, "38;5")
    requires forall k :: 0 <= k < |codes| ==> ';' !in codes[k]
    ensures OpeningTag(numbers) == ClassSpan(StyleClasses(codes))
  {
    SplitJoin(codes, ';');
    StyleOpening(numbers, codes);
  }

  lemma StyleOpening(numbers: string, codes: seq<string>)
    requires !StartsWith(numbers, "38;5") && Split(numbers, ';') == codes
    ensures OpeningTag(numbers) == ClassSpan(StyleClasses(codes))
  {
  }

  /** `openingTags` after the parameter lists `seen`: a reset sets it to 0, any other list adds one. */
  function OpenCount(seen: seq<string>): nat {
    if seen == [] then 0
    else if seen[|seen| - 1] == "0" then 0
    else OpenCount(seen[..|seen| - 1]) + 1
  }

  /** The count is the number of lists since the last reset: one span opened for each. */
  lemma {:induction false} OpenCountSinceReset(seen: seq<string>)
    ensures OpenCount(seen) == |seen| - LastReset(seen)
    decreases |seen|
  {
    if seen != [] && seen[|seen| - 1] != "0" {
      OpenCountSinceReset(seen[..|seen| - 1]);
    }
  }

  /** The HTML one SGR sequence stands for, when `open` spans are open before it. */
  function SgrHtml(numbers: string, open: nat): string {
    if numbers == "0" then Repeat("</span>", open) else OpeningTag(numbers)
  }

  /**
   * A reset closes exactly the spans opened since the previous reset (or the start):
   * one `</span>` for each parameter list met since then.
   */
  lemma ResetClosesOpened(seen: seq<string>)
    ensures SgrHtml("0", OpenCount(seen)) == Repeat("</span>", |seen| - LastReset(seen))
    ensures |SgrHtml("0", OpenCount(seen))| == 7 * (|seen| - LastReset(seen))
  {
    OpenCountSinceReset(seen);
  }

  /** The SGR pass from `i`, with the parameter lists `seen` already met. */
  function SgrHtmlFrom(s: string, i: nat, seen: seq<string>, next: nat): (string, seq<string>)
    requires i <= |s|
    decreases |s| - i
  {
    if i == |s| then ([], [])
    else match SgrCodesAt(s, i)
      case Some((e, numbers)) =>
        var rest := SgrHtmlFrom(s, e, seen + [numbers], next + 1);
        (Mark(next) + rest.0, [SgrHtml(numbers, OpenCount(seen))] + rest.1)
      case None =>
        var rest := SgrHtmlFrom(s, i + 1, seen, next);
        ([s[i]] + rest.0, rest.1)
  }

  /** `replaceAnsi(text, getReplacement)`: links, then SGR sequences. */
  function AnsiHtml(text: string, next: nat): (r: (string, seq<string>))
    ensures ESC !in text ==> r == (text, [])
  {
    var links := ScanFrom(text, 0, LinkAt, LinkHtml, next);
    var sgr := SgrHtmlFrom(links.0, 0, [], next + |links.1|);
    assert ESC !in text ==> (sgr.0, links.1 + sgr.1) == (text, []) by {
      if ESC !in text {
        AnsiScansWithoutEscape(text, next);
        var none: seq<string> := [];
        assert none + none == none;
      }
    }
    (sgr.0, links.1 + sgr.1)
  }

  /** The SGR replacement with its `openingTags` counter. */
  method ReplaceSgr(r: HtmlReplacer, s: string) returns (out: string)
    requires r.Valid()
    modifies r
    ensures r.Valid()
    ensures out == SgrHtmlFrom(s, 0, [], old(r.ident)).0
    ensures r.recorded == old(r.recorded) + SgrHtmlFrom(s, 0, [], old(r.ident)).1
  {
    ghost var r0 := r.recorded;
    ghost var total := SgrHtmlFrom(s, 0, [], r.ident);
    ghost var issued: seq<string> := [];
    ghost var seen: seq<string> := [];
    var openingTags: nat := 0;
    out := [];
    var i := 0;
    ghost var rest := total;
    assert [] + total.0 == total.0 && [] + total.1 == total.1;
    while i < |s|
      invariant i <= |s| && r.Valid() && r.recorded == r0 + issued
      invariant openingTags == OpenCount(seen)
      invariant rest == SgrHtmlFrom(s, i, seen, r.ident)
      invariant out + rest.0 == total.0 && issued + rest.1 == total.1
      decreases |s| - i
    {
      var piece, e;
      ghost var added;
      piece, e, openingTags, seen, added := SgrStep(r, s, i, openingTags, seen);
      rest := SgrHtmlFrom(s, e, seen, r.ident);
      ConcatAssoc(out, piece, rest.0);
      ConcatAssoc(issued, added, rest.1);
      ConcatAssoc(r0, issued, added);
      out, issued, i := out + piece, issued + added, e;
    }
    assert rest == ([], []);
    assert out + [] == out && issued + [] == issued;
  }

  /**
   * One step of that scan: a reset records `openingTags` closing tags and zeroes the
   * counter, any other sequence records one opening tag and adds one to it.
   */
  method SgrStep(r: HtmlReplacer, s: string, i: nat, openingTags: nat, ghost seen: seq<string>)
    returns (piece: string, e: nat, openingTags': nat, ghost seen': seq<string>, ghost added: seq<string>)
    requires r.Valid() && i < |s| && openingTags == OpenCount(seen)
    modifies r
    ensures r.Valid() && i < e <= |s| && r.recorded == old(r.recorded) + added
    ensures openingTags' == OpenCount(seen')
    ensures SgrHtmlFrom(s, i, seen, old(r.ident))
      == (piece + SgrHtmlFrom(s, e, seen', r.ident).0, added + SgrHtmlFrom(s, e, seen', r.ident).1)
  {
    var n := r.ident;
    match SgrCodesAt(s, i)
    case Some((end, numbers)) =>
      e, seen' := end, seen + [numbers];
      var html;
      if numbers == "0" {
        html := Repeat("</span>", openingTags);
        openingTags' := 0;
      } else {
        openingTags' := openingTags + 1;
        html := OpeningTag(numbers);
      }
      piece := r.GetReplacement(html);
      added := [html];
    case None =>
      piece, e, openingTags', seen', added := [s[i]], i + 1, openingTags, seen, [];
      assert added + SgrHtmlFrom(s, e, seen', n).1 == SgrHtmlFrom(s, e, seen', n).1;
  }

  method ReplaceAnsi(r: HtmlReplacer, text: string) returns (out: string)
    requires r.Valid()
    modifies r
    ensures r.Valid()
    ensures out == AnsiHtml(text, old(r.ident)).0 && r.recorded == old(r.recorded) + AnsiHtml(text, old(r.ident)).1
  {
    ghost var n0, r0 := r.ident, r.recorded;
    var links := r.Replace(text, LinkAt, LinkHtml);
    ghost var issued := r.recorded[|r0|..];
    assert r.recorded == r0 + issued;
    out := ReplaceSgr(r, links);
    ConcatAssoc(r0, issued, SgrHtmlFrom(links, 0, [], n0 + |issued|).1);
  }

  // ----- Numbers -----

  /** `(?: |,|\n|$)` at `f`, where `$` is the end of the text. */
  function NumberEndAt(s: string, f: nat): (r: Option<nat>)
    ensures r.Some? ==> f <= r.value <= |s|
  {
    if f < |s| && (s[f] == ' ' || s[f] == ',' || s[f] == '\n') then Some(f + 1)
    else if f == |s| then Some(f)
    else None
  }

  /**
   * `/ \$?(?:-|\+)?\d+(?:\.\d+)?(?: |,|\n|$)/g` at `i`.  A `$` or a sign is taken when
   * it is there (without it the digits could not start); a fraction that is not
   * followed by an end character leaves none after the integer part either.
   */
  function NumberAt(s: string, i: nat): (r: Option<(nat, NoGroups)>)
    ensures r.Some? ==> i + 2 <= r.value.0 <= |s| && s[i] == ' '
  {
    if i + 1 < |s| && s[i] == ' ' then
      var j := if s[i + 1] == '$' then i + 2 else i + 1;
      var q := if j < |s| && (s[j] == '-' || s[j] == '+') then j + 1 else j;
      var d := Run(s, q, IsDigit);
      if d == q then None
      else
        var f := if d + 1 < |s| && s[d] == '.' && IsDigit(s[d + 1]) then Run(s, d + 1, IsDigit) else d;
        match NumberEndAt(s, f)
        case Some(e) => Some((e, ()))
        case None => None
    else None
  }

  /** A match that starts with ` $` is kept as it is. */
  function NumberHtml(m: string, u: NoGroups): Option<string> {
    if StartsWith(m, " $") then None else Some("<span class=\"number\">" + m + "</span>")
  }

  /** A placeholder after a space is no number: its digits end at `;`. */
  lemma MarkIsNoNumber(n: nat, rest: string)
    ensures NumberAt(" " + Mark(n) + rest, 0).None?
  {
    var s := " " + Mark(n) + rest;
    var p := Mark(n);
    assert s[1] == '$' && s[2] == p[1];
    assert IsDigit(s[2]);
    var d := Run(s, 2, IsDigit);
    forall k | 2 <= k < |p| ensures IsDigit(s[k]) {
      assert s[k] == p[k - 1];
      assert p[k - 1] == p[1..|p| - 1][k - 2];
    }
    assert s[|p|] == ';';
    assert d == |p|;
  }

  /** A number candidate that starts with ` $` stays unwrapped. */
  lemma DollarNumberKept(s: string, i: nat)
    requires NumberAt(s, i).Some? && s[i + 1] == '$'
    ensures NumberHtml(s[i..NumberAt(s, i).value.0], ()).None?
  {
    assert s[i..NumberAt(s, i).value.0][..2] == " $";
  }

  // ----- The rest of the chain -----

  /** The recognisers of the passes that are parameters of this model. */
  datatype LegacyRecognizers = LegacyRecognizers(
    /** `\d+[-\/]\d+[-\/]\d+ \d+:\d+:\d+(?:[\.,]\d+)?` */
    date: (string, nat) -> Option<(nat, NoGroups)>,
    /** `new Date(m)` is a valid date whose `toISOString()` is `m` */
    isIsoDate: string -> bool,
    /** `(\S+?)=(\S+)`, with its key and value groups */
    keyValue: (string, nat) -> Option<(nat, (string, string))>,
    /** `\[[^\[\]]+\]|^warn\b|^info\b|^error\b` with the `g` and `i` flags */
    tag: (string, nat) -> Option<(nat, NoGroups)>,
    /** `[a-z]+:\/\/[\w\.]+(?::\d+)?` */
    url: (string, nat) -> Option<(nat, NoGroups)>,
    /** `(?:[\/\w]+)?[\w.]+:\d+` */
    file: (string, nat) -> Option<(nat, NoGroups)>,
    /** `"[^"]*?"` */
    quoted: (string, nat) -> Option<(nat, NoGroups)>,
    /** `\b\d+\.\d+\.\d+\.\d+\b` */
    ip: (string, nat) -> Option<(nat, NoGroups)>,
    /** `\berror\b|\bfail(?:ure|ed)\b` with the `g` and `i` flags */
    error: (string, nat) -> Option<(nat, NoGroups)>)

  function SpanHtml(className: string, m: string): string {
    "<span class=\"" + className + "\">" + m + "</span>"
  }

  function DateHtml(m: string, u: NoGroups): Option<string> {
    Some(SpanHtml("date", m))
  }

  function IsoDateHtml(isIsoDate: string -> bool): (string, NoGroups) -> Option<string> {
    (m: string, u: NoGroups) => if isIsoDate(m) then Some(SpanHtml("date", m)) else None
  }

  function KeyValueHtml(m: string, groups: (string, string)): Option<string> {
    Some(SpanHtml("key", groups.0) + "=" + SpanHtml("value", groups.1))
  }

  function TagHtml(m: string, u: NoGroups): Option<string> {
    Some(SpanHtml("tag", m))
  }

  function UrlHtml(m: string, u: NoGroups): Option<string> {
    Some("<a class=\"url\" href=\"" + m + "\">" + m + "</a>")
  }

  function FileHtml(m: string, u: NoGroups): Option<string> {
    Some(SpanHtml("file", m))
  }

  function StringHtml(m: string, u: NoGroups): Option<string> {
    Some(SpanHtml("string", m))
  }

  function IpHtml(m: string, u: NoGroups): Option<string> {
    Some(SpanHtml("ip", m))
  }

  function ErrorHtml(m: string, u: NoGroups): Option<string> {
    Some(SpanHtml("error", m))
  }

  type HtmlState = (string, seq<string>)

  function Pass<T>(st: HtmlState, find: (string, nat) -> Option<(nat, T)>,
                   build: (string, T) -> Option<string>): (r: HtmlState)
    ensures |st.1| <= |r.1| && r.1[..|st.1|] == st.1
  {
    var p := ScanFrom(st.0, 0, find, build, |st.1|);
    (p.0, st.1 + p.1)
  }

  /** `replaceDate`. */
  function DateStage(st: HtmlState, rs: LegacyRecognizers): HtmlState {
    Pass(Pass(st, rs.date, DateHtml), NonSpaceAt, IsoDateHtml(rs.isIsoDate))
  }

  /** The passes written out in `highlightText`, in their order. */
  function TokenStage(st: HtmlState, rs: LegacyRecognizers): HtmlState {
    var kv := Pass(st, rs.keyValue, KeyValueHtml);
    var tag := Pass(kv, rs.tag, TagHtml);
    var url := Pass(tag, rs.url, UrlHtml);
    var file := Pass(url, rs.file, FileHtml);
    var quoted := Pass(file, rs.quoted, StringHtml);
    var number := Pass(quoted, NumberAt, NumberHtml);
    var ip := Pass(number, rs.ip, IpHtml);
    Pass(ip, rs.error, ErrorHtml)
  }

  /** All passes over `text`. */
  function LegacyPasses(text: string, rs: LegacyRecognizers): HtmlState {
    TokenStage(DateStage(AnsiHtml(text, 0), rs), rs)
  }

  // ----- Putting the HTML back -----

  /** `/\$\d+;/` at the start of `s`: the length of the match. */
  function MarkAt(s: string): (r: Option<nat>)
    ensures r.Some? ==> 3 <= r.value <= |s| && s[0] == '$' && s[r.value - 1] == ';'
    ensures r.Some? ==> AllDigits(s[1..r.value - 1])
  {
    if s != [] && s[0] == '$' then
      var d := Run(s, 1, IsDigit);
      if d > 1 && d < |s| && s[d] == ';' then
        assert AllDigits(s[1..d]);
        Some(d + 1)
      else None
    else None
  }

  /** `map.get(token)`: the HTML recorded for a placeholder that was handed out. */
  function MapGet(recorded: seq<string>, token: string): (r: Option<string>)
    requires |token| >= 3 && AllDigits(token[1..|token| - 1])
    ensures r.Some? ==> exists k :: 0 <= k < |recorded| && token[1..|token| - 1] == NatToString(k) && r.value == recorded[k]
  {
    var k := DigitsValue(token[1..|token| - 1]);
    if NatToString(k) == token[1..|token| - 1] && k < |recorded| then Some(recorded[k]) else None
  }

  /**
   * `s.replace(/\$\d+;/g, m => map.get(m))` with `fallback(m)` standing for what an
   * unknown token becomes.
   */
  function ExpandMarks(s: string, recorded: seq<string>, fallback: string -> string): string
    decreases |s|
  {
    if s == [] then []
    else match MarkAt(s)
      case Some(e) =>
        (match MapGet(recorded, s[..e]) case Some(html) => html case None => fallback(s[..e]))
        + ExpandMarks(s[e..], recorded, fallback)
      case None => [s[0]] + ExpandMarks(s[1..], recorded, fallback)
  }

  /** As written: `map.get` of an unknown token is `undefined`, which `replace` prints. */
  function Undefined(m: string): string {
    "undefined"
  }

  /** Corrected: a token no replacement handed out stays as it is. */
  function Unchanged(m: string): string {
    m
  }

  /** Each placeholder handed out is replaced by the HTML recorded for it. */
  lemma ExpandMark(k: nat, rest: string, recorded: seq<string>, fallback: string -> string)
    requires k < |recorded|
    ensures ExpandMarks(Mark(k) + rest, recorded, fallback) == recorded[k] + ExpandMarks(rest, recorded, fallback)
  {
    var s := Mark(k) + rest;
    var p := Mark(k);
    var d := Run(s, 1, IsDigit);
    forall j | 1 <= j < |p| - 1 ensures IsDigit(s[j]) {
      assert s[j] == p[1..|p| - 1][j - 1];
    }
    assert s[|p| - 1] == ';';
    assert d == |p| - 1;
    assert MarkAt(s) == Some(|p|);
    assert s[..|p|] == p && s[|p|..] == rest;
    DigitsValueOfNatToString(k);
  }

  /** A character that starts no placeholder is copied. */
  lemma ExpandPlain(c: char, rest: string, recorded: seq<string>, fallback: string -> string)
    requires c != '$'
    ensures ExpandMarks([c] + rest, recorded, fallback) == [c] + ExpandMarks(rest, recorded, fallback)
  {
    assert ([c] + rest)[1..] == rest;
  }

  /**
   * The last step as written: the text `$0;` in a log line with nothing recorded
   * comes out as `undefined`.
   */
  lemma RawMarkAsWritten()
    ensures ExpandMarks("$0;", [], Undefined) == "undefined"
  {
    assert MarkAt("$0;") == Some(3) by {
      assert Run("$0;", 2, IsDigit) == 2;
      assert Run("$0;", 1, IsDigit) == 2;
    }
    assert "$0;"[..3] == "$0;" && "$0;"[3..] == [];
  }

  /** Corrected, the same text comes out unchanged. */
  lemma RawMarkCorrected()
    ensures ExpandMarks("$0;", [], Unchanged) == "$0;"
  {
    assert MarkAt("$0;") == Some(3) by {
      assert Run("$0;", 2, IsDigit) == 2;
      assert Run("$0;", 1, IsDigit) == 2;
    }
    assert "$0;"[..3] == "$0;" && "$0;"[3..] == [];
  }

  /** Corrected, any token no replacement handed out stays as it is. */
  lemma UnknownMarkKept(s: string, recorded: seq<string>)
    requires MarkAt(s).Some? && MapGet(recorded, s[..MarkAt(s).value]).None?
    ensures var e := MarkAt(s).value;
      ExpandMarks(s, recorded, Unchanged) == s[..e] + ExpandMarks(s[e..], recorded, Unchanged)
  {
  }

  /** Text without `$` holds no placeholder, so putting the HTML back leaves it as it is. */
  lemma {:induction false} ExpandWithoutMarks(s: string, recorded: seq<string>, fallback: string -> string)
    requires '$' !in s
    ensures ExpandMarks(s, recorded, fallback) == s
    decreases |s|
  {
    if s != [] {
      assert MarkAt(s).None?;
      ExpandWithoutMarks(s[1..], recorded, fallback);
      assert s == [s[0]] + s[1..];
    }
  }

  /**
   * The HTML of a line: all passes, then the placeholders replaced, unknown ones kept.
   * When the passes leave no `$`, nothing is put back.
   */
  function HighlightHtml(text: string, rs: LegacyRecognizers): (r: string)
    ensures '$' !in LegacyPasses(text, rs).0 ==> r == LegacyPasses(text, rs).0
  {
    var st := LegacyPasses(text, rs);
    assert '$' !in st.0 ==> ExpandMarks(st.0, st.1, Unchanged) == st.0 by {
      if '$' !in st.0 {
        ExpandWithoutMarks(st.0, st.1, Unchanged);
      }
    }
    ExpandMarks(st.0, st.1, Unchanged)
  }

  /** The same, with the last step as written; it agrees with the corrected one on text without `$`. */
  function HighlightHtmlAsWritten(text: string, rs: LegacyRecognizers): (r: string)
    ensures '$' !in LegacyPasses(text, rs).0 ==> r == LegacyPasses(text, rs).0
  {
    var st := LegacyPasses(text, rs);
    assert '$' !in st.0 ==> ExpandMarks(st.0, st.1, Undefined) == st.0 by {
      if '$' !in st.0 {
        ExpandWithoutMarks(st.0, st.1, Undefined);
      }
    }
    ExpandMarks(st.0, st.1, Undefined)
  }

  /** The recognisers given as parameters find nothing in `s`, and `s` is no ISO date. */
  predicate QuietOn(rs: LegacyRecognizers, s: string) {
    !rs.isIsoDate(s)
    && forall j | 0 <= j < |s| ::
      !MatchesAt(rs.date, s, j) && !MatchesAt(rs.keyValue, s, j) && !MatchesAt(rs.tag, s, j)
      && !MatchesAt(rs.url, s, j) && !MatchesAt(rs.file, s, j) && !MatchesAt(rs.quoted, s, j)
      && !MatchesAt(rs.ip, s, j) && !MatchesAt(rs.error, s, j)
  }

  /** Text without an escape character has no SGR sequence. */
  lemma {:induction false} SgrWithoutEscape(s: string, i: nat, seen: seq<string>, next: nat)
    requires i <= |s| && ESC !in s
    ensures SgrHtmlFrom(s, i, seen, next) == (s[i..], [])
    decreases |s| - i
  {
    if i < |s| {
      assert SgrCodesAt(s, i).None? by {
        assert s[i] != ESC;
      }
      SgrWithoutEscape(s, i + 1, seen, next);
      assert SgrHtmlFrom(s, i, seen, next)
        == ([s[i]] + SgrHtmlFrom(s, i + 1, seen, next).0, SgrHtmlFrom(s, i + 1, seen, next).1);
      assert s[i..] == [s[i]] + s[i + 1..];
    } else {
      assert s[i..] == [];
    }
  }

  /** Text without an escape character goes through the link scan and the SGR scan unchanged. */
  lemma AnsiScansWithoutEscape(s: string, next: nat)
    requires ESC !in s
    ensures ScanFrom(s, 0, LinkAt, LinkHtml, next) == (s, [])
    ensures SgrHtmlFrom(s, 0, [], next) == (s, [])
  {
    forall j | 0 <= j < |s|
      ensures !MatchesAt(LinkAt, s, j)
    {
      if j + 5 < |s| {
        assert s[j..j + 5][0] == s[j] != ESC;
      }
    }
    ScanNoMatch(s, 0, LinkAt, LinkHtml, next);
    assert s[0..] == s;
    SgrWithoutEscape(s, 0, [], next);
  }

  /** Every pass keeps `$0;` as it is, when the recognisers given as parameters are quiet on it. */
  lemma PassesKeepRawMark(rs: LegacyRecognizers)
    requires QuietOn(rs, "$0;")
    ensures LegacyPasses("$0;", rs) == ("$0;", [])
  {
    DateKeepsRawMark(rs);
    TokensKeepRawMark(rs);
  }

  /** The date passes leave the text `$0;` as it is. */
  lemma DateKeepsRawMark(rs: LegacyRecognizers)
    requires QuietOn(rs, "$0;")
    ensures DateStage(("$0;", []), rs) == ("$0;", [])
  {
    var s := "$0;";
    var none: seq<string> := [];
    assert none + none == none;
    ScanNoMatch(s, 0, rs.date, DateHtml, 0);
    assert Run(s, 3, IsNonSpace) == 3;
    assert Run(s, 0, IsNonSpace) == 3;
    assert NonSpaceAt(s, 0) == Some((3, ()));
    assert s[0..3] == s;
    ScanKeeps(s, 0, NonSpaceAt, IsoDateHtml(rs.isIsoDate), 0);
    assert s + [] == s;
  }

  /** The token passes leave the text `$0;` as it is. */
  lemma TokensKeepRawMark(rs: LegacyRecognizers)
    requires QuietOn(rs, "$0;")
    ensures TokenStage(("$0;", []), rs) == ("$0;", [])
  {
    var s := "$0;";
    var none: seq<string> := [];
    assert none + none == none;
    ScanNoMatch(s, 0, rs.keyValue, KeyValueHtml, 0);
    ScanNoMatch(s, 0, rs.tag, TagHtml, 0);
    ScanNoMatch(s, 0, rs.url, UrlHtml, 0);
    ScanNoMatch(s, 0, rs.file, FileHtml, 0);
    ScanNoMatch(s, 0, rs.quoted, StringHtml, 0);
    forall j | 0 <= j < |s|
      ensures !MatchesAt(NumberAt, s, j)
    {
      assert s[j] != ' ';
    }
    ScanNoMatch(s, 0, NumberAt, NumberHtml, 0);
    ScanNoMatch(s, 0, rs.ip, IpHtml, 0);
    ScanNoMatch(s, 0, rs.error, ErrorHtml, 0);
  }

  /** As written, a line holding the text `$0;` is shown as `undefined`. */
  lemma RawMarkLineAsWritten(rs: LegacyRecognizers)
    requires QuietOn(rs, "$0;")
    ensures HighlightHtmlAsWritten("$0;", rs) == "undefined"
  {
    PassesKeepRawMark(rs);
    RawMarkAsWritten();
  }

  /** Corrected, the same line is shown as it is. */
  lemma RawMarkLineCorrected(rs: LegacyRecognizers)
    requires QuietOn(rs, "$0;")
    ensures HighlightHtml("$0;", rs) == "$0;"
  {
    PassesKeepRawMark(rs);
    RawMarkCorrected();
  }

  method ReplaceDate(r: HtmlReplacer, text: string, rs: LegacyRecognizers) returns (out: string)
    requires r.Valid()
    modifies r
    ensures r.Valid() && (out, r.recorded) == DateStage((text, old(r.recorded)), rs)
  {
    out := r.Replace(text, rs.date, DateHtml);
    out := r.Replace(out, NonSpaceAt, IsoDateHtml(rs.isIsoDate));
  }

  method ReplaceTokens(r: HtmlReplacer, text: string, rs: LegacyRecognizers) returns (out: string)
    requires r.Valid()
    modifies r
    ensures r.Valid() && (out, r.recorded) == TokenStage((text, old(r.recorded)), rs)
  {
    out := r.Replace(text, rs.keyValue, KeyValueHtml);
    out := r.Replace(out, rs.tag, TagHtml);
    out := r.Replace(out, rs.url, UrlHtml);
    out := r.Replace(out, rs.file, FileHtml);
    out := r.Replace(out, rs.quoted, StringHtml);
    out := r.Replace(out, NumberAt, NumberHtml);
    out := r.Replace(out, rs.ip, IpHtml);
    out := r.Replace(out, rs.error, ErrorHtml);
  }

  /** `highlightText(text)`, with unknown tokens kept by the last step. */
  method HighlightText(text: string, rs: LegacyRecognizers) returns (html: string)
    ensures html == HighlightHtml(text, rs)
  {
    var rep := new HtmlReplacer();
    var modified := ReplaceAnsi(rep, text);
    ghost var st: HtmlState := AnsiHtml(text, 0);
    assert [] + st.1 == st.1;
    modified := ReplaceDate(rep, modified, rs);
    st := DateStage(st, rs);
    modified := ReplaceTokens(rep, modified, rs);
    st := TokenStage(st, rs);
    html := ExpandMarks(modified, rep.recorded, Unchanged);
  }
}

=== FILE: log_store.dfy ===
/**
 * The log store: the append-only list of received log lines, the optional list of
 * positions that pass the current filter, and a first-in-first-out cache of highlighted
 * lines keyed by log id.
 *
 * Highlighting (the worker round trip and the building of DOM nodes) is the store's
 * `highlight` function; it is fixed for the life of the store.
 */
module LogStores {
  import opened Wrappers
  import opened Text
  import opened Elements

  /** One line read from standard input, as the server sends it. */
  datatype CliInput = CliInput(input: string, date: int, id: string)

  /** A highlighted line: its nodes, the `class:text` tags found in them, and the raw text. */
  datatype HighlightedLog = HighlightedLog(elements: seq<Node>, tags: seq<string>, textContent: string)

  // ----- extractTags -----

  /** One `class:text` entry per class name. */
  function ClassTags(classes: seq<string>, text: string): seq<string> {
    if classes == [] then [] else [classes[0] + ":" + text] + ClassTags(classes[1..], text)
  }

  /** The tags a node contributes itself: one per class of a span with a class name. */
  function OwnTags(n: Node): seq<string> {
    if n.Element? && n.name == "span" && n.className != "" then
      ClassTags(Split(n.className, ' '), TextContent(n))
    else []
  }

  /** Tags of a list of nodes, visiting each element before its children. */
  function TagsOf(ns: seq<Node>): seq<string> {
    if ns == [] then [] else NodeTags(ns[0]) + TagsOf(ns[1..])
  }

  function NodeTags(n: Node): seq<string> {
    match n
    case Text(_) => []
    case Element(_, _, _, _, cs) => OwnTags(n) + TagsOf(cs)
  }

  /** The nodes of a forest in pre-order: each element, then its descendants. */
  function PreOrder(ns: seq<Node>): seq<Node> {
    if ns == [] then [] else NodePreOrder(ns[0]) + PreOrder(ns[1..])
  }

  function NodePreOrder(n: Node): seq<Node> {
    match n
    case Text(_) => [n]
    case Element(_, _, _, _, cs) => [n] + PreOrder(cs)
  }

  function OwnTagsAll(ns: seq<Node>): seq<string> {
    if ns == [] then [] else OwnTags(ns[0]) + OwnTagsAll(ns[1..])
  }

  lemma {:induction false} OwnTagsAllAppend(a: seq<Node>, b: seq<Node>)
    ensures OwnTagsAll(a + b) == OwnTagsAll(a) + OwnTagsAll(b)
    decreases |a|
  {
    if a == [] {
      assert a + b == b;
    } else {
      var ab := a + b;
      assert ab[0] == a[0] && ab[1..] == a[1..] + b;
      OwnTagsAllAppend(a[1..], b);
      calc {
        OwnTagsAll(ab);
        OwnTags(a[0]) + OwnTagsAll(a[1..] + b);
        OwnTags(a[0]) + (OwnTagsAll(a[1..]) + OwnTagsAll(b));
        (OwnTags(a[0]) + OwnTagsAll(a[1..])) + OwnTagsAll(b);
      }
    }
  }

  lemma {:induction false} TagsOfAppend(a: seq<Node>, b: seq<Node>)
    ensures TagsOf(a + b) == TagsOf(a) + TagsOf(b)
    decreases |a|
  {
    if a == [] {
      assert a + b == b;
    } else {
      var ab := a + b;
      assert ab[0] == a[0] && ab[1..] == a[1..] + b;
      TagsOfAppend(a[1..], b);
      calc {
        TagsOf(ab);
        NodeTags(a[0]) + TagsOf(a[1..] + b);
        NodeTags(a[0]) + (TagsOf(a[1..]) + TagsOf(b));
        (NodeTags(a[0]) + TagsOf(a[1..])) + TagsOf(b);
      }
    }
  }

  /**
   * The tags of a forest are the own tags of its nodes taken in pre-order: a reference
   * definition of the recursive walk.
   */
  lemma {:induction false} TagsOfIsPreOrder(ns: seq<Node>)
    ensures TagsOf(ns) == OwnTagsAll(PreOrder(ns))
    decreases ns
  {
    if ns != [] {
      NodeTagsIsPreOrder(ns[0]);
      TagsOfIsPreOrder(ns[1..]);
      OwnTagsAllAppend(NodePreOrder(ns[0]), PreOrder(ns[1..]));
    }
  }

  lemma {:induction false} NodeTagsIsPreOrder(n: Node)
    ensures NodeTags(n) == OwnTagsAll(NodePreOrder(n))
    decreases n
  {
    match n
    case Text(_) =>
      assert OwnTagsAll([n]) == OwnTags(n) + OwnTagsAll([]);
    case Element(_, _, _, _, cs) =>
      TagsOfIsPreOrder(cs);
      OwnTagsAllAppend([n], PreOrder(cs));
      assert OwnTagsAll([n]) == OwnTags(n) + OwnTagsAll([]);
  }

  /** A span with one class name yields exactly one tag, pairing the class with its text. */
  lemma SpanTag(className: string, text: string)
    requires className != "" && ' ' !in className
    ensures TagsOf([Span(className, text)]) == [className + ":" + text]
  {
    var n := Span(className, text);
    assert Split(className, ' ') == [className];
    assert TextContent(n) == text;
    assert ClassTags([className], text) == [className + ":" + text] + ClassTags([], text);
    assert NodeTags(n) == OwnTags(n) + TagsOf([]);
    assert TagsOf([n]) == NodeTags(n) + TagsOf([]);
  }

  /** Number of nodes in a tree and in a forest: the measure that bounds the walk. */
  function Size(n: Node): nat {
    match n
    case Text(_) => 1
    case Element(_, _, _, _, cs) => 1 + SizeAll(cs)
  }

  function SizeAll(ns: seq<Node>): nat {
    if ns == [] then 0 else Size(ns[0]) + SizeAll(ns[1..])
  }

  lemma {:induction false} SizeAllBounds(ns: seq<Node>, i: nat)
    requires i < |ns|
    ensures Size(ns[i]) <= SizeAll(ns)
    decreases i
  {
    if i > 0 {
      SizeAllBounds(ns[1..], i - 1);
    }
  }

  /** `extractTags`: the recursive walk, pushing onto one list. */
  method ExtractTags(elements: seq<Node>) returns (tags: seq<string>)
    ensures tags == TagsOf(elements)
  {
    tags := Traverse(elements, []);
  }

  /** `traverse`: visits the nodes in order. */
  method Traverse(nodes: seq<Node>, acc: seq<string>) returns (tags: seq<string>)
    ensures tags == acc + TagsOf(nodes)
    decreases SizeAll(nodes), 1
  {
    tags := acc;
    var i := 0;
    while i < |nodes|
      invariant i <= |nodes|
      invariant tags == acc + TagsOf(nodes[..i])
    {
      SizeAllBounds(nodes, i);
      TraverseStep(nodes, i, acc);
      tags := Visit(nodes[i], tags);
      i := i + 1;
    }
    assert nodes[..i] == nodes;
  }

  /** One step of `traverse`: a span's own tags, then its element children. */
  method Visit(node: Node, acc: seq<string>) returns (tags: seq<string>)
    ensures tags == acc + NodeTags(node)
    decreases Size(node), 0
  {
    if node.Text? {
      assert NodeTags(node) == [];
      return acc;
    }
    var own := acc;
    if node.name == "span" && node.className != "" {
      var classes := Split(node.className, ' ');
      var text := TextContent(node);
      own := PushClassTags(acc, classes, text);
      assert OwnTags(node) == ClassTags(classes, text);
    } else {
      assert OwnTags(node) == [];
    }
    tags := own;
    if |node.children| > 0 {
      tags := Traverse(node.children, own);
    }
    assert tags == own + TagsOf(node.children);
    NodeTagsElement(node);
  }

  lemma NodeTagsElement(node: Node)
    requires node.Element?
    ensures NodeTags(node) == OwnTags(node) + TagsOf(node.children)
  {
  }

  lemma TraverseStep(nodes: seq<Node>, i: nat, acc: seq<string>)
    requires i < |nodes|
    ensures acc + TagsOf(nodes[..i]) + NodeTags(nodes[i]) == acc + TagsOf(nodes[..i + 1])
  {
    TagsOfSnoc(nodes, i);
  }

  lemma TagsOfSnoc(nodes: seq<Node>, i: nat)
    requires i < |nodes|
    ensures TagsOf(nodes[..i + 1]) == TagsOf(nodes[..i]) + NodeTags(nodes[i])
  {
    TagsOfAppend(nodes[..i], [nodes[i]]);
    assert nodes[..i + 1] == nodes[..i] + [nodes[i]];
    assert TagsOf([nodes[i]]) == NodeTags(nodes[i]) + TagsOf([]);
  }

  /** The inner loop of the walk: one `class:text` entry per class, in order. */
  method PushClassTags(acc: seq<string>, classes: seq<string>, text: string) returns (tags: seq<string>)
    ensures tags == acc + ClassTags(classes, text)
  {
    tags := acc;
    var k := 0;
    while k < |classes|
      invariant k <= |classes|
      invariant tags == acc + ClassTags(classes[..k], text)
    {
      ClassTagsAppend(classes[..k], classes[k], text);
      assert classes[..k + 1] == classes[..k] + [classes[k]];
      tags := tags + [classes[k] + ":" + text];
      k := k + 1;
    }
    assert classes[..k] == classes;
  }

  lemma {:induction false} ClassTagsAppend(classes: seq<string>, c: string, text: string)
    ensures ClassTags(classes + [c], text) == ClassTags(classes, text) + [c + ":" + text]
    decreases |classes|
  {
    if classes == [] {
      assert classes + [c] == [c];
    } else {
      var cs := classes + [c];
      assert cs[0] == classes[0] && cs[1..] == classes[1..] + [c];
      ClassTagsAppend(classes[1..], c, text);
      calc {
        ClassTags(cs, text);
        [classes[0] + ":" + text] + ClassTags(classes[1..] + [c], text);
        [classes[0] + ":" + text] + (ClassTags(classes[1..], text) + [c + ":" + text]);
        ([classes[0] + ":" + text] + ClassTags(classes[1..], text)) + [c + ":" + text];
      }
    }
  }

  // ----- The highlight cache -----

  predicate Distinct(s: seq<string>) {
    forall i, j :: 0 <= i < j < |s| ==> s[i] != s[j]
  }

  /** `order` lists the keys of `entries` once each, oldest insertion first (a JavaScript `Map`). */
  ghost predicate CacheShape(order: seq<string>, entries: map<string, HighlightedLog>) {
    Distinct(order) && (forall k :: k in entries <==> k in order)
  }

  lemma {:induction false} DistinctCardinality(s: seq<string>)
    requires Distinct(s)
    ensures |set k | k in s| == |s|
    decreases |s|
  {
    if s != [] {
      var rest := s[1..];
      assert Distinct(rest);
      DistinctCardinality(rest);
      assert (set k | k in s) == (set k | k in rest) + {s[0]};
      assert s[0] !in rest;
    }
  }

  /** The size of the cache is the length of its insertion order. */
  lemma CacheSize(order: seq<string>, entries: map<string, HighlightedLog>)
    requires CacheShape(order, entries)
    ensures |entries| == |order|
  {
    DistinctCardinality(order);
    assert entries.Keys == set k | k in order;
  }

  /**
   * `cacheHighlighted`: when the cache holds `maxSize` or more entries the oldest key is
   * deleted, then `id` is set (a key already present keeps its place).
   */
  function CacheInsert(order: seq<string>, entries: map<string, HighlightedLog>, maxSize: nat,
                       id: string, value: HighlightedLog): (seq<string>, map<string, HighlightedLog>)
  {
    var full := |entries| >= maxSize && |order| > 0;
    var order1 := if full then order[1..] else order;
    var entries1 := if full then entries - {order[0]} else entries;
    (if id in order1 then order1 else order1 + [id], entries1[id := value])
  }

  /** Inserting keeps the shape and never lets the cache grow past `maxSize`. */
  lemma CacheInsertBounded(order: seq<string>, entries: map<string, HighlightedLog>, maxSize: nat,
                           id: string, value: HighlightedLog)
    requires CacheShape(order, entries) && |entries| <= maxSize && maxSize >= 1
    ensures var (o, e) := CacheInsert(order, entries, maxSize, id, value);
      CacheShape(o, e) && |e| <= maxSize && id in e && e[id] == value
  {
    CacheSize(order, entries);
    var full := |entries| >= maxSize && |order| > 0;
    if full {
      EvictShape(order, entries);
      SetShape(order[1..], entries - {order[0]}, id, value);
    } else {
      SetShape(order, entries, id, value);
    }
  }

  /** Deleting the oldest key keeps the shape and removes one entry. */
  lemma EvictShape(order: seq<string>, entries: map<string, HighlightedLog>)
    requires CacheShape(order, entries) && |order| > 0
    ensures CacheShape(order[1..], entries - {order[0]}) && |entries - {order[0]}| == |entries| - 1
  {
    assert order[0] !in order[1..];
    assert forall k :: k in order <==> k == order[0] || k in order[1..];
  }

  /** Setting a key keeps the shape and adds at most one entry. */
  lemma SetShape(order: seq<string>, entries: map<string, HighlightedLog>, id: string, value: HighlightedLog)
    requires CacheShape(order, entries)
    ensures var o := if id in order then order else order + [id];
      CacheShape(o, entries[id := value]) && |entries[id := value]| <= |entries| + 1
  {
    if id !in order {
      assert forall k :: k in order + [id] <==> k in order || k == id;
    }
  }

  /**
   * A full cache evicts exactly its oldest entry when a new id comes in; every other
   * entry stays with its value.
   */
  lemma CacheInsertEvictsOldest(order: seq<string>, entries: map<string, HighlightedLog>, maxSize: nat,
                                id: string, value: HighlightedLog)
    requires CacheShape(order, entries) && |entries| == maxSize >= 1 && id !in entries
    ensures var (o, e) := CacheInsert(order, entries, maxSize, id, value);
      && order[0] !in e
      && o == order[1..] + [id]
      && (forall k :: k in entries && k != order[0] ==> k in e && e[k] == entries[k])
  {
    CacheSize(order, entries);
    assert order[0] !in order[1..];
  }

  /** Below capacity, a new id is added at the end and nothing is evicted. */
  lemma CacheInsertBelowCapacity(order: seq<string>, entries: map<string, HighlightedLog>, maxSize: nat,
                                 id: string, value: HighlightedLog)
    requires CacheShape(order, entries) && |entries| < maxSize && id !in entries
    ensures CacheInsert(order, entries, maxSize, id, value) == (order + [id], entries[id := value])
  {
  }

  // ----- Looking logs up -----

  /** The position of the first log with this id (`logs.find`). */
  function FirstWithId(logs: seq<CliInput>, id: string): (r: Option<nat>)
    ensures r.Some? ==> r.value < |logs| && logs[r.value].id == id
    ensures r.Some? ==> forall k :: 0 <= k < r.value ==> logs[k].id != id
    ensures r.None? ==> forall k :: 0 <= k < |logs| ==> logs[k].id != id
  {
    if logs == [] then None
    else if logs[0].id == id then Some(0)
    else match FirstWithId(logs[1..], id)
      case None => None
      case Some(k) => Some(k + 1)
  }

  /** Appending logs does not move the first log with an id already present. */
  lemma FirstWithIdStable(logs: seq<CliInput>, more: seq<CliInput>, id: string)
    requires FirstWithId(logs, id).Some?
    ensures FirstWithId(logs + more, id) == FirstWithId(logs, id)
  {
    var k := FirstWithId(logs, id).value;
    var r := FirstWithId(logs + more, id);
    assert (logs + more)[k] == logs[k];
  }

  /** What `getHighlighted` computes on a miss for a line of input. */
  function Highlighted(highlight: string -> seq<Node>, input: string): (h: HighlightedLog)
    ensures h.textContent == input && h.tags == TagsOf(h.elements)
  {
    HighlightedLog(highlight(input), TagsOf(highlight(input)), input)
  }

  /** The highlighted form of the first log with this id, if any. */
  function HighlightFor(highlight: string -> seq<Node>, logs: seq<CliInput>, id: string): Option<HighlightedLog> {
    match FirstWithId(logs, id)
    case None => None
    case Some(k) => Some(Highlighted(highlight, logs[k].input))
  }

  /** Whether the log at position `k` passes `filterFn` (which sees the first log with its id). */
  predicate Passes(highlight: string -> seq<Node>, filterFn: HighlightedLog -> bool, logs: seq<CliInput>, k: nat)
    requires k < |logs|
  {
    var first := FirstWithId(logs, logs[k].id).value;
    filterFn(Highlighted(highlight, logs[first].input))
  }

  /** A log passes when the filter accepts the highlighted form `getHighlighted` returns for its id. */
  lemma PassesAt(highlight: string -> seq<Node>, filterFn: HighlightedLog -> bool, logs: seq<CliInput>, k: nat)
    requires k < |logs|
    ensures HighlightFor(highlight, logs, logs[k].id).Some?
    ensures Passes(highlight, filterFn, logs, k) == filterFn(HighlightFor(highlight, logs, logs[k].id).value)
  {
  }

  /** The positions in [lo, hi) whose logs pass, in increasing order. */
  function Passing(highlight: string -> seq<Node>, filterFn: HighlightedLog -> bool,
                   logs: seq<CliInput>, lo: nat, hi: nat): (ps: seq<nat>)
    requires hi <= |logs|
    decreases hi
  {
    if hi <= lo then []
    else
      var last := if Passes(highlight, filterFn, logs, hi - 1) then [hi - 1] else [];
      Passing(highlight, filterFn, logs, lo, hi - 1) + last
  }

  predicate StrictlyIncreasing(s: seq<nat>) {
    forall i, j :: 0 <= i < j < |s| ==> s[i] < s[j]
  }

  predicate AllBelow(s: seq<nat>, n: nat) {
    forall i :: 0 <= i < |s| ==> s[i] < n
  }

  /** A position is listed exactly when it lies in range and its log passes. */
  lemma {:induction false} PassingMembers(highlight: string -> seq<Node>, filterFn: HighlightedLog -> bool,
                                          logs: seq<CliInput>, lo: nat, hi: nat, k: nat)
    requires hi <= |logs|
    ensures k in Passing(highlight, filterFn, logs, lo, hi) <==>
      lo <= k < hi && Passes(highlight, filterFn, logs, k)
    decreases hi
  {
    if hi > lo {
      PassingMembers(highlight, filterFn, logs, lo, hi - 1, k);
      var before := Passing(highlight, filterFn, logs, lo, hi - 1);
      if Passes(highlight, filterFn, logs, hi - 1) {
        assert Passing(highlight, filterFn, logs, lo, hi) == before + [hi - 1];
        assert k in before + [hi - 1] <==> k in before || k == hi - 1;
      } else {
        assert Passing(highlight, filterFn, logs, lo, hi) == before + [];
        assert before + [] == before;
      }
    }
  }

  /** The listed positions increase strictly and lie in [lo, hi). */
  lemma {:induction false} PassingIncreasing(highlight: string -> seq<Node>, filterFn: HighlightedLog -> bool,
                                             logs: seq<CliInput>, lo: nat, hi: nat)
    requires hi <= |logs|
    ensures StrictlyIncreasing(Passing(highlight, filterFn, logs, lo, hi))
    ensures forall i :: 0 <= i < |Passing(highlight, filterFn, logs, lo, hi)| ==>
      lo <= Passing(highlight, filterFn, logs, lo, hi)[i] < hi
    decreases hi
  {
    if hi > lo {
      PassingIncreasing(highlight, filterFn, logs, lo, hi - 1);
    }
  }

  /** Scanning [lo, mid) and then [mid, hi) lists the same positions as one scan. */
  lemma {:induction false} PassingSplit(highlight: string -> seq<Node>, filterFn: HighlightedLog -> bool,
                                        logs: seq<CliInput>, lo: nat, mid: nat, hi: nat)
    requires lo <= mid <= hi <= |logs|
    ensures Passing(highlight, filterFn, logs, lo, hi) ==
      Passing(highlight, filterFn, logs, lo, mid) + Passing(highlight, filterFn, logs, mid, hi)
    decreases hi
  {
    if hi > mid {
      PassingSplit(highlight, filterFn, logs, lo, mid, hi - 1);
    }
  }

  /** Appending logs does not change which of the earlier positions pass. */
  lemma {:induction false} PassingStable(highlight: string -> seq<Node>, filterFn: HighlightedLog -> bool,
                                         logs: seq<CliInput>, more: seq<CliInput>, lo: nat, hi: nat)
    requires hi <= |logs|
    ensures Passing(highlight, filterFn, logs + more, lo, hi) == Passing(highlight, filterFn, logs, lo, hi)
    decreases hi
  {
    if hi > lo {
      PassingStable(highlight, filterFn, logs, more, lo, hi - 1);
      var k := hi - 1;
      assert (logs + more)[k] == logs[k];
      FirstWithIdStable(logs, more, logs[k].id);
      var first := FirstWithId(logs, logs[k].id).value;
      assert (logs + more)[first] == logs[first];
    }
  }

  /**
   * The incremental filter of `addLogs` lists the same positions as a full scan of the
   * grown list: what `setFilter` would have built from scratch.
   */
  lemma IncrementalEqualsRescan(highlight: string -> seq<Node>, filterFn: HighlightedLog -> bool,
                                logs: seq<CliInput>, more: seq<CliInput>)
    ensures Passing(highlight, filterFn, logs, 0, |logs|) + Passing(highlight, filterFn, logs + more, |logs|, |logs + more|)
      == Passing(highlight, filterFn, logs + more, 0, |logs + more|)
  {
    PassingStable(highlight, filterFn, logs, more, 0, |logs|);
    PassingSplit(highlight, filterFn, logs + more, 0, |logs|, |logs + more|);
  }

  /** Extending a sorted in-range list with the new passing positions keeps it sorted and in range. */
  lemma FilteredStaysSorted(highlight: string -> seq<Node>, filterFn: HighlightedLog -> bool,
                            filtered: seq<nat>, logs: seq<CliInput>, oldCount: nat)
    requires oldCount <= |logs|
    requires StrictlyIncreasing(filtered) && AllBelow(filtered, oldCount)
    ensures var f := filtered + Passing(highlight, filterFn, logs, oldCount, |logs|);
      StrictlyIncreasing(f) && AllBelow(f, |logs|)
  {
    var p := Passing(highlight, filterFn, logs, oldCount, |logs|);
    PassingIncreasing(highlight, filterFn, logs, oldCount, |logs|);
    var f := filtered + p;
    forall i, j | 0 <= i < j < |f|
      ensures f[i] < f[j]
    {
      if j < |filtered| {
      } else if i < |filtered| {
        assert p[j - |filtered|] >= oldCount;
      } else {
        assert f[i] == p[i - |filtered|] && f[j] == p[j - |filtered|];
      }
    }
  }

  // ----- Visible logs -----

  /** `getVisibleCount`. */
  function VisibleCount(logs: seq<CliInput>, filtered: Option<seq<nat>>): nat {
    match filtered
    case None => |logs|
    case Some(f) => |f|
  }

  /** `getLogAt`: `logs[v]`, or `logs[filtered[v]]`; None where JavaScript reads `undefined`. */
  function LogAt(logs: seq<CliInput>, filtered: Option<seq<nat>>, v: nat): (r: Option<CliInput>)
    ensures filtered.None? ==> (r.Some? <==> v < |logs|)
    ensures filtered.None? && v < |logs| ==> r == Some(logs[v])
    ensures filtered.Some? ==> (r.Some? <==> v < |filtered.value| && filtered.value[v] < |logs|)
    ensures filtered.Some? && r.Some? ==> r == Some(logs[filtered.value[v]])
  {
    match filtered
    case None => if v < |logs| then Some(logs[v]) else None
    case Some(f) => if v < |f| && f[v] < |logs| then Some(logs[f[v]]) else None
  }

  /**
   * With a well-formed filter every visible position names a log, and visible order is
   * log order.
   */
  lemma VisibleLogsInOrder(logs: seq<CliInput>, f: seq<nat>, v: nat, w: nat)
    requires StrictlyIncreasing(f) && AllBelow(f, |logs|)
    requires v < w < VisibleCount(logs, Some(f))
    ensures LogAt(logs, Some(f), v).Some? && LogAt(logs, Some(f), w).Some?
    ensures f[v] < f[w]
  {
  }

  /** Every cached entry is what highlighting the first log with that id gives. */
  ghost predicate Coherent(highlight: string -> seq<Node>, logs: seq<CliInput>, cache: map<string, HighlightedLog>) {
    forall id :: id in cache ==> HighlightFor(highlight, logs, id) == Some(cache[id])
  }

  /** Appending logs keeps every cached entry correct: ids are looked up by first occurrence. */
  lemma CoherentAfterAppend(highlight: string -> seq<Node>, logs: seq<CliInput>, more: seq<CliInput>,
                            cache: map<string, HighlightedLog>)
    requires Coherent(highlight, logs, cache)
    ensures Coherent(highlight, logs + more, cache)
  {
    forall id | id in cache
      ensures HighlightFor(highlight, logs + more, id) == Some(cache[id])
    {
      FirstWithIdStable(logs, more, id);
    }
  }

  lemma PassingStep(highlight: string -> seq<Node>, filterFn: HighlightedLog -> bool,
                    logs: seq<CliInput>, lo: nat, hi: nat)
    requires lo <= hi < |logs|
    ensures Passing(highlight, filterFn, logs, lo, hi + 1) ==
      Passing(highlight, filterFn, logs, lo, hi) + (if Passes(highlight, filterFn, logs, hi) then [hi] else [])
  {
  }

  /**
   * What `getHighlighted(id)` does to the cache: a hit or an id no log has leaves it as it
   * is, a miss inserts the highlighting of the first log with that id.
   */
  function CacheVisit(highlight: string -> seq<Node>, logs: seq<CliInput>, maxSize: nat,
                      order: seq<string>, entries: map<string, HighlightedLog>, id: string)
    : (seq<string>, map<string, HighlightedLog>)
  {
    if id in entries then (order, entries)
    else match HighlightFor(highlight, logs, id)
      case None => (order, entries)
      case Some(h) => CacheInsert(order, entries, maxSize, id, h)
  }

  /** The cache after `getHighlighted` on the ids of the logs at `lo` up to `hi`, in order. */
  function CacheScan(highlight: string -> seq<Node>, logs: seq<CliInput>, maxSize: nat,
                     order: seq<string>, entries: map<string, HighlightedLog>, lo: nat, hi: nat)
    : (seq<string>, map<string, HighlightedLog>)
    requires lo <= hi <= |logs|
    decreases hi
  {
    if hi == lo then (order, entries)
    else
      var c := CacheScan(highlight, logs, maxSize, order, entries, lo, hi - 1);
      CacheVisit(highlight, logs, maxSize, c.0, c.1, logs[hi - 1].id)
  }

  /** The cache after `getHighlighted` on each of `ids`, in order. */
  function CacheVisits(highlight: string -> seq<Node>, logs: seq<CliInput>, maxSize: nat,
                       order: seq<string>, entries: map<string, HighlightedLog>, ids: seq<string>)
    : (seq<string>, map<string, HighlightedLog>)
    decreases |ids|
  {
    if ids == [] then (order, entries)
    else
      var c := CacheVisits(highlight, logs, maxSize, order, entries, ids[..|ids| - 1]);
      CacheVisit(highlight, logs, maxSize, c.0, c.1, ids[|ids| - 1])
  }

  /** Visiting one more id is one more `getHighlighted` after the others. */
  lemma CacheVisitsSnoc(highlight: string -> seq<Node>, logs: seq<CliInput>, maxSize: nat,
                        order: seq<string>, entries: map<string, HighlightedLog>, ids: seq<string>, id: string)
    ensures var c := CacheVisits(highlight, logs, maxSize, order, entries, ids);
      CacheVisits(highlight, logs, maxSize, order, entries, ids + [id]) == CacheVisit(highlight, logs, maxSize, c.0, c.1, id)
  {
    assert (ids + [id])[..|ids|] == ids;
  }

  /** The ids of the logs at `lo` up to `hi`, in order. */
  function LogIds(logs: seq<CliInput>, lo: nat, hi: nat): seq<string>
    requires lo <= hi <= |logs|
  {
    seq(hi - lo, k requires 0 <= k < hi - lo => logs[lo + k].id)
  }

  /** Scanning positions is visiting the ids of the logs there, in order. */
  lemma {:induction false} CacheScanIsVisits(highlight: string -> seq<Node>, logs: seq<CliInput>, maxSize: nat,
                                             order: seq<string>, entries: map<string, HighlightedLog>, lo: nat, hi: nat)
    requires lo <= hi <= |logs|
    ensures CacheScan(highlight, logs, maxSize, order, entries, lo, hi)
         == CacheVisits(highlight, logs, maxSize, order, entries, LogIds(logs, lo, hi))
    decreases hi
  {
    if hi > lo {
      CacheScanIsVisits(highlight, logs, maxSize, order, entries, lo, hi - 1);
      var ids := LogIds(logs, lo, hi);
      assert ids[..|ids| - 1] == LogIds(logs, lo, hi - 1);
      assert ids[|ids| - 1] == logs[hi - 1].id;
      var c := CacheScan(highlight, logs, maxSize, order, entries, lo, hi - 1);
      assert CacheVisits(highlight, logs, maxSize, order, entries, ids)
          == CacheVisit(highlight, logs, maxSize, c.0, c.1, logs[hi - 1].id);
    }
  }

  /** A scan over logs that are all cached changes nothing: a hit does not reorder the cache. */
  lemma {:induction false} CacheScanHits(highlight: string -> seq<Node>, logs: seq<CliInput>, maxSize: nat,
                                         order: seq<string>, entries: map<string, HighlightedLog>, lo: nat, hi: nat)
    requires lo <= hi <= |logs|
    requires forall k :: lo <= k < hi ==> logs[k].id in entries
    ensures CacheScan(highlight, logs, maxSize, order, entries, lo, hi) == (order, entries)
    decreases hi
  {
    if hi > lo {
      CacheScanHits(highlight, logs, maxSize, order, entries, lo, hi - 1);
    }
  }

  /** The cache keeps its shape, its bound and correct entries. */
  ghost predicate CacheOk(highlight: string -> seq<Node>, logs: seq<CliInput>, maxSize: nat,
                          order: seq<string>, entries: map<string, HighlightedLog>) {
    CacheShape(order, entries) && |entries| <= maxSize && Coherent(highlight, logs, entries)
  }

  /**
   * The scan keeps the cache an insertion-ordered map within its capacity whose entries
   * are what highlighting gives, and the last log scanned is in the cache afterwards.
   */
  lemma {:induction false} CacheScanKeeps(highlight: string -> seq<Node>, logs: seq<CliInput>, maxSize: nat,
                                          order: seq<string>, entries: map<string, HighlightedLog>, lo: nat, hi: nat)
    requires lo <= hi <= |logs| && maxSize >= 1
    requires CacheOk(highlight, logs, maxSize, order, entries)
    ensures var c := CacheScan(highlight, logs, maxSize, order, entries, lo, hi);
      CacheOk(highlight, logs, maxSize, c.0, c.1) && (lo < hi ==> logs[hi - 1].id in c.1)
    decreases hi
  {
    if hi > lo {
      CacheScanKeeps(highlight, logs, maxSize, order, entries, lo, hi - 1);
      var c := CacheScan(highlight, logs, maxSize, order, entries, lo, hi - 1);
      CacheVisitKeeps(highlight, logs, maxSize, c.0, c.1, hi - 1);
    }
  }

  /** One visit keeps the cache in order and leaves the visited log's id in it. */
  lemma CacheVisitKeeps(highlight: string -> seq<Node>, logs: seq<CliInput>, maxSize: nat,
                        order: seq<string>, entries: map<string, HighlightedLog>, k: nat)
    requires k < |logs| && maxSize >= 1
    requires CacheOk(highlight, logs, maxSize, order, entries)
    ensures var c := CacheVisit(highlight, logs, maxSize, order, entries, logs[k].id);
      CacheOk(highlight, logs, maxSize, c.0, c.1) && logs[k].id in c.1
  {
    var id := logs[k].id;
    assert FirstWithId(logs, id).Some?;
    if id !in entries {
      var h := HighlightFor(highlight, logs, id).value;
      CacheInsertBounded(order, entries, maxSize, id, h);
      CacheInsertCoherent(highlight, logs, maxSize, order, entries, id);
    }
  }

  /** Inserting the highlighting of an id keeps every cached entry correct. */
  lemma CacheInsertCoherent(highlight: string -> seq<Node>, logs: seq<CliInput>, maxSize: nat,
                            order: seq<string>, entries: map<string, HighlightedLog>, id: string)
    requires Coherent(highlight, logs, entries) && HighlightFor(highlight, logs, id).Some?
    ensures Coherent(highlight, logs, CacheInsert(order, entries, maxSize, id, HighlightFor(highlight, logs, id).value).1)
  {
  }

  /** The store. */
  class LogStore {
    var logs: seq<CliInput>
    var filtered: Option<seq<nat>>
    var filterFn: Option<HighlightedLog -> bool>
    var highlighted: map<string, HighlightedLog>
    /** The insertion order of the keys of `highlighted`. */
    var cacheOrder: seq<string>
    const maxCacheSize: nat
    const highlight: string -> seq<Node>

    /**
     * The cache is a well-formed insertion-ordered map within its capacity, and every
     * cached entry is what highlighting the first log with that id gives.
     */
    ghost predicate Valid()
      reads this
    {
      && maxCacheSize >= 1
      && CacheShape(cacheOrder, highlighted)
      && |highlighted| <= maxCacheSize
      && Coherent(highlight, logs, highlighted)
    }

    /** `createLogStore`. */
    constructor(highlight: string -> seq<Node>)
      ensures Valid()
      ensures this.highlight == highlight && maxCacheSize == 10000
      ensures logs == [] && filtered == None && filterFn == None
      ensures highlighted == map[] && cacheOrder == []
    {
      this.highlight := highlight;
      maxCacheSize := 10000;
      logs := [];
      filtered := None;
      filterFn := None;
      highlighted := map[];
      cacheOrder := [];
    }

    function GetVisibleCount(): (n: nat)
      reads this
      ensures filtered.None? ==> n == |logs|
      ensures filtered.Some? ==> n == |filtered.value|
    {
      VisibleCount(logs, filtered)
    }

    function GetLogAt(visualIndex: nat): (r: Option<CliInput>)
      reads this
      ensures r.Some? ==> r.value in logs
      ensures filtered.None? && visualIndex < |logs| ==> r == Some(logs[visualIndex])
      ensures filtered.Some? && visualIndex < |filtered.value| && filtered.value[visualIndex] < |logs| ==>
        r == Some(logs[filtered.value[visualIndex]])
    {
      LogAt(logs, filtered, visualIndex)
    }

    /** `cacheHighlighted`. */
    method CacheHighlighted(id: string, result: HighlightedLog)
      requires CacheShape(cacheOrder, highlighted)
      modifies this
      ensures (cacheOrder, highlighted) == CacheInsert(old(cacheOrder), old(highlighted), maxCacheSize, id, result)
      ensures logs == old(logs) && filtered == old(filtered) && filterFn == old(filterFn)
    {
      CacheSize(cacheOrder, highlighted);
      if |highlighted| >= maxCacheSize && |cacheOrder| > 0 {
        var firstKey := cacheOrder[0];
        highlighted := highlighted - {firstKey};
        cacheOrder := cacheOrder[1..];
      }
      if id !in cacheOrder {
        cacheOrder := cacheOrder + [id];
      }
      highlighted := highlighted[id := result];
    }

    /**
     * `getHighlighted`: the cached entry on a hit; on a miss, the first log with that id
     * is highlighted and cached, and an error is reported when there is none.  Either way
     * the result is what highlighting that log gives.
     */
    method GetHighlighted(id: string) returns (r: Result<HighlightedLog, string>)
      requires Valid()
      modifies this
      ensures Valid()
      ensures logs == old(logs) && filtered == old(filtered) && filterFn == old(filterFn)
      ensures HighlightFor(highlight, logs, id).None? ==> r == Err("Log with id " + id + " not found")
      ensures HighlightFor(highlight, logs, id).Some? ==> r == Ok(HighlightFor(highlight, logs, id).value)
      ensures id in old(highlighted) || r.Err? ==>
        highlighted == old(highlighted) && cacheOrder == old(cacheOrder)
      ensures id !in old(highlighted) && r.Ok? ==>
        (cacheOrder, highlighted) == CacheInsert(old(cacheOrder), old(highlighted), maxCacheSize, id, r.value)
    {
      if id in highlighted {
        return Ok(highlighted[id]);
      }
      var found := FirstWithId(logs, id);
      if found.None? {
        return Err("Log with id " + id + " not found");
      }
      var log := logs[found.value];
      var elements := highlight(log.input);
      var tags := ExtractTags(elements);
      var result := HighlightedLog(elements, tags, log.input);
      CacheInsertBounded(cacheOrder, highlighted, maxCacheSize, id, result);
      CacheHighlighted(id, result);
      r := Ok(result);
    }

    /**
     * `addLogs`: appends the new logs; when a filter is active, appends the positions of
     * the new logs that pass it.
     */
    method AddLogs(newLogs: seq<CliInput>)
      requires Valid()
      modifies this
      ensures Valid()
      ensures logs == old(logs) + newLogs
      ensures filterFn == old(filterFn)
      ensures old(filtered).None? || old(filterFn).None? ==> filtered == old(filtered)
      ensures old(filtered).Some? && old(filterFn).Some? ==>
        filtered == Some(old(filtered).value + Passing(highlight, filterFn.value, logs, |old(logs)|, |logs|))
      ensures old(filtered).None? || old(filterFn).None? ==>
        cacheOrder == old(cacheOrder) && highlighted == old(highlighted)
      ensures old(filtered).Some? && old(filterFn).Some? ==>
        (cacheOrder, highlighted) ==
          CacheScan(highlight, logs, maxCacheSize, old(cacheOrder), old(highlighted), |old(logs)|, |logs|)
    {
      var startIndex := |logs|;
      CoherentAfterAppend(highlight, logs, newLogs, highlighted);
      logs := logs + newLogs;
      if filtered.Some? && filterFn.Some? {
        FilterFrom(startIndex);
      }
    }

    /** The loop of `addLogs` that runs the filter over the logs from `startIndex` on. */
    method FilterFrom(startIndex: nat)
      requires Valid() && startIndex <= |logs|
      requires filtered.Some? && filterFn.Some?
      modifies this
      ensures Valid()
      ensures logs == old(logs) && filterFn == old(filterFn)
      ensures filtered == Some(old(filtered).value + Passing(highlight, filterFn.value, logs, startIndex, |logs|))
      ensures (cacheOrder, highlighted) ==
        CacheScan(highlight, logs, maxCacheSize, old(cacheOrder), old(highlighted), startIndex, |logs|)
    {
      var passing := PassingFrom(startIndex, filterFn.value);
      filtered := Some(filtered.value + passing);
    }

    /** The positions from `startIndex` on whose highlighted logs pass `fn`, in order. */
    method PassingFrom(startIndex: nat, fn: HighlightedLog -> bool) returns (passing: seq<nat>)
      requires Valid() && startIndex <= |logs|
      modifies this
      ensures Valid() && logs == old(logs) && filtered == old(filtered) && filterFn == old(filterFn)
      ensures passing == Passing(highlight, fn, logs, startIndex, |logs|)
      ensures (cacheOrder, highlighted) ==
        CacheScan(highlight, logs, maxCacheSize, old(cacheOrder), old(highlighted), startIndex, |logs|)
    {
      ghost var all := logs;
      passing := [];
      var i := startIndex;
      while i < |logs|
        invariant Valid() && logs == all && filtered == old(filtered) && filterFn == old(filterFn)
        invariant startIndex <= i <= |all|
        invariant passing == Passing(highlight, fn, all, startIndex, i)
        invariant (cacheOrder, highlighted) ==
          CacheScan(highlight, all, maxCacheSize, old(cacheOrder), old(highlighted), startIndex, i)
      {
        ghost var before := (cacheOrder, highlighted);
        var pass := PassesFilter(i, fn);
        assert CacheScan(highlight, all, maxCacheSize, old(cacheOrder), old(highlighted), startIndex, i + 1)
            == CacheVisit(highlight, all, maxCacheSize, before.0, before.1, all[i].id);
        PassingStep(highlight, fn, all, startIndex, i);
        passing := passing + (if pass then [i] else []);
        i := i + 1;
      }
      assert i == |all|;
    }

    /** One turn of that loop: whether the highlighted log at `i` passes the filter. */
    method PassesFilter(i: nat, fn: HighlightedLog -> bool) returns (pass: bool)
      requires Valid() && i < |logs|
      modifies this
      ensures Valid() && logs == old(logs) && filtered == old(filtered) && filterFn == old(filterFn)
      ensures pass == Passes(highlight, fn, logs, i)
      ensures (cacheOrder, highlighted) ==
        CacheVisit(highlight, logs, maxCacheSize, old(cacheOrder), old(highlighted), logs[i].id)
    {
      PassesAt(highlight, fn, logs, i);
      var r := GetHighlighted(logs[i].id);
      pass := fn(r.value);
    }

    /** `clearFilter`. */
    method ClearFilter()
      modifies this
      ensures filtered == None && filterFn == None
      ensures logs == old(logs) && highlighted == old(highlighted) && cacheOrder == old(cacheOrder)
    {
      filtered := None;
      filterFn := None;
    }

    /** `setFiltered`. */
    method SetFiltered(indices: seq<nat>, fn: Option<HighlightedLog -> bool>)
      modifies this
      ensures filtered == Some(indices) && filterFn == fn
      ensures logs == old(logs) && highlighted == old(highlighted) && cacheOrder == old(cacheOrder)
    {
      filtered := Some(indices);
      filterFn := fn;
    }
  }
}

=== FILE: mime.dfy ===
/**
 * The static file server's choice of Content-Type (`getMimeTypeForFile` in index.mjs):
 * the extension is the text after the last '.', looked up in a fixed table of nine
 * extensions, with `text/plain` for everything else.
 */
module Mime {
  import opened Wrappers
  import opened Text

  function Last(parts: seq<string>): string
    requires |parts| >= 1
  {
    parts[|parts| - 1]
  }

  /** The last piece of `path.split(".")`: the text after the last '.', or all of `path`. */
  function Extension(path: string): (ext: string)
    ensures '.' !in ext
    ensures SuffixAt(path, ext, |path| - |ext|)
    ensures '.' !in path ==> ext == path
    ensures '.' in path ==> |ext| < |path| && path[|path| - |ext| - 1] == '.'
  {
    LastPieceOfSplit(path, '.');
    Last(Split(path, '.'))
  }

  lemma LastPieceOfSplit(s: string, c: char)
    ensures SuffixAt(s, Last(Split(s, c)), |s| - |Last(Split(s, c))|)
    ensures c !in s ==> Last(Split(s, c)) == s
    ensures c in s ==> |Last(Split(s, c))| < |s| && s[|s| - |Last(Split(s, c))| - 1] == c
    ensures c !in Last(Split(s, c))
  {
    LastPieceSuffix(s, c);
    if c in s {
      LastPieceAfterSeparator(s, c);
    }
  }

  /** The last piece is a suffix of the text and holds no separator. */
  lemma {:induction false} LastPieceSuffix(s: string, c: char)
    ensures var last := Last(Split(s, c));
      SuffixAt(s, last, |s| - |last|) && c !in last
    ensures c !in s ==> Last(Split(s, c)) == s
    decreases |s|
  {
    match IndexOf(s, c)
    case None =>
      assert Split(s, c) == [s];
      assert s[|s| - |s|..] == s;
    case Some(i) =>
      LastPieceSuffix(s[i + 1..], c);
      LastPieceSuffixStep(s, c, i);
  }

  /** The last piece of the text past its first separator is the last piece of the text. */
  lemma LastPieceSuffixStep(s: string, c: char, i: nat)
    requires IndexOf(s, c) == Some(i)
    requires var last := Last(Split(s[i + 1..], c));
      SuffixAt(s[i + 1..], last, |s| - i - 1 - |last|) && c !in last
    ensures var last := Last(Split(s, c));
      SuffixAt(s, last, |s| - |last|) && c !in last
    ensures c in s
  {
    var rest := s[i + 1..];
    LastPieceAfter(s, c, i);
    var last := Last(Split(rest, c));
    SuffixOfRest(s, i + 1, |last|);
    assert s[|s| - |last|..] == last;
  }

  lemma SuffixOfRest(s: string, j: nat, k: nat)
    requires j <= |s| && k <= |s| - j
    ensures s[|s| - k..] == s[j..][|s| - j - k..]
  {
  }

  /** When the text holds a separator, one stands right before the last piece. */
  lemma {:induction false} LastPieceAfterSeparator(s: string, c: char)
    requires c in s
    ensures var last := Last(Split(s, c));
      |last| < |s| && s[|s| - |last| - 1] == c
    decreases |s|
  {
    var i := IndexOf(s, c).value;
    var rest := s[i + 1..];
    LastPieceAfter(s, c, i);
    var last := Last(Split(rest, c));
    LastPieceSuffix(rest, c);
    if c in rest {
      LastPieceAfterSeparator(rest, c);
      assert s[|s| - |last| - 1] == rest[|rest| - |last| - 1];
    } else {
      assert s[|s| - |last| - 1] == s[i];
    }
  }

  /** Past the first separator, the last piece is that of the rest. */
  lemma LastPieceAfter(s: string, c: char, i: nat)
    requires IndexOf(s, c) == Some(i)
    ensures Last(Split(s, c)) == Last(Split(s[i + 1..], c))
  {
    assert Split(s, c) == [s[..i]] + Split(s[i + 1..], c);
  }

  /** The extension of `stem.ext` is `ext` whenever `ext` holds no '.'. */
  lemma ExtensionAfterLastDot(stem: string, ext: string)
    requires '.' !in ext
    ensures Extension(stem + "." + ext) == ext
  {
    var path := stem + "." + ext;
    var e := Extension(path);
    assert path[|stem|] == '.';
    assert path[|path| - |ext|..] == ext;
  }

  /** The object literal of index.mjs:31-41, own properties only. */
  function OwnMimeType(ext: string): (r: Option<string>)
    ensures r.Some? ==> 2 <= |ext| <= 4
  {
    if ext == "js" then Some("text/javascript")
    else if ext == "css" then Some("text/css")
    else if ext == "html" then Some("text/html")
    else if ext == "png" then Some("image/png")
    else if ext == "jpg" then Some("image/jpg")
    else if ext == "jpeg" then Some("image/jpeg")
    else if ext == "ico" then Some("image/x-icon")
    else if ext == "svg" then Some("image/svg+xml")
    else if ext == "json" then Some("application/json")
    else None
  }

  /** Every Content-Type the server can announce. */
  const MimeTypes: set<string> := {
    "text/javascript", "text/css", "text/html", "image/png", "image/jpg", "image/jpeg",
    "image/x-icon", "image/svg+xml", "application/json", "text/plain"
  }

  /**
   * The Content-Type for a path: the table entry of its extension, else `text/plain`.
   * This is the corrected lookup (own properties only); see `MimeTypeAsWritten`.
   */
  function GetMimeTypeForFile(path: string): (mime: string)
    ensures mime in MimeTypes
    ensures OwnMimeType(Extension(path)).None? <==> mime == "text/plain"
    ensures OwnMimeType(Extension(path)).Some? ==> mime == OwnMimeType(Extension(path)).value
  {
    match OwnMimeType(Extension(path))
    case Some(m) => m
    case None => "text/plain"
  }

  /** The nine listed extensions, and only they, have a table entry; the match is case-sensitive. */
  lemma {:induction false} TableDomain(ext: string)
    ensures OwnMimeType(ext).Some? <==>
      ext in {"js", "css", "html", "png", "jpg", "jpeg", "ico", "svg", "json"}
  {
  }

  /** A query suffix is part of the extension, so it is not recognised. */
  lemma QuerySuffixNotRecognised()
    ensures GetMimeTypeForFile("/index.js?x=1") == "text/plain"
  {
    ExtensionAfterLastDot("/index", "js?x=1");
    assert "/index" + "." + "js?x=1" == "/index.js?x=1";
  }

  /** The table is case-sensitive. */
  lemma UpperCaseNotRecognised()
    ensures GetMimeTypeForFile("/INDEX.JS") == "text/plain"
  {
    ExtensionAfterLastDot("/INDEX", "JS");
    assert "/INDEX" + "." + "JS" == "/INDEX.JS";
  }

  lemma ScriptRecognised()
    ensures GetMimeTypeForFile("/lib/index.js") == "text/javascript"
  {
    ExtensionAfterLastDot("/lib/index", "js");
    assert "/lib/index" + "." + "js" == "/lib/index.js";
  }

  // ----- The lookup as written -----

  /**
   * A property read on an object literal also finds the members every object inherits
   * from `Object.prototype`.
   */
  const ObjectPrototypeMembers: set<string> := {
    "constructor", "hasOwnProperty", "isPrototypeOf", "propertyIsEnumerable",
    "toLocaleString", "toString", "valueOf", "__proto__", "__defineGetter__",
    "__defineSetter__", "__lookupGetter__", "__lookupSetter__"
  }

  /** What `{...}[ext] ?? "text/plain"` evaluates to: a string, or an inherited member. */
  datatype JsValue = JsString(s: string) | InheritedMember(name: string)

  function MimeTypeAsWritten(path: string): (v: JsValue)
    ensures Extension(path) !in ObjectPrototypeMembers ==> v == JsString(GetMimeTypeForFile(path))
    ensures Extension(path) in ObjectPrototypeMembers ==> v.InheritedMember?
  {
    var ext := Extension(path);
    match OwnMimeType(ext)
    case Some(m) => JsString(m)
    case None => if ext in ObjectPrototypeMembers then InheritedMember(ext) else JsString("text/plain")
  }

  /** As written, a file named `x.constructor` gets a function, not a string, as its Content-Type. */
  lemma ConstructorExtensionIsNotAString()
    ensures MimeTypeAsWritten("/x.constructor").InheritedMember?
    ensures GetMimeTypeForFile("/x.constructor") == "text/plain"
  {
    ExtensionAfterLastDot("/x", "constructor");
    assert "/x" + "." + "constructor" == "/x.constructor";
    assert Extension("/x.constructor") == "constructor";
  }
}

=== FILE: placeholders.dfy ===
/**
 * The placeholder framework of `getHighlightObjects` (public/worker/highlight.js).  Every
 * pass replaces what it recognises by a placeholder -- VARIATION SELECTOR-100 (U+E0153),
 * a decimal counter, and the same character again -- and records the element objects
 * that stand for it; at the end the text is cut back into placeholders and plain runs,
 * and each placeholder is expanded into its elements.
 */
module Placeholders {
  import opened Wrappers
  import opened Text
  import opened Elements

  /** The capture of a recogniser that has no groups. */
  type NoGroups = ()

  /** VARIATION SELECTOR-100, the character that brackets every placeholder. */
  const VS: char := '\U{E0153}'

  /**
   * `getIdent()` when the counter is `n`: the marker, the counter's decimal digits and the
   * marker again, which occurs nowhere in between.
   */
  function Placeholder(n: nat): (p: string)
    ensures |p| >= 3 && p[0] == VS && p[|p| - 1] == VS
    ensures forall i :: 0 < i < |p| - 1 ==> IsDigit(p[i])
    ensures DigitsValue(p[1..|p| - 1]) == n
    ensures forall i :: 0 < i < |p| - 1 ==> p[i] != VS
  {
    DigitsValueOfNatToString(n);
    [VS] + NatToString(n) + [VS]
  }

  /** Different counter values give different placeholders. */
  lemma PlaceholderInjective(a: nat, b: nat)
    requires Placeholder(a) == Placeholder(b)
    ensures a == b
  {
    NatToStringInjective(a, b);
  }

  /**
   * `map.get(token)`.  The map's keys are the placeholders for 0, 1, ... in the order
   * they were handed out, so it is held as the sequence of its values: the token must be
   * a placeholder, its digits the decimal form of a counter value below `|recorded|`.
   */
  function Lookup(recorded: seq<seq<Node>>, token: string): (r: Option<seq<Node>>)
    ensures r.Some? ==> exists k :: 0 <= k < |recorded| && token == Placeholder(k) && r.value == recorded[k]
  {
    if |token| >= 3 && token[0] == VS && token[|token| - 1] == VS && AllDigits(token[1..|token| - 1]) then
      var k := DigitsValue(token[1..|token| - 1]);
      if NatToString(k) == token[1..|token| - 1] && k < |recorded| then
        assert token == Placeholder(k);
        Some(recorded[k])
      else None
    else None
  }

  /** Each placeholder handed out finds the elements recorded for it. */
  lemma LookupPlaceholder(recorded: seq<seq<Node>>, k: nat)
    requires k < |recorded|
    ensures Lookup(recorded, Placeholder(k)) == Some(recorded[k])
  {
    DigitsValueOfNatToString(k);
  }

  /**
   * `text.replace(regex, callback)` with a global expression, from position `i`:
   * `find(s, i)` is the match the expression makes at `i` -- its end and its groups --
   * tried at each position from the left and resumed after each match; `build` is the
   * callback, which keeps the matched text (None) or replaces it by a placeholder for the
   * given elements.  The result is the new text and the elements recorded, in order.
   * An empty match is not taken: none of the expressions of the passes here can match
   * the empty string, so this is `replace` for all of them.
   */
  function ReplaceFrom<T>(s: string, i: nat, find: (string, nat) -> Option<(nat, T)>,
                          build: (string, T) -> Option<seq<Node>>, next: nat): (string, seq<seq<Node>>)
    requires i <= |s|
    decreases |s| - i
  {
    if i == |s| then ([], [])
    else
      var f := find(s, i);
      if f.Some? && i < f.value.0 <= |s| then
        var m := s[i..f.value.0];
        match build(m, f.value.1)
        case None =>
          var rest := ReplaceFrom(s, f.value.0, find, build, next);
          (m + rest.0, rest.1)
        case Some(els) =>
          var rest := ReplaceFrom(s, f.value.0, find, build, next + 1);
          (Placeholder(next) + rest.0, [els] + rest.1)
      else
        var rest := ReplaceFrom(s, i + 1, find, build, next);
        ([s[i]] + rest.0, rest.1)
  }

  /** A match at `i` that the callback replaces becomes the next placeholder. */
  lemma ReplaceRecords<T>(s: string, i: nat, find: (string, nat) -> Option<(nat, T)>,
                          build: (string, T) -> Option<seq<Node>>, next: nat)
    requires i < |s| && find(s, i).Some? && i < find(s, i).value.0 <= |s|
    requires build(s[i..find(s, i).value.0], find(s, i).value.1).Some?
    ensures var e := find(s, i).value.0;
      ReplaceFrom(s, i, find, build, next)
      == (Placeholder(next) + ReplaceFrom(s, e, find, build, next + 1).0,
          [build(s[i..e], find(s, i).value.1).value] + ReplaceFrom(s, e, find, build, next + 1).1)
  {
  }

  /** A match at `i` that the callback keeps stays as it is. */
  lemma ReplaceKeeps<T>(s: string, i: nat, find: (string, nat) -> Option<(nat, T)>,
                        build: (string, T) -> Option<seq<Node>>, next: nat)
    requires i < |s| && find(s, i).Some? && i < find(s, i).value.0 <= |s|
    requires build(s[i..find(s, i).value.0], find(s, i).value.1).None?
    ensures var e := find(s, i).value.0;
      ReplaceFrom(s, i, find, build, next)
      == (s[i..e] + ReplaceFrom(s, e, find, build, next).0, ReplaceFrom(s, e, find, build, next).1)
  {
  }

  /** Where the expression does not match, the character stays and the scan moves on. */
  lemma ReplaceSkips<T>(s: string, i: nat, find: (string, nat) -> Option<(nat, T)>,
                        build: (string, T) -> Option<seq<Node>>, next: nat)
    requires i < |s| && !(find(s, i).Some? && i < find(s, i).value.0 <= |s|)
    ensures ReplaceFrom(s, i, find, build, next)
      == ([s[i]] + ReplaceFrom(s, i + 1, find, build, next).0, ReplaceFrom(s, i + 1, find, build, next).1)
  {
  }

  /** Every pass maps the empty text to itself. */
  lemma ReplaceEmpty<T>(find: (string, nat) -> Option<(nat, T)>, build: (string, T) -> Option<seq<Node>>, next: nat)
    ensures ReplaceFrom([], 0, find, build, next) == ([], [])
  {
  }

  /** The expression matches at `j`: `find` gives a match that ends after `j`. */
  predicate MatchesAt<T>(find: (string, nat) -> Option<(nat, T)>, s: string, j: nat) {
    find(s, j).Some? && j < find(s, j).value.0 <= |s|
  }

  /** Where the expression matches nowhere, the pass leaves the text as it is. */
  lemma {:induction false} ReplaceNoMatch<T>(s: string, i: nat, find: (string, nat) -> Option<(nat, T)>,
                                             build: (string, T) -> Option<seq<Node>>, next: nat)
    requires i <= |s|
    requires forall j :: i <= j < |s| ==> !MatchesAt(find, s, j)
    ensures ReplaceFrom(s, i, find, build, next) == (s[i..], [])
    decreases |s| - i
  {
    if i < |s| {
      assert !MatchesAt(find, s, i);
      ReplaceNoMatch(s, i + 1, find, build, next);
      assert s[i..] == [s[i]] + s[i + 1..];
    }
  }

  /** The state of the `getReplacement` closure: the counter and the map it fills. */
  class Replacer {
    var ident: nat
    /** The map's values, in the order of their placeholders (see `Lookup`). */
    var recorded: seq<seq<Node>>

    /** The map holds exactly the placeholders handed out so far. */
    ghost predicate Valid()
      reads this
    {
      |recorded| == ident
    }

    constructor()
      ensures Valid() && recorded == []
    {
      ident := 0;
      recorded := [];
    }

    /** `getReplacement(...el)`: a placeholder never handed out before, mapped to `els`. */
    method GetReplacement(els: seq<Node>) returns (p: string)
      requires Valid()
      modifies this
      ensures Valid() && recorded == old(recorded) + [els]
      ensures p == Placeholder(old(ident))
      ensures forall k :: 0 <= k < old(ident) ==> Placeholder(k) != p
    {
      p := Placeholder(ident);
      forall k | 0 <= k < ident
        ensures Placeholder(k) != p
      {
        if Placeholder(k) == p {
          PlaceholderInjective(k, ident);
        }
      }
      recorded := recorded + [els];
      ident := ident + 1;
    }

    /** `text.replace(regex, callback)` where the callback may call `getReplacement`. */
    method Replace<T>(s: string, find: (string, nat) -> Option<(nat, T)>,
                      build: (string, T) -> Option<seq<Node>>) returns (out: string)
      requires Valid()
      modifies this
      ensures Valid()
      ensures out == ReplaceFrom(s, 0, find, build, old(ident)).0
      ensures recorded == old(recorded) + ReplaceFrom(s, 0, find, build, old(ident)).1
    {
      ghost var r0 := recorded;
      ghost var total := ReplaceFrom(s, 0, find, build, ident);
      ghost var issued: seq<seq<Node>> := [];
      out := [];
      var i := 0;
      ghost var rest := total;
      assert [] + total.0 == total.0 && [] + total.1 == total.1;
      while i < |s|
        invariant i <= |s| && Valid() && recorded == r0 + issued
        invariant rest == ReplaceFrom(s, i, find, build, ident)
        invariant out + rest.0 == total.0 && issued + rest.1 == total.1
        decreases |s| - i
      {
        var piece, e, added := ReplaceAt(s, i, find, build);
        rest := ReplaceFrom(s, e, find, build, ident);
        ConcatAssoc(out, piece, rest.0);
        ConcatAssoc(issued, added, rest.1);
        ConcatAssoc(r0, issued, added);
        out, issued, i := out + piece, issued + added, e;
      }
      assert rest == ([], []);
      assert out + [] == out && issued + [] == issued;
    }

    /** One step of that scan, at position `i`: what replaces the text from `i` to `e`. */
    method ReplaceAt<T>(s: string, i: nat, find: (string, nat) -> Option<(nat, T)>,
                        build: (string, T) -> Option<seq<Node>>)
      returns (piece: string, e: nat, ghost added: seq<seq<Node>>)
      requires Valid() && i < |s|
      modifies this
      ensures Valid() && i < e <= |s| && recorded == old(recorded) + added
      ensures ReplaceFrom(s, i, find, build, old(ident))
        == (piece + ReplaceFrom(s, e, find, build, ident).0, added + ReplaceFrom(s, e, find, build, ident).1)
    {
      var n := ident;
      var f := find(s, i);
      if f.Some? && i < f.value.0 <= |s| {
        e := f.value.0;
        var b := build(s[i..e], f.value.1);
        if b.Some? {
          ReplaceRecords(s, i, find, build, n);
          piece := GetReplacement(b.value);
          added := [b.value];
        } else {
          ReplaceKeeps(s, i, find, build, n);
          piece, added := s[i..e], [];
          assert added + ReplaceFrom(s, e, find, build, n).1 == ReplaceFrom(s, e, find, build, n).1;
        }
      } else {
        ReplaceSkips(s, i, find, build, n);
        piece, e, added := [s[i]], i + 1, [];
        assert added + ReplaceFrom(s, e, find, build, n).1 == ReplaceFrom(s, e, find, build, n).1;
      }
    }
  }

  // ----- Cutting the text back into tokens -----

  /** Length of the run of decimal digits at the start of `s`. */
  function DigitRun(s: string): (n: nat)
    ensures n <= |s| && (forall k :: 0 <= k < n ==> IsDigit(s[k])) && (n == |s| || !IsDigit(s[n]))
  {
    if s != [] && IsDigit(s[0]) then
      var k := DigitRun(s[1..]);
      assert s[..k + 1] == [s[0]] + s[1..][..k];
      k + 1
    else 0
  }

  /** Length of the run of characters other than VS at the start of `s`. */
  function PlainRun(s: string): (n: nat)
    ensures n <= |s| && (forall k :: 0 <= k < n ==> s[k] != VS) && (n == |s| || s[n] == VS)
    ensures s != [] && s[0] != VS ==> n > 0
  {
    if s != [] && s[0] != VS then
      var k := PlainRun(s[1..]);
      assert s[..k + 1] == [s[0]] + s[1..][..k];
      k + 1
    else 0
  }

  /**
   * `modified.match(/VS\d+VS|[^VS]+/g)`: placeholder-shaped tokens and maximal runs
   * without VS, in order; a VS that starts no placeholder belongs to no token.
   */
  function Tokens(s: string): (r: seq<string>)
    ensures r == [] <==> forall i :: 0 <= i < |s| ==> s[i] == VS
    decreases |s|
  {
    if s == [] then []
    else if s[0] == VS then
      var d := DigitRun(s[1..]);
      if d > 0 && d + 1 < |s| && s[d + 1] == VS then [s[..d + 2]] + Tokens(s[d + 2..])
      else Tokens(s[1..])
    else
      var n := PlainRun(s);
      [s[..n]] + Tokens(s[n..])
  }

  // ----- The final `match` as written, on UTF-16 code units -----

  /** The UTF-16 code units of a character: itself below U+10000, otherwise its surrogate pair. */
  function Utf16(c: char): (u: seq<nat>)
    ensures |u| == 1 <==> (c as int) < 0x1_0000
    ensures |u| == 2 ==> 0xD800 <= u[0] < 0xDC00 <= u[1] < 0xE000
  {
    if (c as int) < 0x1_0000 then [c as int]
    else [0xD800 + (c as int - 0x1_0000) / 0x400, 0xDC00 + (c as int - 0x1_0000) % 0x400]
  }

  /** A string as JavaScript holds it. */
  function Utf16Text(s: string): seq<nat> {
    if s == [] then [] else Utf16(s[0]) + Utf16Text(s[1..])
  }

  /** The surrogate pair of VS. */
  const VSHigh: nat := 0xDB40
  const VSLow: nat := 0xDD53

  /** Length of the run of code units for `0`-`9` at the start of `u`. */
  function UnitDigitRun(u: seq<nat>): (n: nat)
    ensures n <= |u| && (forall k :: 0 <= k < n ==> 0x30 <= u[k] <= 0x39)
    ensures n == |u| || !(0x30 <= u[n] <= 0x39)
  {
    if u != [] && 0x30 <= u[0] <= 0x39 then UnitDigitRun(u[1..]) + 1 else 0
  }

  /**
   * Length of the run at the start of `u` that `[^VS]` matches without the `u` flag: the
   * class holds the two code units of VS separately, so it stops at either of them.
   */
  function UnitPlainRun(u: seq<nat>): (n: nat)
    ensures n <= |u| && (forall k :: 0 <= k < n ==> u[k] != VSHigh && u[k] != VSLow)
    ensures n == |u| || u[n] == VSHigh || u[n] == VSLow
  {
    if u != [] && u[0] != VSHigh && u[0] != VSLow then UnitPlainRun(u[1..]) + 1 else 0
  }

  /** `modified.match(/VS\d+VS|[^VS]+/g)` as the source runs it, on code units. */
  function TokensAsWritten(u: seq<nat>): (r: seq<seq<nat>>)
    ensures r == [] <==> forall i :: 0 <= i < |u| ==> u[i] == VSHigh || u[i] == VSLow
    decreases |u|
  {
    if u == [] then []
    else if |u| >= 2 && u[0] == VSHigh && u[1] == VSLow then
      var d := UnitDigitRun(u[2..]);
      if d > 0 && d + 3 < |u| && u[d + 2] == VSHigh && u[d + 3] == VSLow then [u[..d + 4]] + TokensAsWritten(u[d + 4..])
      else TokensAsWritten(u[1..])
    else
      var n := UnitPlainRun(u);
      if n == 0 then TokensAsWritten(u[1..]) else [u[..n]] + TokensAsWritten(u[n..])
  }

  /**
   * As written, the final `match` cuts U+1F953, whose low surrogate is the low surrogate
   * of VS: of the text "a", U+1F953, "b" the first token ends with a lone high surrogate,
   * the low surrogate is in no token, and the tokens no longer spell the text.
   */
  lemma SupplementaryCutAsWritten()
    ensures Utf16Text("a\U{1F953}b") == [0x61, 0xD83E, 0xDD53, 0x62]
    ensures TokensAsWritten(Utf16Text("a\U{1F953}b")) == [[0x61, 0xD83E], [0x62]]
  {
    var u := Utf16Text("a\U{1F953}b");
    assert Utf16('\U{1F953}') == [0xD83E, 0xDD53];
    assert u == [0x61, 0xD83E, 0xDD53, 0x62] by {
      assert Utf16Text("b") == [0x62];
      assert Utf16Text("\U{1F953}b") == [0xD83E, 0xDD53] + [0x62];
    }
    assert UnitPlainRun(u) == 2 by {
      assert UnitPlainRun(u[2..]) == 0;
      assert u[1..][1..] == u[2..];
    }
    var b: seq<nat> := [0x62];
    assert TokensAsWritten(b) == [b] by {
      assert UnitPlainRun(b) == 1 && b[..1] == b && b[1..] == [];
    }
    assert TokensAsWritten(u[2..]) == [b] by {
      assert u[2..] == [0xDD53, 0x62] && u[2..][1..] == b;
      assert UnitPlainRun(u[2..]) == 0;
    }
    assert u[..2] == [0x61, 0xD83E];
    assert TokensAsWritten(u) == [u[..2]] + TokensAsWritten(u[2..]);
  }

  /** Read as intended, the same text is one token, with its character whole. */
  lemma SupplementaryKept()
    ensures Tokens("a\U{1F953}b") == ["a\U{1F953}b"]
  {
    var s := "a\U{1F953}b";
    TokensOfPlain(s, []);
    assert s + [] == s;
  }

  /** `.flatMap(...)`: a plain run becomes itself, a placeholder the elements recorded for it. */
  function ExpandTokens(tokens: seq<string>, recorded: seq<seq<Node>>): Option<seq<Node>> {
    if tokens == [] then Some([])
    else
      var rest := ExpandTokens(tokens[1..], recorded);
      if rest.None? then None
      else if tokens[0] != [] && tokens[0][0] == VS then
        match Lookup(recorded, tokens[0])
        case Some(els) => Some(els + rest.value)
        case None => None
      else Some([Text(tokens[0])] + rest.value)
  }

  /**
   * The end of `getHighlightObjects`: an empty text gives no elements; a text with no
   * token makes `match` return null, on which `flatMap` throws (None); a placeholder
   * the map does not hold would be an undefined element, also None here.
   */
  function Expand(s: string, recorded: seq<seq<Node>>): (r: Option<seq<Node>>)
    ensures s == [] ==> r == Some([])
    ensures s != [] && (forall i :: 0 <= i < |s| ==> s[i] == VS) ==> r.None?
  {
    if s == [] then Some([])
    else if Tokens(s) == [] then None
    else ExpandTokens(Tokens(s), recorded)
  }

  /** A placeholder at the head of the text is one token, whatever follows it. */
  lemma TokensOfPlaceholder(n: nat, rest: string)
    ensures Tokens(Placeholder(n) + rest) == [Placeholder(n)] + Tokens(rest)
  {
    var p := Placeholder(n);
    var s := p + rest;
    var digits := NatToString(n);
    assert s[1..] == digits + [VS] + rest;
    assert DigitRun(s[1..]) == |digits| by {
      DigitRunOf(digits, [VS] + rest);
      assert s[1..] == digits + ([VS] + rest);
    }
    assert s[..|digits| + 2] == p;
    assert s[|digits| + 2..] == rest;
  }

  lemma {:induction false} DigitRunOf(digits: string, rest: string)
    requires AllDigits(digits) && (rest == [] || !IsDigit(rest[0]))
    ensures DigitRun(digits + rest) == |digits|
    decreases |digits|
  {
    if digits != [] {
      assert (digits + rest)[1..] == digits[1..] + rest;
      DigitRunOf(digits[1..], rest);
    } else {
      assert digits + rest == rest;
    }
  }

  lemma {:induction false} PlainRunOf(t: string, rest: string)
    requires VS !in t && (rest == [] || rest[0] == VS)
    ensures PlainRun(t + rest) == |t|
    decreases |t|
  {
    if t != [] {
      assert (t + rest)[1..] == t[1..] + rest;
      PlainRunOf(t[1..], rest);
    } else {
      assert t + rest == rest;
    }
  }

  /** A non-empty run without VS, up to a VS or the end, is one token. */
  lemma TokensOfPlain(t: string, rest: string)
    requires t != [] && VS !in t && (rest == [] || rest[0] == VS)
    ensures Tokens(t + rest) == [t] + Tokens(rest)
  {
    var s := t + rest;
    PlainRunOf(t, rest);
    assert s[..|t|] == t;
    assert s[|t|..] == rest;
  }

  // ----- Texts made of plain runs and placeholders -----

  /** A piece of an intermediate text: a run kept as text, or the placeholder `id`. */
  datatype Segment = Plain(text: string) | Hole(id: nat)

  function Render(segs: seq<Segment>): string {
    if segs == [] then []
    else (match segs[0] case Plain(t) => t case Hole(id) => Placeholder(id)) + Render(segs[1..])
  }

  /**
   * Runs are non-empty, free of VS and never next to each other, and every placeholder
   * has been handed out (its counter value is below `|recorded|`).
   */
  predicate WellFormed(segs: seq<Segment>, recorded: seq<seq<Node>>) {
    segs != [] ==>
      && (match segs[0]
          case Plain(t) => t != [] && VS !in t && (|segs| > 1 ==> segs[1].Hole?)
          case Hole(id) => id < |recorded|)
      && WellFormed(segs[1..], recorded)
  }

  /** What the segments stand for: the runs as text and the placeholders' elements. */
  function Flatten(segs: seq<Segment>, recorded: seq<seq<Node>>): seq<Node> {
    if segs == [] then []
    else
      (match segs[0]
       case Plain(t) => [Text(t)]
       case Hole(id) => if id < |recorded| then recorded[id] else [])
      + Flatten(segs[1..], recorded)
  }

  /** The token of each segment. */
  function SegmentTokens(segs: seq<Segment>): (ts: seq<string>)
    ensures |ts| == |segs|
  {
    if segs == [] then []
    else [match segs[0] case Plain(t) => t case Hole(id) => Placeholder(id)] + SegmentTokens(segs[1..])
  }

  lemma {:induction false} TokensOfRender(segs: seq<Segment>, recorded: seq<seq<Node>>)
    requires WellFormed(segs, recorded)
    ensures Tokens(Render(segs)) == SegmentTokens(segs)
    decreases |segs|
  {
    if segs != [] {
      var rest := Render(segs[1..]);
      TokensOfRender(segs[1..], recorded);
      match segs[0]
      case Plain(t) =>
        if |segs| > 1 {
          assert segs[1..][0] == segs[1];
          assert rest == Placeholder(segs[1].id) + Render(segs[2..]) by {
            assert segs[1..][1..] == segs[2..];
          }
        } else {
          assert rest == [];
        }
        TokensOfPlain(t, rest);
      case Hole(id) =>
        TokensOfPlaceholder(id, rest);
    }
  }

  lemma {:induction false} ExpandSegmentTokens(segs: seq<Segment>, recorded: seq<seq<Node>>)
    requires WellFormed(segs, recorded)
    ensures ExpandTokens(SegmentTokens(segs), recorded) == Some(Flatten(segs, recorded))
    decreases |segs|
  {
    if segs != [] {
      ExpandSegmentTokens(segs[1..], recorded);
      assert SegmentTokens(segs)[1..] == SegmentTokens(segs[1..]);
      if segs[0].Hole? {
        LookupPlaceholder(recorded, segs[0].id);
      }
    }
  }

  /**
   * Expanding a text made of well-formed segments gives, in order, each run as a text
   * node and each placeholder's recorded elements.
   */
  lemma ExpandRender(segs: seq<Segment>, recorded: seq<seq<Node>>)
    requires WellFormed(segs, recorded)
    ensures Expand(Render(segs), recorded) == Some(Flatten(segs, recorded))
  {
    TokensOfRender(segs, recorded);
    ExpandSegmentTokens(segs, recorded);
    if segs != [] {
      assert |Render(segs)| > 0 by {
        match segs[0]
        case Plain(t) =>
        case Hole(id) =>
      }
    }
  }

  /** A text that is a single VS has no token: `match` returns null and `flatMap` throws. */
  lemma LoneMarkerThrows(recorded: seq<seq<Node>>)
    ensures Expand([VS], recorded) == None
  {
    assert DigitRun([VS][1..]) == 0;
    assert Tokens([VS]) == Tokens([]);
  }
}

=== FILE: text.dfy ===
/**
 * The string operations of JavaScript's standard library that the viewer relies on:
 * `split` on one character, `join`, `trim`, `toLowerCase`, `includes`, `startsWith`,
 * the `\d` and `\w` character classes, and decimal printing and parsing of numbers.
 */
module Text {
  import opened Wrappers

  /** `\d` in a JavaScript regular expression without the `u` flag. */
  predicate IsDigit(c: char) {
    '0' <= c <= '9'
  }

  /** `\w`: ASCII letters, digits and the underscore. */
  predicate IsWordChar(c: char) {
    'a' <= c <= 'z' || 'A' <= c <= 'Z' || IsDigit(c) || c == '_'
  }

  predicate AllDigits(s: string) {
    forall i :: 0 <= i < |s| ==> IsDigit(s[i])
  }

  /** `toLowerCase` restricted to ASCII letters. */
  function LowerChar(c: char): char {
    if 'A' <= c <= 'Z' then (c as int + 32) as char else c
  }

  /**
   * `toLowerCase` on ASCII: every capital letter becomes its small letter, every other
   * character stays, and no capital letter is left.
   */
  function Lower(s: string): (r: string)
    ensures |r| == |s|
    ensures forall i :: 0 <= i < |s| && 'A' <= s[i] <= 'Z' ==> 'a' <= r[i] <= 'z' && r[i] as int - s[i] as int == 'a' as int - 'A' as int
    ensures forall i :: 0 <= i < |s| && !('A' <= s[i] <= 'Z') ==> r[i] == s[i]
    ensures forall i :: 0 <= i < |r| ==> !('A' <= r[i] <= 'Z')
  {
    seq(|s|, i requires 0 <= i < |s| => LowerChar(s[i]))
  }

  /** Lower-casing twice is lower-casing once. */
  lemma LowerIdempotent(s: string)
    ensures Lower(Lower(s)) == Lower(s)
  {
  }

  /** The characters of `s` from `a` up to `b` are the decimal digits of `n`. */
  predicate DecimalAt(s: string, a: int, b: int, n: nat) {
    0 <= a <= b <= |s| && AllDigits(s[a..b]) && DigitsValue(s[a..b]) == n
  }

  predicate StartsWith(s: string, prefix: string) {
    |prefix| <= |s| && s[..|prefix|] == prefix
  }

  /** `sub` occurs in `s` starting at position `i`. */
  predicate SliceAt(s: string, sub: string, i: int) {
    0 <= i <= |s| - |sub| && s[i..i + |sub|] == sub
  }

  /** `s` ends with `sub`, which starts at position `i`. */
  predicate SuffixAt(s: string, sub: string, i: int) {
    SliceAt(s, sub, i) && i + |sub| == |s|
  }

  /** `s.includes(sub)`: the empty string is contained in every string. */
  predicate Contains(s: string, sub: string) {
    exists i | 0 <= i <= |s| - |sub| :: SliceAt(s, sub, i)
  }

  /** Position of the first occurrence of `c`, or None: `indexOf` with -1 as None. */
  function IndexOf(s: string, c: char): (r: Option<nat>)
    ensures r.Some? ==> r.value < |s| && s[r.value] == c && forall k :: 0 <= k < r.value ==> s[k] != c
    ensures r.None? ==> c !in s
  {
    if |s| == 0 then None
    else if s[0] == c then Some(0)
    else match IndexOf(s[1..], c)
      case None => None
      case Some(i) => Some(i + 1)
  }

  /** `s.split(sep)` for a one-character separator: never empty, `""` gives `[""]`. */
  function Split(s: string, sep: char): (parts: seq<string>)
    ensures |parts| >= 1
    decreases |s|
  {
    match IndexOf(s, sep)
    case None => [s]
    case Some(i) => [s[..i]] + Split(s[i + 1..], sep)
  }

  /** `parts.join(sep)`. */
  function Join(parts: seq<string>, sep: string): string {
    if |parts| == 0 then ""
    else if |parts| == 1 then parts[0]
    else parts[0] + sep + Join(parts[1..], sep)
  }

  lemma {:induction false} IndexOfAfterFree(a: string, c: char, b: string)
    requires c !in a
    ensures IndexOf(a + [c] + b, c) == Some(|a|)
    decreases |a|
  {
    if |a| > 0 {
      IndexOfAfterFree(a[1..], c, b);
      assert (a + [c] + b)[1..] == a[1..] + [c] + b;
    }
  }

  /** Joining the pieces of a split with the separator gives back the string. */
  lemma {:induction false} JoinSplit(s: string, sep: char)
    ensures Join(Split(s, sep), [sep]) == s
    decreases |s|
  {
    match IndexOf(s, sep)
    case None =>
    case Some(i) =>
      var rest := Split(s[i + 1..], sep);
      assert Split(s, sep) == [s[..i]] + rest;
      JoinCons(s[..i], rest, [sep]);
      JoinSplit(s[i + 1..], sep);
      assert s == s[..i] + [sep] + s[i + 1..];
  }

  /** Joining a non-empty list with one more piece in front. */
  lemma JoinCons(p: string, rest: seq<string>, sep: string)
    requires |rest| >= 1
    ensures Join([p] + rest, sep) == p + sep + Join(rest, sep)
  {
    assert ([p] + rest)[1..] == rest;
  }

  /** Splitting a join of separator-free pieces gives back the pieces. */
  lemma {:induction false} SplitJoin(parts: seq<string>, sep: char)
    requires |parts| >= 1
    requires forall k :: 0 <= k < |parts| ==> sep !in parts[k]
    ensures Split(Join(parts, [sep]), sep) == parts
    decreases |parts|
  {
    if |parts| == 1 {
      assert IndexOf(parts[0], sep).None?;
    } else {
      var rest := Join(parts[1..], [sep]);
      IndexOfAfterFree(parts[0], sep, rest);
      assert Join(parts, [sep]) == parts[0] + [sep] + rest;
      assert (parts[0] + [sep] + rest)[..|parts[0]|] == parts[0];
      assert (parts[0] + [sep] + rest)[|parts[0]| + 1..] == rest;
      SplitJoin(parts[1..], sep);
    }
  }

  /** A non-empty sequence is its first element, then the rest. */
  lemma HeadTail<T>(s: seq<T>)
    requires s != []
    ensures [s[0]] + s[1..] == s
  {
  }

  /** Concatenation is associative. */
  lemma ConcatAssoc<T>(a: seq<T>, b: seq<T>, c: seq<T>)
    ensures a + (b + c) == (a + b) + c
  {
  }

  /** A slice is the slice up to any point in it, then the rest. */
  lemma SliceSplit(s: string, a: nat, b: nat, c: nat)
    requires a <= b <= c <= |s|
    ensures s[a..c] == s[a..b] + s[b..c]
  {
  }

  /** Splitting `x;y;z` (for separator-free pieces) gives the three pieces. */
  lemma SplitThree(x: string, y: string, z: string, sep: char)
    requires sep !in x && sep !in y && sep !in z
    ensures Split(x + [sep] + y + [sep] + z, sep) == [x, y, z]
  {
    var parts := [x, y, z];
    assert parts[1..] == [y, z] && parts[1..][1..] == [z];
    assert Join([y, z], [sep]) == y + [sep] + z;
    assert Join(parts, [sep]) == x + [sep] + (y + [sep] + z);
    assert x + [sep] + (y + [sep] + z) == x + [sep] + y + [sep] + z;
    SplitJoin(parts, sep);
  }

  /** The characters `String.prototype.trim` removes: white space and line terminators. */
  predicate IsSpace(c: char) {
    c == ' ' || c == '\t' || c == '\n' || c == '\r' || c == '\U{B}' || c == '\U{C}'
    || c == '\U{A0}' || c == '\U{1680}' || ('\U{2000}' <= c <= '\U{200A}')
    || c == '\U{2028}' || c == '\U{2029}' || c == '\U{202F}' || c == '\U{205F}'
    || c == '\U{3000}' || c == '\U{FEFF}'
  }

  /** Every character of `s` is white space (so the empty string is). */
  predicate AllSpace(s: string) {
    forall i :: 0 <= i < |s| ==> IsSpace(s[i])
  }

  function TrimStart(s: string): (r: string)
    ensures SuffixAt(s, r, |s| - |r|)
    ensures r == [] || !IsSpace(r[0])
    ensures forall i :: 0 <= i < |s| - |r| ==> IsSpace(s[i])
  {
    if |s| > 0 && IsSpace(s[0]) then TrimStart(s[1..]) else s
  }

  function TrimEnd(s: string): (r: string)
    ensures SliceAt(s, r, 0)
    ensures r == [] || !IsSpace(r[|r| - 1])
    ensures forall i :: |r| <= i < |s| ==> IsSpace(s[i])
  {
    if |s| > 0 && IsSpace(s[|s| - 1]) then TrimEnd(s[..|s| - 1]) else s
  }

  /** `s.trim()`: the longest slice of `s` that neither starts nor ends with white space. */
  function Trim(s: string): (r: string)
    ensures r == [] || (!IsSpace(r[0]) && !IsSpace(r[|r| - 1]))
    ensures var a := |s| - |TrimStart(s)|;
      SliceAt(s, r, a) && (forall i :: 0 <= i < a ==> IsSpace(s[i]))
      && (forall i :: a + |r| <= i < |s| ==> IsSpace(s[i]))
    ensures AllSpace(s) <==> r == []
  {
    TrimSlice(s);
    TrimEnds(s);
    TrimEmpty(s);
    TrimEnd(TrimStart(s))
  }

  /**
   * What is left after trimming both ends is a slice, starting where the leading space
   * ends, and everything around it is white space.
   */
  lemma TrimSlice(s: string)
    ensures var a := |s| - |TrimStart(s)|; var r := TrimEnd(TrimStart(s));
      SliceAt(s, r, a) && forall i :: a + |r| <= i < |s| ==> IsSpace(s[i])
  {
    var t := TrimStart(s);
    var a := |s| - |t|;
    var r := TrimEnd(t);
    SliceInSlice(s, t, a, r);
    forall i | a + |r| <= i < |s| ensures IsSpace(s[i]) {
      assert s[i] == t[i - a];
    }
  }

  /** A slice of a slice is a slice. */
  lemma SliceInSlice(s: string, t: string, a: nat, r: string)
    requires SliceAt(s, t, a) && SliceAt(t, r, 0)
    ensures SliceAt(s, r, a)
  {
    assert s[a..a + |r|] == t[..|r|];
  }

  /** What is left after trimming both ends neither starts nor ends with white space. */
  lemma TrimEnds(s: string)
    ensures var r := TrimEnd(TrimStart(s)); r == [] || (!IsSpace(r[0]) && !IsSpace(r[|r| - 1]))
  {
    var t := TrimStart(s);
    TrimmedEnds(t, TrimEnd(t));
  }

  /** A prefix of `t` that ends in a non-space, where `t` starts with a non-space. */
  lemma TrimmedEnds(t: string, r: string)
    requires SliceAt(t, r, 0) && (t == [] || !IsSpace(t[0]))
    requires r == [] || !IsSpace(r[|r| - 1])
    ensures r == [] || (!IsSpace(r[0]) && !IsSpace(r[|r| - 1]))
  {
    if r != [] {
      assert r[0] == t[..|r|][0] == t[0];
    }
  }

  /** Trimming both ends leaves nothing exactly when everything is white space. */
  lemma TrimEmpty(s: string)
    ensures AllSpace(s) <==> TrimEnd(TrimStart(s)) == []
  {
    var t := TrimStart(s);
    var r := TrimEnd(t);
    var a := |s| - |t|;
    if r != [] {
      assert r[0] == t[0] == s[a];
    }
  }

  function DigitChar(d: nat): char
    requires d < 10
  {
    ('0' as int + d) as char
  }

  /** Decimal notation of a natural number, as `String(n)` prints it (below 10^21). */
  function NatToString(n: nat): (s: string)
    ensures |s| >= 1 && AllDigits(s)
    ensures s[0] == '0' ==> n == 0
  {
    if n < 10 then [DigitChar(n)] else NatToString(n / 10) + [DigitChar(n % 10)]
  }

  /** Value of a string of decimal digits, as `Number(s)` reads it; `Number("")` is 0. */
  function DigitsValue(s: string): nat
    requires AllDigits(s)
  {
    if |s| == 0 then 0 else DigitsValue(s[..|s| - 1]) * 10 + (s[|s| - 1] as int - '0' as int)
  }

  /** Reading back a printed number gives the number. */
  lemma {:induction false} DigitsValueOfNatToString(n: nat)
    ensures DigitsValue(NatToString(n)) == n
    decreases n
  {
    var s := NatToString(n);
    if n >= 10 {
      DigitsValueOfNatToString(n / 10);
      assert s[..|s| - 1] == NatToString(n / 10);
    }
  }

  /** Different numbers print differently. */
  lemma NatToStringInjective(a: nat, b: nat)
    requires NatToString(a) == NatToString(b)
    ensures a == b
  {
    DigitsValueOfNatToString(a);
    DigitsValueOfNatToString(b);
  }
}

=== FILE: virtual_scroller.dfy ===
/**
 * The virtual scroller (public/utils/virtual-scroller.js): only the rows near the
 * viewport are in the DOM, between a top and a bottom spacer whose heights stand in for
 * the rows above and below.  A row's DOM node is identified here by a serial number;
 * `activeNodes` maps the rows shown to their nodes and `recyclePool` is the stack of
 * nodes taken out of the DOM for reuse.
 *
 * The browser is reduced to three things: `clientHeight`, the `scrollTop` the code
 * reads and writes, and `layout`, the height a row showing a given log gets.  A render
 * pass runs sequentially, rows in increasing order.
 */
module VirtualScrollers {
  import opened Wrappers
  import opened HeightCaches
  import opened LogStores

  /** `Math.max(0, x)`. */
  function Max0(x: int): nat {
    if x < 0 then 0 else x
  }

  /** `Math.abs(a - b)`. */
  function Dist(a: int, b: int): nat {
    if a < b then b - a else a - b
  }

  // ----- The visible range -----

  /** The first row `render` keeps: `buffer` rows above the row at the top of the viewport. */
  function RangeStart(heights: map<nat, nat>, est: nat, count: nat, scrollTop: int, buffer: nat): nat {
    Max0(IndexAt(heights, est, count, scrollTop) - buffer)
  }

  /** One past the last row `render` keeps: `buffer` rows below the row at the bottom of the viewport. */
  function RangeEnd(heights: map<nat, nat>, est: nat, count: nat, scrollTop: int, viewportHeight: nat,
                    buffer: nat): nat {
    var last := IndexAt(heights, est, count, scrollTop + viewportHeight) + buffer + 1;
    if count < last then count else last
  }

  /**
   * The range is a non-empty part of the rows, and it holds every row that shows in the
   * viewport: every row that ends below its top edge and starts at or above its bottom edge.
   */
  lemma VisibleRange(heights: map<nat, nat>, est: nat, count: nat, scrollTop: int, viewportHeight: nat,
                     buffer: nat, i: nat)
    requires count > 0
    ensures 0 <= RangeStart(heights, est, count, scrollTop, buffer)
              < RangeEnd(heights, est, count, scrollTop, viewportHeight, buffer) <= count
    ensures i < count && scrollTop < Offset(heights, est, i + 1)
              && Offset(heights, est, i) <= scrollTop + viewportHeight ==>
      RangeStart(heights, est, count, scrollTop, buffer) <= i
      < RangeEnd(heights, est, count, scrollTop, viewportHeight, buffer)
  {
    IndexAtBounds(heights, est, count, scrollTop + viewportHeight);
    IndexAtMonotone(heights, est, count, scrollTop, scrollTop + viewportHeight);
    if i < count && scrollTop < Offset(heights, est, i + 1) && Offset(heights, est, i) <= scrollTop + viewportHeight {
      IndexAtBelow(heights, est, count, scrollTop, i);
      IndexAtAbove(heights, est, count, scrollTop + viewportHeight, i);
    }
  }

  // ----- What a render pass renders and measures -----

  /** `renderRange` renders row `i` when no node shows it yet and a log exists at that position. */
  predicate NeedsRender(active: set<nat>, logs: seq<CliInput>, filtered: Option<seq<nat>>, i: nat) {
    i !in active && LogAt(logs, filtered, i).Some?
  }

  /** The rows of [lo, hi) that `renderRange` collects, in increasing order. */
  function Batch(active: set<nat>, logs: seq<CliInput>, filtered: Option<seq<nat>>, lo: nat, hi: nat): seq<nat>
    decreases hi
  {
    if hi <= lo then []
    else
      var last := if NeedsRender(active, logs, filtered, hi - 1) then [hi - 1] else [];
      Batch(active, logs, filtered, lo, hi - 1) + last
  }

  /**
   * The id of the log shown at position `i`.  Every collected row has a log, so the
   * empty id is never taken.
   */
  function RowId(logs: seq<CliInput>, filtered: Option<seq<nat>>, i: nat): string {
    match LogAt(logs, filtered, i)
    case Some(log) => log.id
    case None => []
  }

  /** The ids a render pass looks up with `getHighlighted`, one per collected row, in order. */
  function RowIds(logs: seq<CliInput>, filtered: Option<seq<nat>>, batch: seq<nat>): seq<string>
    decreases |batch|
  {
    if batch == [] then []
    else RowIds(logs, filtered, batch[..|batch| - 1]) + [RowId(logs, filtered, batch[|batch| - 1])]
  }

  /** One more row of the batch adds its id at the end. */
  lemma RowIdsStep(logs: seq<CliInput>, filtered: Option<seq<nat>>, batch: seq<nat>, k: nat)
    requires k < |batch|
    ensures RowIds(logs, filtered, batch[..k + 1]) == RowIds(logs, filtered, batch[..k]) + [RowId(logs, filtered, batch[k])]
  {
    assert batch[..k + 1][..k] == batch[..k];
  }

  /** A row is collected exactly when it lies in [lo, hi) and needs rendering. */
  lemma {:induction false} BatchMembers(active: set<nat>, logs: seq<CliInput>, filtered: Option<seq<nat>>,
                                        lo: nat, hi: nat, i: nat)
    ensures i in Batch(active, logs, filtered, lo, hi) <==> lo <= i < hi && NeedsRender(active, logs, filtered, i)
    decreases hi
  {
    if hi > lo {
      BatchMembers(active, logs, filtered, lo, hi - 1, i);
      var before := Batch(active, logs, filtered, lo, hi - 1);
      var last := if NeedsRender(active, logs, filtered, hi - 1) then [hi - 1] else [];
      assert i in before + last <==> i in before || i in last;
    }
  }

  /** The collected rows increase strictly, so no row is rendered twice in a pass. */
  lemma {:induction false} BatchIncreasing(active: set<nat>, logs: seq<CliInput>, filtered: Option<seq<nat>>,
                                           lo: nat, hi: nat)
    ensures StrictlyIncreasing(Batch(active, logs, filtered, lo, hi))
    decreases hi
  {
    if hi > lo {
      BatchIncreasing(active, logs, filtered, lo, hi - 1);
      var before := Batch(active, logs, filtered, lo, hi - 1);
      forall k | 0 <= k < |before|
        ensures before[k] < hi - 1
      {
        BatchMembers(active, logs, filtered, lo, hi - 1, before[k]);
      }
    }
  }

  /** Only which rows of [lo, hi) are shown matters to the batch. */
  lemma {:induction false} BatchDependsOnRange(a1: set<nat>, a2: set<nat>, logs: seq<CliInput>,
                                               filtered: Option<seq<nat>>, lo: nat, hi: nat)
    requires forall i :: lo <= i < hi ==> (i in a1 <==> i in a2)
    ensures Batch(a1, logs, filtered, lo, hi) == Batch(a2, logs, filtered, lo, hi)
    decreases hi
  {
    if hi > lo {
      BatchDependsOnRange(a1, a2, logs, filtered, lo, hi - 1);
    }
  }

  /**
   * The heights after `measureNode` lays row `i` out at height `h`: a change smaller than
   * the threshold is ignored.
   */
  function Measure(heights: map<nat, nat>, est: nat, threshold: nat, i: nat, h: nat): map<nat, nat> {
    if Dist(h, Height(heights, est, i)) < threshold then heights else heights[i := h]
  }

  /** The height the browser gives the row at visible position `i`. */
  function RowHeight(layout: CliInput -> nat, logs: seq<CliInput>, filtered: Option<seq<nat>>, i: nat): nat {
    match LogAt(logs, filtered, i)
    case None => 0
    case Some(log) => layout(log)
  }

  /** The heights after measuring `rows` in order. */
  function MeasureAll(heights: map<nat, nat>, est: nat, threshold: nat, layout: CliInput -> nat,
                      logs: seq<CliInput>, filtered: Option<seq<nat>>, rows: seq<nat>): map<nat, nat>
    decreases |rows|
  {
    if rows == [] then heights
    else
      var last := rows[|rows| - 1];
      var before := MeasureAll(heights, est, threshold, layout, logs, filtered, rows[..|rows| - 1]);
      Measure(before, est, threshold, last, RowHeight(layout, logs, filtered, last))
  }

  /** Measuring one more row: the step of the render loop. */
  lemma MeasureAllStep(heights: map<nat, nat>, est: nat, threshold: nat, layout: CliInput -> nat,
                       logs: seq<CliInput>, filtered: Option<seq<nat>>, rows: seq<nat>, k: nat)
    requires k < |rows|
    ensures MeasureAll(heights, est, threshold, layout, logs, filtered, rows[..k + 1]) ==
      Measure(MeasureAll(heights, est, threshold, layout, logs, filtered, rows[..k]), est, threshold, rows[k],
              RowHeight(layout, logs, filtered, rows[k]))
  {
    assert rows[..k + 1][..k] == rows[..k];
  }

  /** Measuring leaves the height of every row outside `rows` as it was. */
  lemma {:induction false} MeasureAllElsewhere(heights: map<nat, nat>, est: nat, threshold: nat,
                                               layout: CliInput -> nat, logs: seq<CliInput>,
                                               filtered: Option<seq<nat>>, rows: seq<nat>, i: nat)
    requires i !in rows
    ensures Height(MeasureAll(heights, est, threshold, layout, logs, filtered, rows), est, i) == Height(heights, est, i)
    decreases |rows|
  {
    if rows != [] {
      assert i !in rows[..|rows| - 1];
      MeasureAllElsewhere(heights, est, threshold, layout, logs, filtered, rows[..|rows| - 1], i);
    }
  }

  /** Measuring rows at or below row `n` does not move row `n`. */
  lemma MeasureBelowKeepsOffset(heights: map<nat, nat>, est: nat, threshold: nat,
                                layout: CliInput -> nat, logs: seq<CliInput>,
                                filtered: Option<seq<nat>>, rows: seq<nat>, n: nat)
    requires forall k :: 0 <= k < |rows| ==> n <= rows[k]
    ensures Offset(MeasureAll(heights, est, threshold, layout, logs, filtered, rows), est, n) == Offset(heights, est, n)
  {
    var after := MeasureAll(heights, est, threshold, layout, logs, filtered, rows);
    forall i: nat | i < n
      ensures Height(after, est, i) == Height(heights, est, i)
    {
      MeasureAllElsewhere(heights, est, threshold, layout, logs, filtered, rows, i);
    }
    OffsetDependsOnRowsAbove(after, heights, est, n);
  }

  // ----- Node bookkeeping -----

  /** The elements of a sequence. */
  function Elems(s: seq<nat>): set<nat> {
    set x | x in s
  }

  /** A row of an increasing batch is not among the rows before it. */
  lemma IncreasingFresh(s: seq<nat>, k: nat)
    requires StrictlyIncreasing(s) && k < |s|
    ensures s[k] !in Elems(s[..k])
  {
  }

  lemma ElemsSnoc(s: seq<nat>, k: nat)
    requires k < |s|
    ensures Elems(s[..k + 1]) == Elems(s[..k]) + {s[k]}
  {
    assert s[..k + 1] == s[..k] + [s[k]];
  }

  /** The nodes of the rows shown, and those in the pool. */
  function Shown(active: map<nat, nat>, lo: nat, hi: nat): map<nat, nat> {
    map i | i in active && lo <= i < hi :: active[i]
  }

  /** The nodes of the rows outside [lo, hi). */
  ghost function Released(active: map<nat, nat>, lo: nat, hi: nat): set<nat> {
    set i | i in active && !(lo <= i < hi) :: active[i]
  }

  /**
   * No node shows two rows, no node is both shown and pooled, the pool holds each node
   * once, and every node was created.
   */
  ghost predicate NodesWellFormed(active: map<nat, nat>, pool: seq<nat>, created: nat) {
    && (forall i, j :: i in active && j in active && i != j ==> active[i] != active[j])
    && (forall a, b :: 0 <= a < b < |pool| ==> pool[a] != pool[b])
    && (forall i, k :: i in active && 0 <= k < |pool| ==> active[i] != pool[k])
    && (forall i :: i in active ==> active[i] < created)
    && (forall k :: 0 <= k < |pool| ==> pool[k] < created)
  }

  /** Moving the node of one row to the pool keeps the bookkeeping well formed. */
  lemma ReleaseKeepsNodesWellFormed(active: map<nat, nat>, pool: seq<nat>, created: nat, index: nat)
    requires NodesWellFormed(active, pool, created) && index in active
    ensures NodesWellFormed(active - {index}, pool + [active[index]], created)
  {
    var pool' := pool + [active[index]];
    forall a, b | 0 <= a < b < |pool'|
      ensures pool'[a] != pool'[b]
    {
      if b == |pool| {
        assert pool'[a] == pool[a];
      }
    }
  }

  /**
   * What the loop of `recycleNodesOutsideRange` keeps: the rows still to visit keep their
   * nodes, the rows visited are shown exactly when inside [lo, hi), and the pool grew by
   * the nodes of the rows `released`, in that order.
   */
  ghost predicate Recycling(active0: map<nat, nat>, pool0: seq<nat>, created: nat, lo: nat, hi: nat,
                            remaining: set<nat>, active: map<nat, nat>, pool: seq<nat>, released: seq<nat>) {
    && NodesWellFormed(active, pool, created)
    && remaining <= active0.Keys
    && (forall i :: i in remaining ==> i in active && active[i] == active0[i])
    && (forall i :: i in active ==> i in active0 && active[i] == active0[i])
    && (forall i :: i in active0 && i !in remaining ==> (i in active <==> lo <= i < hi))
    && |pool| == |pool0| + |released| && pool[..|pool0|] == pool0
    && (forall k :: 0 <= k < |released| ==>
         released[k] in active0 && !(lo <= released[k] < hi) && pool[|pool0| + k] == active0[released[k]])
    && (forall i :: i in active0 && i !in remaining && !(lo <= i < hi) ==> active0[i] in pool)
  }

  /** Visiting a row inside the range keeps what the loop keeps. */
  lemma RecycleKeep(active0: map<nat, nat>, pool0: seq<nat>, created: nat, lo: nat, hi: nat,
                    remaining: set<nat>, active: map<nat, nat>, pool: seq<nat>, released: seq<nat>, index: nat)
    requires Recycling(active0, pool0, created, lo, hi, remaining, active, pool, released)
    requires index in remaining && lo <= index < hi
    ensures Recycling(active0, pool0, created, lo, hi, remaining - {index}, active, pool, released)
  {
  }

  /** Visiting a row outside the range moves its node to the pool and keeps what the loop keeps. */
  lemma RecycleRelease(active0: map<nat, nat>, pool0: seq<nat>, created: nat, lo: nat, hi: nat,
                       remaining: set<nat>, active: map<nat, nat>, pool: seq<nat>, released: seq<nat>, index: nat)
    requires Recycling(active0, pool0, created, lo, hi, remaining, active, pool, released)
    requires index in remaining && !(lo <= index < hi)
    ensures index in active
    ensures Recycling(active0, pool0, created, lo, hi, remaining - {index}, active - {index},
                      pool + [active[index]], released + [index])
  {
    ReleaseKeepsNodesWellFormed(active, pool, created, index);
    var pool': seq<nat>, released': seq<nat> := pool + [active[index]], released + [index];
    assert pool'[..|pool|] == pool;
    assert pool'[..|pool0|] == pool[..|pool0|];
    forall k | 0 <= k < |released'|
      ensures released'[k] in active0 && !(lo <= released'[k] < hi) && pool'[|pool0| + k] == active0[released'[k]]
    {
      if k < |released| {
        assert pool'[|pool0| + k] == pool[|pool0| + k];
      }
    }
  }

  /**
   * The loop of `recycleNodesOutsideRange` on the map of shown rows and the pool: the
   * rows outside [lo, hi) are visited in some order, each losing its node to the pool.
   */
  method RecycleOutside(active0: map<nat, nat>, pool0: seq<nat>, created: nat, lo: nat, hi: nat)
    returns (active: map<nat, nat>, pool: seq<nat>)
    requires NodesWellFormed(active0, pool0, created)
    ensures NodesWellFormed(active, pool, created)
    ensures active == Shown(active0, lo, hi)
    ensures |pool0| <= |pool| && pool[..|pool0|] == pool0
    ensures forall k :: |pool0| <= k < |pool| ==> pool[k] in Released(active0, lo, hi)
    ensures forall i :: i in active0 && !(lo <= i < hi) ==> active0[i] in pool
  {
    active := active0;
    pool := pool0;
    var remaining := active.Keys;
    ghost var released: seq<nat> := [];
    assert pool[..|pool0|] == pool0;
    while remaining != {}
      invariant Recycling(active0, pool0, created, lo, hi, remaining, active, pool, released)
      decreases remaining
    {
      var index :| index in remaining;
      if index < lo || index >= hi {
        RecycleRelease(active0, pool0, created, lo, hi, remaining, active, pool, released, index);
        var node := active[index];
        pool := pool + [node];
        released := released + [index];
        active := active - {index};
      } else {
        RecycleKeep(active0, pool0, created, lo, hi, remaining, active, pool, released, index);
      }
      remaining := remaining - {index};
    }
    forall k | |pool0| <= k < |pool|
      ensures pool[k] in Released(active0, lo, hi)
    {
      assert pool[k] == active0[released[k - |pool0|]];
    }
  }

  /**
   * After recycling and rendering [lo, hi), a row is shown exactly when it lies in the
   * range and either was shown before or has a log.
   */
  lemma RenderedRows(active0: map<nat, nat>, logs: seq<CliInput>, filtered: Option<seq<nat>>, lo: nat, hi: nat,
                     active: map<nat, nat>)
    requires active.Keys == Shown(active0, lo, hi).Keys + Elems(Batch(active0.Keys, logs, filtered, lo, hi))
    ensures forall i: nat :: i in active <==> lo <= i < hi && (i in active0 || LogAt(logs, filtered, i).Some?)
    ensures forall k :: 0 <= k < |Batch(active0.Keys, logs, filtered, lo, hi)| ==>
      lo <= Batch(active0.Keys, logs, filtered, lo, hi)[k]
  {
    var batch := Batch(active0.Keys, logs, filtered, lo, hi);
    forall i: nat
      ensures i in active <==> lo <= i < hi && (i in active0 || LogAt(logs, filtered, i).Some?)
    {
      BatchMembers(active0.Keys, logs, filtered, lo, hi, i);
    }
    forall k | 0 <= k < |batch|
      ensures lo <= batch[k]
    {
      BatchMembers(active0.Keys, logs, filtered, lo, hi, batch[k]);
    }
  }

  // ----- Where the scrolling operations put the viewport -----

  /** `scrollToIndex`'s alignments; any other string leaves `scrollTop` alone. */
  datatype Align = Start | Center | End | Other

  /**
   * The scroll position `scrollToIndex` asks for: the row's top at the viewport's top, its
   * middle at the viewport's middle (halves rounded down), or its bottom at the viewport's
   * bottom; a negative request is 0.
   */
  function RequestedScrollTop(heights: map<nat, nat>, est: nat, index: nat, align: Align, scrollTop: nat,
                              viewportHeight: nat): nat
  {
    var offset := Offset(heights, est, index);
    var itemHeight := Height(heights, est, index);
    match align
    case Start => offset
    case Center => Max0((2 * offset - viewportHeight + itemHeight) / 2)
    case End => Max0(offset + itemHeight - viewportHeight)
    case Other => scrollTop
  }

  /**
   * Where the viewport ends up: the browser clamps an assignment to `scrollTop` to the
   * content height less the viewport, the content height being the total height of the
   * `count` rows.  `Other` assigns nothing.
   */
  function AlignedScrollTop(heights: map<nat, nat>, est: nat, count: nat, index: nat, align: Align,
                            scrollTop: nat, viewportHeight: nat): nat
  {
    var request := RequestedScrollTop(heights, est, index, align, scrollTop, viewportHeight);
    var limit := BottomScrollTop(heights, est, count, viewportHeight);
    if align == Other || request <= limit then request else limit
  }

  /**
   * With any real alignment, a row of positive height overlaps the viewport placed where
   * `scrollToIndex` puts it (for `End` the viewport must have some height), and the
   * viewport never goes past the bottom of the last row.
   */
  lemma AlignedRowOverlaps(heights: map<nat, nat>, est: nat, count: nat, index: nat, align: Align,
                           scrollTop: nat, viewportHeight: nat)
    requires index < count
    requires align != Other && Height(heights, est, index) > 0
    requires align == End ==> viewportHeight > 0
    ensures var top := AlignedScrollTop(heights, est, count, index, align, scrollTop, viewportHeight);
      && top < Offset(heights, est, index + 1) && Offset(heights, est, index) <= top + viewportHeight
      && top <= BottomScrollTop(heights, est, count, viewportHeight)
  {
    RequestedRowOverlaps(heights, est, index, align, scrollTop, viewportHeight);
    OffsetMonotone(heights, est, index + 1, count);
  }

  /** The same for the requested position, before the browser's clamp. */
  lemma RequestedRowOverlaps(heights: map<nat, nat>, est: nat, index: nat, align: Align, scrollTop: nat,
                             viewportHeight: nat)
    requires align != Other && Height(heights, est, index) > 0
    requires align == End ==> viewportHeight > 0
    ensures var top := RequestedScrollTop(heights, est, index, align, scrollTop, viewportHeight);
      top < Offset(heights, est, index + 1) && Offset(heights, est, index) <= top + viewportHeight
  {
    var offset := Offset(heights, est, index);
    var itemHeight := Height(heights, est, index);
    assert Offset(heights, est, index + 1) == offset + itemHeight;
    if align == Center {
      var x := 2 * offset - viewportHeight + itemHeight;
      assert 2 * (x / 2) <= x < 2 * (x / 2) + 2;
    }
  }

  /** The scroll position `scrollToBottom` asks for: the end of the last row at the viewport's bottom. */
  function BottomScrollTop(heights: map<nat, nat>, est: nat, count: nat, viewportHeight: nat): nat {
    Max0(Offset(heights, est, count) - viewportHeight)
  }

  /** Scrolled to the bottom, the range runs to the last row. */
  lemma BottomRangeEndsAtLastRow(heights: map<nat, nat>, est: nat, count: nat, viewportHeight: nat, buffer: nat)
    requires count > 0
    ensures RangeEnd(heights, est, count, BottomScrollTop(heights, est, count, viewportHeight), viewportHeight, buffer) == count
  {
    IndexAtPastEnd(heights, est, count, BottomScrollTop(heights, est, count, viewportHeight) + viewportHeight);
  }

  /** `getScrollAnchor`'s result: the log at the top of the viewport and how far into it the viewport starts. */
  datatype Anchor = Anchor(id: string, offset: int)

  /** The anchor of the viewport at `scrollTop`, when there is a row with a log under its top edge. */
  function AnchorAt(heights: map<nat, nat>, est: nat, logs: seq<CliInput>, filtered: Option<seq<nat>>,
                    scrollTop: nat): Option<Anchor>
  {
    var count := VisibleCount(logs, filtered);
    var index := IndexAt(heights, est, count, scrollTop);
    if count == 0 then None
    else match LogAt(logs, filtered, index)
      case None => None
      case Some(log) => Some(Anchor(log.id, scrollTop - Offset(heights, est, index)))
  }

  /**
   * Within the rows, the anchor names the row under the viewport's top edge and an offset
   * inside that row, so that the row's top plus the offset gives back `scrollTop`.
   */
  lemma AnchorWithinRow(heights: map<nat, nat>, est: nat, logs: seq<CliInput>, filtered: Option<seq<nat>>,
                        scrollTop: nat)
    requires scrollTop < Offset(heights, est, VisibleCount(logs, filtered))
    requires AnchorAt(heights, est, logs, filtered, scrollTop).Some?
    ensures var index := IndexAt(heights, est, VisibleCount(logs, filtered), scrollTop);
      var anchor := AnchorAt(heights, est, logs, filtered, scrollTop).value;
      && LogAt(logs, filtered, index).Some? && anchor.id == LogAt(logs, filtered, index).value.id
      && 0 <= anchor.offset < Height(heights, est, index)
      && Offset(heights, est, index) + anchor.offset == scrollTop
  {
    var count := VisibleCount(logs, filtered);
    IndexAtContains(heights, est, count, scrollTop);
  }

  class VirtualScroller {
    const store: LogStore
    const heightCache: HeightCache
    const buffer: nat
    /** `container.clientHeight`. */
    const clientHeight: nat
    /** The smallest change of height `measureNode` records. */
    const threshold: nat
    var activeNodes: map<nat, nat>
    var recyclePool: seq<nat>
    /** Nodes made by `cloneTemplate` so far; node `n` is the n-th one made. */
    var nodesCreated: nat
    var startIndex: nat
    var endIndex: nat
    var pendingScrollCompensation: int
    /** `container.scrollTop`; the browser never lets it go below 0. */
    var scrollTop: nat
    var topSpacerHeight: nat
    var bottomSpacerHeight: nat

    ghost predicate Valid()
      reads this, heightCache
    {
      && heightCache.Valid()
      && buffer >= 1
      && NodesWellFormed(activeNodes, recyclePool, nodesCreated)
    }

    /** `createVirtualScroller`: a missing or zero estimate is 30, a missing or zero buffer 5. */
    constructor(store: LogStore, clientHeight: nat, threshold: nat, estimatedHeight: nat, buffer: nat)
      ensures Valid() && fresh(heightCache)
      ensures this.store == store && this.clientHeight == clientHeight && this.threshold == threshold
      ensures heightCache.estimatedHeight == (if estimatedHeight == 0 then 30 else estimatedHeight)
      ensures this.buffer == (if buffer == 0 then 5 else buffer)
      ensures heightCache.heights == map[] && heightCache.count == 0
      ensures activeNodes == map[] && recyclePool == [] && startIndex == 0 && endIndex == 0
      ensures pendingScrollCompensation == 0 && scrollTop == 0
    {
      this.store := store;
      this.clientHeight := clientHeight;
      this.threshold := threshold;
      var est := if estimatedHeight == 0 then 30 else estimatedHeight;
      this.buffer := if buffer == 0 then 5 else buffer;
      heightCache := new HeightCache(est);
      activeNodes := map[];
      recyclePool := [];
      nodesCreated := 0;
      startIndex := 0;
      endIndex := 0;
      pendingScrollCompensation := 0;
      scrollTop := 0;
      topSpacerHeight := 0;
      bottomSpacerHeight := 0;
    }

    /** `getOrCreateNode`: the last node of the pool, or a new one. */
    method GetOrCreateNode() returns (node: nat)
      requires Valid()
      modifies this
      ensures Valid()
      ensures old(recyclePool) != [] ==>
        node == old(recyclePool)[|old(recyclePool)| - 1] && recyclePool == old(recyclePool)[..|old(recyclePool)| - 1]
        && nodesCreated == old(nodesCreated)
      ensures old(recyclePool) == [] ==>
        node == old(nodesCreated) && nodesCreated == old(nodesCreated) + 1 && recyclePool == []
      ensures (forall i :: i in activeNodes ==> activeNodes[i] != node) && node !in recyclePool && node < nodesCreated
      ensures activeNodes == old(activeNodes) && startIndex == old(startIndex) && endIndex == old(endIndex)
      ensures pendingScrollCompensation == old(pendingScrollCompensation) && scrollTop == old(scrollTop)
      ensures topSpacerHeight == old(topSpacerHeight) && bottomSpacerHeight == old(bottomSpacerHeight)
    {
      if |recyclePool| > 0 {
        node := recyclePool[|recyclePool| - 1];
        recyclePool := recyclePool[..|recyclePool| - 1];
        return;
      }
      node := nodesCreated;
      nodesCreated := nodesCreated + 1;
    }

    /**
     * `measureNode`: records the height the row is laid out at unless it differs from the
     * known one by less than the threshold, and accumulates the change as scroll
     * compensation when the row had been measured before and lies above the range.
     */
    method MeasureNode(index: nat, newHeight: nat)
      requires Valid()
      modifies this, heightCache
      ensures Valid()
      ensures heightCache.heights == Measure(old(heightCache.heights), heightCache.estimatedHeight, threshold, index, newHeight)
      ensures heightCache.count == old(heightCache.count)
      ensures var oldHeight := Height(old(heightCache.heights), heightCache.estimatedHeight, index);
        pendingScrollCompensation == old(pendingScrollCompensation) +
          (if Dist(newHeight, oldHeight) >= threshold && index in old(heightCache.heights) && index < startIndex
           then newHeight - oldHeight else 0)
      ensures activeNodes == old(activeNodes) && recyclePool == old(recyclePool) && nodesCreated == old(nodesCreated)
      ensures startIndex == old(startIndex) && endIndex == old(endIndex) && scrollTop == old(scrollTop)
      ensures topSpacerHeight == old(topSpacerHeight) && bottomSpacerHeight == old(bottomSpacerHeight)
    {
      var wasPreviouslyMeasured := heightCache.HasMeasurement(index);
      var oldHeight := heightCache.GetHeight(index);
      if Dist(newHeight, oldHeight) < threshold {
        return;
      }
      heightCache.SetHeight(index, newHeight);
      if wasPreviouslyMeasured && index < startIndex {
        pendingScrollCompensation := pendingScrollCompensation + (newHeight - oldHeight);
      }
    }

    /**
     * `recycleNodesOutsideRange`: the rows outside [lo, hi) lose their nodes, which go
     * onto the pool.
     */
    method RecycleNodesOutsideRange(lo: nat, hi: nat)
      requires Valid()
      modifies this
      ensures Valid()
      ensures activeNodes == Shown(old(activeNodes), lo, hi)
      ensures |old(recyclePool)| <= |recyclePool| && recyclePool[..|old(recyclePool)|] == old(recyclePool)
      ensures forall k :: |old(recyclePool)| <= k < |recyclePool| ==> recyclePool[k] in Released(old(activeNodes), lo, hi)
      ensures forall i :: i in old(activeNodes) && !(lo <= i < hi) ==> old(activeNodes)[i] in recyclePool
      ensures nodesCreated == old(nodesCreated) && startIndex == old(startIndex) && endIndex == old(endIndex)
      ensures pendingScrollCompensation == old(pendingScrollCompensation) && scrollTop == old(scrollTop)
      ensures topSpacerHeight == old(topSpacerHeight) && bottomSpacerHeight == old(bottomSpacerHeight)
    {
      activeNodes, recyclePool := RecycleOutside(activeNodes, recyclePool, nodesCreated, lo, hi);
    }

    /**
     * `renderItem`: takes a node, shows row `index` in it and measures it.  What the node
     * displays is not modelled.
     */
    method RenderItem(index: nat, log: CliInput, layout: CliInput -> nat)
      requires Valid() && index !in activeNodes
      modifies this, heightCache
      ensures Valid()
      ensures activeNodes.Keys == old(activeNodes).Keys + {index}
      ensures forall i :: i in old(activeNodes) ==> activeNodes[i] == old(activeNodes)[i]
      ensures heightCache.heights == Measure(old(heightCache.heights), heightCache.estimatedHeight, threshold, index, layout(log))
      ensures heightCache.count == old(heightCache.count)
      ensures index >= startIndex ==> pendingScrollCompensation == old(pendingScrollCompensation)
      ensures startIndex == old(startIndex) && endIndex == old(endIndex) && scrollTop == old(scrollTop)
      ensures topSpacerHeight == old(topSpacerHeight) && bottomSpacerHeight == old(bottomSpacerHeight)
    {
      var node := GetOrCreateNode();
      activeNodes := activeNodes[index := node];
      MeasureNode(index, layout(log));
    }

    /**
     * `renderRange`: renders the rows of [lo, hi) that have no node yet and have a log,
     * in increasing order.
     */
    method RenderRange(lo: nat, hi: nat, layout: CliInput -> nat)
      requires Valid() && store.Valid()
      modifies this, heightCache, store
      ensures Valid() && store.Valid()
      ensures store.logs == old(store.logs) && store.filtered == old(store.filtered) && store.filterFn == old(store.filterFn)
      ensures (store.cacheOrder, store.highlighted)
           == CacheVisits(store.highlight, store.logs, store.maxCacheSize, old(store.cacheOrder), old(store.highlighted),
                          RowIds(store.logs, store.filtered, Batch(old(activeNodes).Keys, store.logs, store.filtered, lo, hi)))
      ensures var batch := Batch(old(activeNodes).Keys, store.logs, store.filtered, lo, hi);
        && activeNodes.Keys == old(activeNodes).Keys + Elems(batch)
        && heightCache.heights == MeasureAll(old(heightCache.heights), heightCache.estimatedHeight, threshold,
                                             layout, store.logs, store.filtered, batch)
      ensures heightCache.count == old(heightCache.count)
      ensures lo >= startIndex ==> pendingScrollCompensation == old(pendingScrollCompensation)
      ensures startIndex == old(startIndex) && endIndex == old(endIndex) && scrollTop == old(scrollTop)
      ensures topSpacerHeight == old(topSpacerHeight) && bottomSpacerHeight == old(bottomSpacerHeight)
    {
      var batch := CollectBatch(lo, hi);
      if |batch| == 0 {
        return;
      }
      BatchIncreasing(activeNodes.Keys, store.logs, store.filtered, lo, hi);
      forall j | 0 <= j < |batch|
        ensures lo <= batch[j] && NeedsRender(activeNodes.Keys, store.logs, store.filtered, batch[j])
      {
        BatchMembers(activeNodes.Keys, store.logs, store.filtered, lo, hi, batch[j]);
      }
      FetchRows(batch);
      RenderBatch(batch, lo, layout);
    }

    /**
     * The lookups of a render pass: `getHighlighted` on the log of each collected row, in
     * order.  Under `Promise.all` each row's callback runs up to its first `await`, so every
     * lookup of the batch starts before any row is rendered.
     */
    method FetchRows(batch: seq<nat>)
      requires Valid() && store.Valid() && forall j :: 0 <= j < |batch| ==> LogAt(store.logs, store.filtered, batch[j]).Some?
      modifies store
      ensures Valid() && store.Valid()
      ensures store.logs == old(store.logs) && store.filtered == old(store.filtered) && store.filterFn == old(store.filterFn)
      ensures (store.cacheOrder, store.highlighted)
           == CacheVisits(store.highlight, store.logs, store.maxCacheSize, old(store.cacheOrder), old(store.highlighted),
                          RowIds(store.logs, store.filtered, batch))
    {
      var k := 0;
      while k < |batch|
        invariant store.Valid() && k <= |batch|
        invariant store.logs == old(store.logs) && store.filtered == old(store.filtered) && store.filterFn == old(store.filterFn)
        invariant (store.cacheOrder, store.highlighted)
               == CacheVisits(store.highlight, store.logs, store.maxCacheSize, old(store.cacheOrder), old(store.highlighted),
                              RowIds(store.logs, store.filtered, batch[..k]))
      {
        var log := store.GetLogAt(batch[k]).value;
        var highlighted := store.GetHighlighted(log.id);
        RowIdsStep(store.logs, store.filtered, batch, k);
        CacheVisitsSnoc(store.highlight, store.logs, store.maxCacheSize, old(store.cacheOrder), old(store.highlighted),
                        RowIds(store.logs, store.filtered, batch[..k]), log.id);
        k := k + 1;
      }
      assert batch[..k] == batch;
    }

    /** The rendering loop of `renderRange`, over the collected rows. */
    method RenderBatch(batch: seq<nat>, lo: nat, layout: CliInput -> nat)
      requires Valid() && StrictlyIncreasing(batch)
      requires forall j :: 0 <= j < |batch| ==> lo <= batch[j] && NeedsRender(activeNodes.Keys, store.logs, store.filtered, batch[j])
      modifies this, heightCache
      ensures Valid()
      ensures activeNodes.Keys == old(activeNodes).Keys + Elems(batch)
      ensures heightCache.heights == MeasureAll(old(heightCache.heights), heightCache.estimatedHeight, threshold,
                                                layout, store.logs, store.filtered, batch)
      ensures heightCache.count == old(heightCache.count)
      ensures lo >= startIndex ==> pendingScrollCompensation == old(pendingScrollCompensation)
      ensures startIndex == old(startIndex) && endIndex == old(endIndex) && scrollTop == old(scrollTop)
      ensures topSpacerHeight == old(topSpacerHeight) && bottomSpacerHeight == old(bottomSpacerHeight)
    {
      ghost var logs, filtered, active := store.logs, store.filtered, activeNodes.Keys;
      ghost var est, h0 := heightCache.estimatedHeight, heightCache.heights;
      var k := 0;
      assert batch[..0] == [];
      while k < |batch|
        invariant Valid() && k <= |batch|
        invariant activeNodes.Keys == active + Elems(batch[..k])
        invariant heightCache.heights == MeasureAll(h0, est, threshold, layout, logs, filtered, batch[..k])
        invariant heightCache.count == old(heightCache.count)
        invariant lo >= startIndex ==> pendingScrollCompensation == old(pendingScrollCompensation)
        invariant startIndex == old(startIndex) && endIndex == old(endIndex) && scrollTop == old(scrollTop)
        invariant topSpacerHeight == old(topSpacerHeight) && bottomSpacerHeight == old(bottomSpacerHeight)
      {
        var index := batch[k];
        IncreasingFresh(batch, k);
        assert NeedsRender(active, logs, filtered, index) && index >= lo;
        RenderRow(index, layout);
        ElemsSnoc(batch, k);
        MeasureAllStep(h0, est, threshold, layout, logs, filtered, batch, k);
        k := k + 1;
      }
      assert batch[..k] == batch;
    }

    /** One step of the rendering loop: the row's log is looked up, shown and measured. */
    method RenderRow(index: nat, layout: CliInput -> nat)
      requires Valid() && NeedsRender(activeNodes.Keys, store.logs, store.filtered, index)
      modifies this, heightCache
      ensures Valid()
      ensures activeNodes.Keys == old(activeNodes).Keys + {index}
      ensures heightCache.heights == Measure(old(heightCache.heights), heightCache.estimatedHeight, threshold, index,
                                             RowHeight(layout, store.logs, store.filtered, index))
      ensures heightCache.count == old(heightCache.count)
      ensures index >= startIndex ==> pendingScrollCompensation == old(pendingScrollCompensation)
      ensures startIndex == old(startIndex) && endIndex == old(endIndex) && scrollTop == old(scrollTop)
      ensures topSpacerHeight == old(topSpacerHeight) && bottomSpacerHeight == old(bottomSpacerHeight)
    {
      var log := store.GetLogAt(index).value;
      RenderItem(index, log, layout);
    }

    /** The collecting loop of `renderRange`. */
    method CollectBatch(lo: nat, hi: nat) returns (batch: seq<nat>)
      ensures batch == Batch(activeNodes.Keys, store.logs, store.filtered, lo, hi)
    {
      var visibleCount := store.GetVisibleCount();
      batch := [];
      var i := lo;
      while i < hi
        invariant lo <= i && (i <= hi || i == lo)
        invariant batch == Batch(activeNodes.Keys, store.logs, store.filtered, lo, i)
      {
        if i in activeNodes {
        } else if i >= visibleCount {
        } else {
          var log := store.GetLogAt(i);
          if log.Some? {
            batch := batch + [i];
          }
        }
        i := i + 1;
      }
    }

    /**
     * `render`: with no visible rows, only the spacers are reset.  Otherwise the range is
     * computed from the heights as they stand, the rows outside it are recycled, the rows
     * inside it that have no node are rendered and measured, and the spacers take the
     * heights of the rows above and below the range.  A sequential pass renders no row
     * above the range, so no scroll compensation builds up and `scrollTop` stays put.
     */
    method Render(layout: CliInput -> nat)
      requires Valid() && store.Valid()
      modifies this, heightCache, store
      ensures Valid() && store.Valid()
      ensures store.logs == old(store.logs) && store.filtered == old(store.filtered) && store.filterFn == old(store.filterFn)
      ensures (store.cacheOrder, store.highlighted)
           == CacheVisits(store.highlight, store.logs, store.maxCacheSize, old(store.cacheOrder), old(store.highlighted),
                          if VisibleCount(store.logs, store.filtered) > 0
                          then RowIds(store.logs, store.filtered, Batch(old(activeNodes).Keys, store.logs, store.filtered, startIndex, endIndex))
                          else [])
      ensures scrollTop == old(scrollTop)
      ensures VisibleCount(store.logs, store.filtered) == 0 ==>
        && topSpacerHeight == 0 && bottomSpacerHeight == 0
        && activeNodes == old(activeNodes) && heightCache.heights == old(heightCache.heights)
        && startIndex == old(startIndex) && endIndex == old(endIndex)
        && pendingScrollCompensation == old(pendingScrollCompensation)
      ensures var vc := VisibleCount(store.logs, store.filtered);
        var est := heightCache.estimatedHeight;
        vc > 0 ==>
        && startIndex == RangeStart(old(heightCache.heights), est, vc, scrollTop, buffer)
        && endIndex == RangeEnd(old(heightCache.heights), est, vc, scrollTop, clientHeight, buffer)
        && startIndex < endIndex <= vc
        && (forall i :: i in activeNodes <==>
              startIndex <= i < endIndex && (i in old(activeNodes) || LogAt(store.logs, store.filtered, i).Some?))
        && heightCache.heights == MeasureAll(old(heightCache.heights), est, threshold, layout, store.logs, store.filtered,
                                             Batch(old(activeNodes).Keys, store.logs, store.filtered, startIndex, endIndex))
        && topSpacerHeight == Offset(old(heightCache.heights), est, startIndex)
        && topSpacerHeight == Offset(heightCache.heights, est, startIndex)
        && bottomSpacerHeight == Offset(heightCache.heights, est, vc) - Offset(heightCache.heights, est, endIndex)
        && pendingScrollCompensation == 0
        && heightCache.count == vc && !heightCache.dirty
    {
      var visibleCount := store.GetVisibleCount();
      if visibleCount == 0 {
        topSpacerHeight := 0;
        bottomSpacerHeight := 0;
        return;
      }
      var start, end := ComputeRange(visibleCount);
      startIndex := start;
      endIndex := end;
      pendingScrollCompensation := 0;
      RenderWithin(start, end, visibleCount, layout);
      // Applying a zero compensation changes nothing, so the guard `!== 0` is dropped.
      scrollTop := Max0(scrollTop + pendingScrollCompensation);
      pendingScrollCompensation := 0;
    }

    /** The part of `render` after the range is known: recycle, render, size the spacers. */
    method RenderWithin(start: nat, end: nat, visibleCount: nat, layout: CliInput -> nat)
      requires Valid() && store.Valid() && start == startIndex && end <= visibleCount
      modifies this, heightCache, store
      ensures Valid() && store.Valid()
      ensures store.logs == old(store.logs) && store.filtered == old(store.filtered) && store.filterFn == old(store.filterFn)
      ensures (store.cacheOrder, store.highlighted)
           == CacheVisits(store.highlight, store.logs, store.maxCacheSize, old(store.cacheOrder), old(store.highlighted),
                          RowIds(store.logs, store.filtered, Batch(old(activeNodes).Keys, store.logs, store.filtered, start, end)))
      ensures scrollTop == old(scrollTop) && startIndex == old(startIndex) && endIndex == old(endIndex)
      ensures pendingScrollCompensation == old(pendingScrollCompensation)
      ensures forall i :: i in activeNodes <==>
        start <= i < end && (i in old(activeNodes) || LogAt(store.logs, store.filtered, i).Some?)
      ensures heightCache.heights == MeasureAll(old(heightCache.heights), heightCache.estimatedHeight, threshold, layout,
                                                store.logs, store.filtered, Batch(old(activeNodes).Keys, store.logs, store.filtered, start, end))
      ensures topSpacerHeight == Offset(old(heightCache.heights), heightCache.estimatedHeight, start)
      ensures topSpacerHeight == Offset(heightCache.heights, heightCache.estimatedHeight, start)
      ensures bottomSpacerHeight == Offset(heightCache.heights, heightCache.estimatedHeight, visibleCount)
                                    - Offset(heightCache.heights, heightCache.estimatedHeight, end)
      ensures heightCache.count == visibleCount && !heightCache.dirty
    {
      ghost var logs, filtered := store.logs, store.filtered;
      ghost var est := heightCache.estimatedHeight;
      ghost var h0 := heightCache.heights;
      ghost var active0 := activeNodes;
      RecycleNodesOutsideRange(start, end);
      BatchDependsOnRange(activeNodes.Keys, active0.Keys, logs, filtered, start, end);
      ghost var batch := Batch(active0.Keys, logs, filtered, start, end);
      RenderRange(start, end, layout);
      RenderedRows(active0, logs, filtered, start, end, activeNodes);
      MeasureBelowKeepsOffset(h0, est, threshold, layout, logs, filtered, batch, start);
      UpdateSpacers(start, end, visibleCount);
    }

    /** The range computation of `render`, on freshly rebuilt prefix sums. */
    method ComputeRange(visibleCount: nat) returns (start: nat, end: nat)
      requires Valid() && visibleCount > 0
      modifies heightCache
      ensures Valid()
      ensures heightCache.heights == old(heightCache.heights) && heightCache.count == visibleCount
      ensures start == RangeStart(heightCache.heights, heightCache.estimatedHeight, visibleCount, scrollTop, buffer)
      ensures end == RangeEnd(heightCache.heights, heightCache.estimatedHeight, visibleCount, scrollTop, clientHeight, buffer)
      ensures start < end <= visibleCount
    {
      heightCache.Rebuild(visibleCount);
      var top := heightCache.FindIndexAtOffset(scrollTop);
      var bottom := heightCache.FindIndexAtOffset(scrollTop + clientHeight);
      start := Max0(top - buffer);
      end := if visibleCount < bottom + buffer + 1 then visibleCount else bottom + buffer + 1;
      VisibleRange(heightCache.heights, heightCache.estimatedHeight, visibleCount, scrollTop, clientHeight, buffer, 0);
    }

    /** The spacer heights of `render`, on prefix sums rebuilt after measuring. */
    method UpdateSpacers(start: nat, end: nat, visibleCount: nat)
      requires Valid() && end <= visibleCount
      modifies this, heightCache
      ensures Valid()
      ensures heightCache.heights == old(heightCache.heights) && heightCache.count == visibleCount && !heightCache.dirty
      ensures topSpacerHeight == Offset(heightCache.heights, heightCache.estimatedHeight, start)
      ensures bottomSpacerHeight == Offset(heightCache.heights, heightCache.estimatedHeight, visibleCount)
                                    - Offset(heightCache.heights, heightCache.estimatedHeight, end)
      ensures activeNodes == old(activeNodes) && recyclePool == old(recyclePool) && nodesCreated == old(nodesCreated)
      ensures startIndex == old(startIndex) && endIndex == old(endIndex) && scrollTop == old(scrollTop)
      ensures pendingScrollCompensation == old(pendingScrollCompensation)
    {
      heightCache.Rebuild(visibleCount);
      var topHeight := heightCache.GetOffset(start);
      var endOffset := heightCache.GetOffset(end);
      var total := heightCache.GetTotalHeight();
      OffsetMonotone(heightCache.heights, heightCache.estimatedHeight, end, visibleCount);
      topSpacerHeight := topHeight;
      bottomSpacerHeight := Max0(total - endOffset);
    }

    /**
     * `scrollToBottom`: up to three times, until `scrollTop` stops changing, scrolls so the
     * end of the last row meets the viewport's bottom and renders there.  The range of the
     * final render runs to the last row.
     */
    method ScrollToBottom(layout: CliInput -> nat)
      requires Valid() && store.Valid()
      modifies this, heightCache, store
      ensures Valid() && store.Valid()
      ensures store.logs == old(store.logs) && store.filtered == old(store.filtered) && store.filterFn == old(store.filterFn)
      ensures VisibleCount(store.logs, store.filtered) == 0 ==>
        scrollTop == old(scrollTop) && activeNodes == old(activeNodes) && heightCache.heights == old(heightCache.heights)
      ensures VisibleCount(store.logs, store.filtered) > 0 ==> AtBottom(VisibleCount(store.logs, store.filtered))
    {
      var visibleCount := store.GetVisibleCount();
      if visibleCount == 0 {
        return;
      }
      var previousScrollTop: int := -1;
      var iterations := 0;
      while iterations < 3 && scrollTop != previousScrollTop
        invariant Valid() && store.Valid() && iterations <= 3
        invariant store.logs == old(store.logs) && store.filtered == old(store.filtered)
        invariant store.filterFn == old(store.filterFn)
        invariant iterations == 0 ==> previousScrollTop == -1
        invariant iterations > 0 ==> AtBottom(visibleCount)
        decreases 3 - iterations
      {
        previousScrollTop := scrollTop;
        BottomPass(visibleCount, layout);
        iterations := iterations + 1;
      }
    }

    /**
     * The state `scrollToBottom` leaves over `vc` rows: the rendered range runs to the last
     * row, that row is shown when it has a log, and the prefix sums are fresh.
     */
    ghost predicate AtBottom(vc: nat)
      reads this, heightCache, store
    {
      && startIndex < endIndex == vc
      && (LogAt(store.logs, store.filtered, vc - 1).Some? ==> vc - 1 in activeNodes)
      && heightCache.count == vc && !heightCache.dirty && pendingScrollCompensation == 0
    }

    /** One turn of the `scrollToBottom` loop: scroll so the last row ends at the viewport's bottom, then render. */
    method BottomPass(visibleCount: nat, layout: CliInput -> nat)
      requires Valid() && store.Valid() && visibleCount == VisibleCount(store.logs, store.filtered) && visibleCount > 0
      modifies this, heightCache, store
      ensures Valid() && store.Valid()
      ensures store.logs == old(store.logs) && store.filtered == old(store.filtered) && store.filterFn == old(store.filterFn)
      ensures AtBottom(visibleCount)
    {
      scrollTop := BottomTop(visibleCount);
      BottomRangeEndsAtLastRow(heightCache.heights, heightCache.estimatedHeight, visibleCount, clientHeight, buffer);
      Render(layout);
    }

    /**
     * `scrollToIndex`: for a row in range, scrolls to where the alignment asks and renders
     * there; the row then lies in the rendered range, and is shown when it has a log.  An
     * index out of range changes nothing.
     */
    method ScrollToIndex(index: int, align: Align, layout: CliInput -> nat)
      requires Valid() && store.Valid()
      modifies this, heightCache, store
      ensures Valid() && store.Valid()
      ensures store.logs == old(store.logs) && store.filtered == old(store.filtered) && store.filterFn == old(store.filterFn)
      ensures !(0 <= index < VisibleCount(store.logs, store.filtered)) ==>
        store.cacheOrder == old(store.cacheOrder) && store.highlighted == old(store.highlighted)
      ensures (store.cacheOrder, store.highlighted)
           == CacheVisits(store.highlight, store.logs, store.maxCacheSize, old(store.cacheOrder), old(store.highlighted),
                          if 0 <= index < VisibleCount(store.logs, store.filtered)
                          then RowIds(store.logs, store.filtered, Batch(old(activeNodes).Keys, store.logs, store.filtered, startIndex, endIndex))
                          else [])
      ensures !(0 <= index < VisibleCount(store.logs, store.filtered)) ==>
        && scrollTop == old(scrollTop) && activeNodes == old(activeNodes)
        && heightCache.heights == old(heightCache.heights)
        && startIndex == old(startIndex) && endIndex == old(endIndex)
      ensures 0 <= index < VisibleCount(store.logs, store.filtered) ==>
        scrollTop == AlignedScrollTop(old(heightCache.heights), heightCache.estimatedHeight,
                                      VisibleCount(store.logs, store.filtered), index, align, old(scrollTop), clientHeight)
      ensures (&& 0 <= index < VisibleCount(store.logs, store.filtered) && align != Other
               && Height(old(heightCache.heights), heightCache.estimatedHeight, index) > 0
               && (align == End ==> clientHeight > 0)) ==>
        && startIndex <= index < endIndex
        && (LogAt(store.logs, store.filtered, index).Some? ==> index in activeNodes)
    {
      var visibleCount := store.GetVisibleCount();
      if index < 0 || index >= visibleCount {
        return;
      }
      scrollTop := AlignedTop(index, align, visibleCount);
      ghost var heights, est := heightCache.heights, heightCache.estimatedHeight;
      VisibleRange(heights, est, visibleCount, scrollTop, clientHeight, buffer, index);
      if align != Other && Height(heights, est, index) > 0 && (align == End ==> clientHeight > 0) {
        AlignedRowOverlaps(heights, est, visibleCount, index, align, old(scrollTop), clientHeight);
      }
      Render(layout);
    }

    /**
     * `getScrollAnchor`: the log at the viewport's top edge and how far into its row the
     * viewport starts, or nothing when there are no rows or that row has no log.
     */
    method GetScrollAnchor() returns (anchor: Option<Anchor>)
      requires Valid()
      modifies heightCache
      ensures Valid()
      ensures heightCache.heights == old(heightCache.heights)
      ensures anchor == AnchorAt(heightCache.heights, heightCache.estimatedHeight, store.logs, store.filtered, scrollTop)
    {
      var visibleCount := store.GetVisibleCount();
      if visibleCount == 0 {
        return None;
      }
      heightCache.Rebuild(visibleCount);
      var index := heightCache.FindIndexAtOffset(scrollTop);
      var log := store.GetLogAt(index);
      if log.None? {
        return None;
      }
      var offset := heightCache.GetOffset(index);
      anchor := Some(Anchor(log.value.id, scrollTop - offset));
    }

    /**
     * `rerender`: forgets every measurement, gives every node back to the pool, and with
     * rows left clamps `scrollTop` to the estimated total height before rendering afresh;
     * with no rows, `scrollTop` and the spacers go to 0.
     */
    method Rerender(layout: CliInput -> nat)
      requires Valid() && store.Valid()
      modifies this, heightCache, store
      ensures Valid() && store.Valid()
      ensures store.logs == old(store.logs) && store.filtered == old(store.filtered) && store.filterFn == old(store.filterFn)
      ensures (store.cacheOrder, store.highlighted)
           == CacheVisits(store.highlight, store.logs, store.maxCacheSize, old(store.cacheOrder), old(store.highlighted),
                          if VisibleCount(store.logs, store.filtered) > 0
                          then RowIds(store.logs, store.filtered, Batch({}, store.logs, store.filtered, startIndex, endIndex))
                          else [])
      ensures VisibleCount(store.logs, store.filtered) == 0 ==>
        && scrollTop == 0 && topSpacerHeight == 0 && bottomSpacerHeight == 0
        && activeNodes == map[] && heightCache.heights == map[]
      ensures var vc := VisibleCount(store.logs, store.filtered);
        var est := heightCache.estimatedHeight;
        vc > 0 ==>
        && scrollTop == (if old(scrollTop) > Max0(vc * est - clientHeight) then Max0(vc * est - clientHeight) else old(scrollTop))
        && startIndex == RangeStart(map[], est, vc, scrollTop, buffer)
        && endIndex == RangeEnd(map[], est, vc, scrollTop, clientHeight, buffer)
        && (forall i :: i in activeNodes <==> startIndex <= i < endIndex && LogAt(store.logs, store.filtered, i).Some?)
        && heightCache.heights == MeasureAll(map[], est, threshold, layout, store.logs, store.filtered,
                                             Batch({}, store.logs, store.filtered, startIndex, endIndex))
    {
      heightCache.Clear();
      ReleaseAllNodes();
      var visibleCount := store.GetVisibleCount();
      if visibleCount == 0 {
        scrollTop := 0;
        topSpacerHeight := 0;
        bottomSpacerHeight := 0;
        return;
      }
      scrollTop := ClampedTop(visibleCount);
      assert activeNodes.Keys == {};
      Render(layout);
    }

    /** The position computation of `scrollToBottom`, on rebuilt prefix sums. */
    method BottomTop(visibleCount: nat) returns (top: nat)
      requires Valid()
      modifies heightCache
      ensures Valid() && heightCache.heights == old(heightCache.heights)
      ensures heightCache.count == visibleCount && !heightCache.dirty
      ensures top == BottomScrollTop(heightCache.heights, heightCache.estimatedHeight, visibleCount, clientHeight)
    {
      heightCache.Rebuild(visibleCount);
      var totalHeight := heightCache.GetTotalHeight();
      top := Max0(totalHeight - clientHeight);
    }

    /** The position computation of `scrollToIndex`, on rebuilt prefix sums. */
    method AlignedTop(index: nat, align: Align, visibleCount: nat) returns (top: nat)
      requires Valid()
      modifies heightCache
      ensures Valid() && heightCache.heights == old(heightCache.heights)
      ensures heightCache.count == visibleCount && !heightCache.dirty
      ensures top == AlignedScrollTop(heightCache.heights, heightCache.estimatedHeight, visibleCount, index, align,
                                      scrollTop, clientHeight)
    {
      heightCache.Rebuild(visibleCount);
      var offset := heightCache.GetOffset(index);
      var itemHeight := heightCache.GetHeight(index);
      match align {
        case Start => top := offset;
        case Center => top := Max0((2 * offset - clientHeight + itemHeight) / 2);
        case End => top := Max0(offset + itemHeight - clientHeight);
        case Other => top := scrollTop;
      }
      if align != Other {
        // the browser's clamp of the assignment
        var totalHeight := heightCache.GetTotalHeight();
        if top > Max0(totalHeight - clientHeight) {
          top := Max0(totalHeight - clientHeight);
        }
      }
    }

    /** The clamping of `rerender`: no further down than the estimated total height allows. */
    method ClampedTop(visibleCount: nat) returns (top: nat)
      requires Valid() && heightCache.heights == map[]
      modifies heightCache
      ensures Valid() && heightCache.heights == map[]
      ensures heightCache.count == visibleCount && !heightCache.dirty
      ensures var maxScroll := Max0(visibleCount * heightCache.estimatedHeight - clientHeight);
        top == if scrollTop > maxScroll then maxScroll else scrollTop
    {
      heightCache.Rebuild(visibleCount);
      var totalHeight := heightCache.GetTotalHeight();
      OffsetUnmeasured(heightCache.estimatedHeight, visibleCount);
      var maxScroll := Max0(totalHeight - clientHeight);
      top := scrollTop;
      if top > maxScroll {
        top := maxScroll;
      }
    }

    /** The loop of `rerender` over the shown rows: every node goes back to the pool. */
    method ReleaseAllNodes()
      requires Valid()
      modifies this
      ensures Valid() && activeNodes == map[]
      ensures forall i :: i in old(activeNodes) ==> old(activeNodes)[i] in recyclePool
      ensures nodesCreated == old(nodesCreated) && startIndex == old(startIndex) && endIndex == old(endIndex)
      ensures pendingScrollCompensation == old(pendingScrollCompensation) && scrollTop == old(scrollTop)
      ensures topSpacerHeight == old(topSpacerHeight) && bottomSpacerHeight == old(bottomSpacerHeight)
    {
      activeNodes, recyclePool := RecycleOutside(activeNodes, recyclePool, nodesCreated, 0, 0);
      assert activeNodes == map[];
    }
  }
}

=== FILE: wrappers.dfy ===
/** Option and Result, used for JavaScript's `undefined`/`null` and for thrown errors. */
module Wrappers {

  datatype Option<+T> = None | Some(value: T)

  datatype Result<+T, +E> = Ok(value: T) | Err(error: E)
}
